=== FILE: README.md ===
# family-task-hub: a Dafny model of the task feature and the user sync

This project models the logic of a household task tracker. It covers the web
client's task feature and the backend code that mirrors the identity
provider's users into the local user table. Everything is written as pure
functions over immutable datatypes. Time zones, "now", collations and the
database are parameters.

The model covers:

- **Task list derivation** (`FilterTasks`, `Sorting`, `TasksPage`, `LegacyTasksPage`).
  - The filter predicate and the two sort orders of `useFilterTasks`.
  - The sort is a stable insertion sort over an abstract total preorder, which stands in for `localeCompare`.
  - The filter-state handlers of the new tasks page.
  - Toggle-status, replace-by-id and clear-filters on the older page.
- **Wire and form transforms** (`JsDates`, `Calendar`, `Transform`, `FormSchema`, `TaskForm`, `TaskModal`, `AddTask`).
  - JavaScript dates are a time value or Invalid Date, with a fixed local offset in minutes.
  - The proleptic Gregorian calendar is proved bijective on day numbers.
  - `toApiTask`/`fromApiTask`.
  - The three zod schemas, read as predicates that give field-level failures.
  - The default values and submit payloads of the three task forms.
- **Client cache protocol** (`QueryCache`): the query-key hierarchy of `useTasks.ts`, prefix invalidation, and the success and failure rules of the three mutations.
- **Modal sessions** (`TaskModalStore`, `TaskModalHook`): the zustand store and the older hook. Both are state machines with a reachable-state characterisation.
- **Display helpers** (`DueDate`, `UserColors`, `Members`, `CategoryColors`).
  - The Today/Tomorrow/overdue rule.
  - The 32-bit string hash behind user colours.
  - Acronyms and initials.
  - The assignee picker's `'none'` mapping.
  - The two category colour tables.
- **Backend** (`BackendModels`, `UserStore`, `Webhooks`, `UserSync`).
  - The task and user models as validators.
  - The three identity-provider webhook handlers, with rollback.
  - The `sync_clerk_users` script: extraction, per-user decision, deactivation, stats and the final commit.

The support modules are `Wrappers` (`Option`, `Result`) and `Text`. `Text`
holds JavaScript and Python whitespace, trimming, `split(/\s+/)`, ASCII case
mapping, substring search and UTF-16 length.

Where the code departs from what its own names, comments and callers suggest, the model follows the code:

- The client formats a due date from its UTC day (`toISOString`), not from its local calendar fields. The round trip therefore loses a day east of UTC; see Findings.
- The search query is trimmed but not lower-cased, while the text it is searched in is lower-cased. A query containing a capital letter therefore matches nothing.
- The mutations have no optimistic update and no rollback. A failed mutation simply leaves the cache alone.
- `resetModal` opens the modal, and `closeModal` keeps the mode and the current task.
- `TasksPage.tsx:6-10` imports `INITIAL_FILTERS` from `useFilterTasks.ts`, and `TasksPage.tsx:37` reads `isDirty` from the hook's result. `useFilterTasks.ts` defines neither. The initial filters are taken to be the same as the older page's initial state: empty search, `all`, `all`, `dueDate`.

The user table is a sequence of rows, not a map keyed by `clerk_id`. The
shown models declare no uniqueness for `clerk_id`, and every lookup is
`.first()`, so a sequence with "first row with the id" is the faithful
reading. `email` is declared unique. A commit that would duplicate an email
is refused and rolled back.

The shown `User` table model has neither `clerk_id` nor `image_url`, and it
requires `hashed_password`. The handlers and the script use the first two and
never set the third. The model uses the row the handlers and the script
evidently expect: provider id, email, full name, image URL and the two flags.

## Model

| member | source | states |
|---|---|---|
| FilterTasks.Keep | frontend/src/features/tasks/hooks/useFilterTasks.ts:17-24 | a task is kept iff the search, category and assignee clauses all hold, and the result is a sub-multiset of the input |
| FilterTasks.KeepOne | frontend/src/features/tasks/hooks/useFilterTasks.ts:17-24 | a single task is kept iff it matches |
| FilterTasks.KeepAppend | frontend/src/features/tasks/hooks/useFilterTasks.ts:17-24 | filtering a concatenation is the concatenation of the filtered parts, so input order survives |
| FilterTasks.KeepCounts | frontend/src/features/tasks/hooks/useFilterTasks.ts:17-24 | every occurrence of a matching task is kept and every other occurrence dropped |
| FilterTasks.UseFilterTasks | frontend/src/features/tasks/hooks/useFilterTasks.ts:12-33 | the hook returns a rearrangement of the filtered list: each matching task as often as in the input, nothing else |
| FilterTasks.BlankQueryMatchesAll | frontend/src/features/tasks/hooks/useFilterTasks.ts:15-18 | a blank or whitespace-only query passes every task, because the query is trimmed first |
| FilterTasks.CapitalInQueryMatchesNothing | frontend/src/features/tasks/hooks/useFilterTasks.ts:15-19 | a trimmed query containing an ASCII capital matches no task, since only the searched text is lower-cased |
| FilterTasks.UnknownCategoryKeepsNothing | frontend/src/features/tasks/hooks/useFilterTasks.ts:20 | a category other than `all` that names no category keeps nothing (exact equality) |
| FilterTasks.OpenFiltersKeepEverything | frontend/src/features/tasks/hooks/useFilterTasks.ts:15-32 | blank search with category and assignee `all` yields a permutation of the input |
| FilterTasks.DueDateSortOrdered | frontend/src/features/tasks/hooks/useFilterTasks.ts:26-29 | sorting by due date gives non-decreasing times, and tasks due at the same instant keep their input order |
| FilterTasks.TitleSortOrdered | frontend/src/features/tasks/hooks/useFilterTasks.ts:32 | any other sort key orders by title under the collation, stably |
| FilterTasks.DueOrderIsPreorder | frontend/src/features/tasks/hooks/useFilterTasks.ts:27-29 | the due-date comparator is a total preorder when every date is valid |
| FilterTasks.TitleOrderIsPreorder | frontend/src/features/tasks/hooks/useFilterTasks.ts:32 | the title comparator is a total preorder for any collation that is one |
| FilterTasks.KeepAll | frontend/src/features/tasks/hooks/useFilterTasks.ts:17-24 | when every task matches, the filter returns its input unchanged |
| FilterTasks.KeepNone | frontend/src/features/tasks/hooks/useFilterTasks.ts:17-24 | when no task matches, the filter returns the empty list |
| Sorting.SortPermutes | frontend/src/features/tasks/hooks/useFilterTasks.ts:27-32 | the sort returns a permutation of its input (a fresh copy; the input is a value) |
| Sorting.SortSorted | frontend/src/features/tasks/hooks/useFilterTasks.ts:27-32 | under a total preorder the sort's output is ordered |
| Sorting.SortStable | frontend/src/features/tasks/hooks/useFilterTasks.ts:27-32 | values that sort level with any value leave in the order they came in |
| Sorting.InsertPermutes | frontend/src/features/tasks/hooks/useFilterTasks.ts:27-32 | one insertion adds exactly the inserted value |
| Sorting.InsertSorted | frontend/src/features/tasks/hooks/useFilterTasks.ts:27-32 | inserting into an ordered list keeps it ordered |
| Sorting.LevelOfInsert | frontend/src/features/tasks/hooks/useFilterTasks.ts:27-32 | an inserted value lands after every value already level with it |
| TasksPage.HandleSearchChange | frontend/src/features/tasks/pages/TasksPage.tsx:19-21 | only `searchQuery` changes; the other three fields are kept |
| TasksPage.HandleCategoryChange | frontend/src/features/tasks/pages/TasksPage.tsx:23-25 | only `category` changes |
| TasksPage.HandleAssigneeChange | frontend/src/features/tasks/pages/TasksPage.tsx:27-29 | only `assignee` changes |
| TasksPage.HandleSortChange | frontend/src/features/tasks/pages/TasksPage.tsx:31-33 | only `sortBy` changes |
| TasksPage.ResetForgetsHistory | frontend/src/features/tasks/pages/TasksPage.tsx:35 | reset after any sequence of edits yields the initial filters, and reset is idempotent |
| TasksPage.ApplyAllAppend | frontend/src/features/tasks/pages/TasksPage.tsx:19-35 | replaying edits one at a time is applying the last to the replay of the rest |
| TasksPage.DistinctFieldEditsCommute | frontend/src/features/tasks/pages/TasksPage.tsx:19-33 | edits of different fields commute |
| TasksPage.InitialFiltersKeepEverything | frontend/src/features/tasks/pages/TasksPage.tsx:15 | the initial filters keep every loaded task |
| TasksPage.RenderTasksPage | frontend/src/features/tasks/pages/TasksPage.tsx:37-61 | nothing renders iff data is missing; a grid shows exactly the filtered and sorted list of the loaded tasks, which is non-empty; the empty state means none matched |
| TasksPage.UnloadedFiltersNothing | frontend/src/features/tasks/pages/TasksPage.tsx:37-40 | before loading, the hook runs over the empty list and returns nothing |
| LegacyTasksPage.ClearFilters | frontend/src/pages/TasksPage.tsx:54-59 | clearing sets category and assignee `all`, sort `dueDate` and search empty |
| LegacyTasksPage.ClearFiltersRestoresInitial | frontend/src/pages/TasksPage.tsx:49-59 | clearing restores the page's initial filter state from any state, idempotently |
| LegacyTasksPage.ToggledStatus | frontend/src/pages/TasksPage.tsx:75 | the toggled status always differs and is `completed` or `in-progress` |
| LegacyTasksPage.ToggleTaskStatus | frontend/src/pages/TasksPage.tsx:69-80 | length and order kept; tasks with other ids untouched; a matched task changes only its status, to the toggled one |
| LegacyTasksPage.ToggleTwice | frontend/src/pages/TasksPage.tsx:75 | toggling twice restores the list iff no matched task was `todo` (a `todo` comes back `in-progress`) |
| LegacyTasksPage.UpdateTask | frontend/src/pages/TasksPage.tsx:84-88 | every element with the updated id is replaced and every other one kept, length preserved |
| LegacyTasksPage.UpdateUnknownIdKeepsList | frontend/src/pages/TasksPage.tsx:86 | an update whose id is absent returns the same list |
| LegacyTasksPage.UpdateIdempotent | frontend/src/pages/TasksPage.tsx:84-88 | applying an update twice equals applying it once |
| Transform.FormatDateForApi | frontend/src/features/tasks/utils/transorm.ts:13-16 | Invalid Date throws; otherwise the result is the `YYYY-MM-DD` text of the instant's UTC day |
| Transform.ParseDateFromApi | frontend/src/features/tasks/utils/transorm.ts:18-21 | valid exactly for the date forms; a `YYYY-MM-DD` day becomes its local midnight |
| Transform.ToApiTask | frontend/src/features/tasks/utils/transorm.ts:3-6 | every field but the due date is copied; the due date is formatted; an invalid one throws |
| Transform.FromApiTask | frontend/src/features/tasks/utils/transorm.ts:8-11 | every field but the due date is copied; the due date is parsed |
| Transform.ApiDateRoundTripWest | frontend/src/features/tasks/utils/transorm.ts:13-21 | at or west of UTC, format after parse gives the day back |
| Transform.ApiDateRoundTripEast | frontend/src/features/tasks/utils/transorm.ts:13-21 | east of UTC, format after parse gives the previous day, never the original |
| Transform.LocalMidnightEast | frontend/src/features/tasks/utils/transorm.ts:15-20 | east of UTC, local midnight falls on the previous UTC day |
| Transform.PreviousDayWrittenDifferently | frontend/src/features/tasks/utils/transorm.ts:15 | two consecutive days of years 0..9999 are written differently |
| Transform.ApiTaskRoundTripWest | frontend/src/features/tasks/utils/transorm.ts:3-11 | at or west of UTC, `toApiTask(fromApiTask(a)) == a` |
| Transform.ApiTaskRoundTripEast | frontend/src/features/tasks/utils/transorm.ts:3-11 | east of UTC the round trip returns a different due date |
| Transform.FormatLocalDateForApi | frontend/src/features/tasks/utils/transorm.ts:13-16 | the corrected formatter fails exactly on Invalid Date |
| Transform.LocalDateRoundTrip | frontend/src/features/tasks/utils/transorm.ts:13-21 | with the local formatter, every day survives parse then format in every zone |
| Transform.ToApiTaskLocal | frontend/src/features/tasks/utils/transorm.ts:3-6 | the corrected `toApiTask` copies every other field and formats the local day |
| Transform.ApiTaskLocalRoundTrip | frontend/src/features/tasks/utils/transorm.ts:3-11 | with the corrected formatter the task round trip is the identity in every zone |
| JsDates.UtcDay | frontend/src/features/tasks/utils/transorm.ts:15 | the UTC day number is the floor of the time over a day's milliseconds |
| JsDates.LocalDay | frontend/src/features/tasks/utils/transorm.ts:20 | the local day number contains the offset-shifted instant |
| JsDates.TimeClip | frontend/src/features/tasks/utils/transorm.ts:20 | a date is valid iff its time value is within 8.64e15 ms of the epoch |
| JsDates.ParseOfFormat | frontend/src/features/tasks/utils/transorm.ts:13-21 | every day of years 0..9999 is written in a form that parses back to it |
| JsDates.FormatOfParse | frontend/src/features/tasks/utils/transorm.ts:13-21 | a string that parses is exactly the written form of its day |
| JsDates.ParseDateForm | frontend/src/features/tasks/utils/transorm.ts:20 | an accepted form is a valid date of years 0..9999; a 10-character string is read as `YYYY-MM-DD` |
| JsDates.BeforeFirstOfJoin | frontend/src/features/tasks/utils/transorm.ts:15 | `split('T')[0]` recovers the text written before the first `T` |
| JsDates.FormatIsoDateHasNoLetter | frontend/src/features/tasks/utils/transorm.ts:15 | the written date holds no `T`, so the split keeps all of it |
| JsDates.ToIsoString | frontend/src/features/tasks/utils/transorm.ts:15 | `toISOString` throws exactly on Invalid Date |
| JsDates.LocalMidnight | frontend/src/features/tasks/utils/transorm.ts:20 | local midnight of a day of years 0..9999 is valid and lies on that local day |
| JsDates.DigitsValueOfDigits | frontend/src/features/tasks/utils/transorm.ts:15 | a zero-padded number reads back as itself |
| JsDates.DigitsOfDigitsValue | frontend/src/features/tasks/utils/transorm.ts:20 | a digit string is the zero-padded writing of its value |
| Calendar.CivilRoundTrip | frontend/src/features/tasks/utils/transorm.ts:15-20 | day number to civil date and back is the identity |
| Calendar.DaysRoundTrip | frontend/src/features/tasks/utils/transorm.ts:15-20 | civil date to day number and back is the identity on valid dates |
| Calendar.CivilFromDaysInjective | frontend/src/features/tasks/utils/transorm.ts:15 | distinct day numbers are distinct civil dates |
| FormSchema.Failures | frontend/src/features/tasks/schema.ts:3-15 | a field fails iff its rule fails: title length 1..50, description 1..500, a valid date, a listed category |
| FormSchema.Validate | frontend/src/features/tasks/schema.ts:3-15 | valid iff every field check passes; the data keeps the values; the feature schema drops `assignee` |
| FormSchema.AddTaskSchemaWidens | frontend/src/components/task/AddTask.tsx:23-35 | the add dialog accepts what the others accept, plus `Personal`, which the others reject |
| TaskForm.NonEmpty | frontend/src/features/tasks/components/TaskForm.tsx:31-32 | `s \|\| undefined` keeps exactly the non-empty strings |
| TaskForm.Defaults | frontend/src/features/tasks/components/TaskForm.tsx:28-34 | with no task the fields are blank and the due date is now; editing, the form holds the task's title, its description or `""`, its assignee unless empty, its category's value and its due date |
| TaskForm.CreateDefaultsRejected | frontend/src/features/tasks/components/TaskForm.tsx:28-34 | an untouched create form fails on the title |
| TaskForm.EditDefaultsValidIff | frontend/src/features/tasks/components/TaskForm.tsx:28-34 | an untouched edit form passes iff the task's title, description and date pass |
| TaskForm.OnSubmit | frontend/src/features/tasks/components/TaskForm.tsx:37-48 | status is the task's or `todo`, the id is passed only when editing, and `onSave` sees only a successful result |
| TaskForm.AssigneeNeverReachesPayload | frontend/src/features/tasks/components/TaskForm.tsx:37-43 | validated feature-form data never carries an assignee |
| TaskModal.IsCategoryNamesACategory | frontend/src/components/task/TaskModal.tsx:40-44 | `isCategory` holds iff the value names one of the four categories |
| TaskModal.Defaults | frontend/src/components/task/TaskModal.tsx:51-57 | blank fields for a new task; the category is kept only when `isCategory` holds; the date always starts at now |
| TaskModal.LocalDayText | frontend/src/components/task/TaskModal.tsx:68 | for years 1..9999 the text parses to the local calendar day of the date |
| TaskModal.ProcessSubmit | frontend/src/components/task/TaskModal.tsx:60-80 | PATCH `/task/{id}` or POST `/task`; title, description and category as entered; the due date as the local day's text; an empty assignee becomes null; status kept or `todo`; `onSave` runs iff the request succeeds; `onClose` iff the request succeeds and `onSave` does not throw, otherwise the error is logged |
| TaskModal.PayloadDateIsLocalDay | frontend/src/components/task/TaskModal.tsx:68 | read back as local midnight, the payload date falls on the local day the user chose |
| AddTask.OnOpenChange | frontend/src/components/task/AddTask.tsx:57-66 | while open nothing changes; once closed the fields reset |
| AddTask.ClosedDialogValuesRejected | frontend/src/components/task/AddTask.tsx:57-66 | reset values never validate |
| AddTask.ProcessSubmit | frontend/src/components/task/AddTask.tsx:68-90 | always POST `/task` with status `todo`; title, description and category as entered; the due date as the local day's text; the assignee is sent iff it is non-empty; `onClose` iff both the request and `onSave` succeed |
| QueryCache.KeyHierarchy | frontend/src/features/tasks/hooks/useTasks.ts:4-9 | the literal key shapes; `['tasks']` prefixes both; distinct ids give distinct detail keys; the list key is not a prefix of any detail key |
| QueryCache.Invalidate | frontend/src/features/tasks/hooks/useTasks.ts:33 | keys and data are kept; an entry is marked iff it already was or its key extends the prefix |
| QueryCache.SetQueryData | frontend/src/features/tasks/hooks/useTasks.ts:42 | the key gets a fresh entry with the data; every other entry is kept |
| QueryCache.CreateAndDeleteInvalidateAll | frontend/src/features/tasks/hooks/useTasks.ts:29-35 | a successful create or delete marks exactly the entries under `['tasks']` |
| QueryCache.UpdateWritesDetailAndMarksLists | frontend/src/features/tasks/hooks/useTasks.ts:37-46 | a successful update writes the detail entry fresh, keeps other details, and marks the list entries |
| QueryCache.FailedMutationsKeepCache | frontend/src/features/tasks/hooks/useTasks.ts:29-54 | a failed mutation leaves the cache unchanged |
| QueryCache.UseTask | frontend/src/features/tasks/hooks/useTasks.ts:20-27 | the service is asked iff the id is truthy and the detail entry is missing or invalidated; a success is cached fresh under the detail key, a failure or no request changes nothing |
| QueryCache.DisabledQueryNeverFetches | frontend/src/features/tasks/hooks/useTasks.ts:25 | `""` and `0` never fetch and leave the cache alone; any other id is fetched into an empty cache; the list entry is never touched |
| TaskModalStore.RunConsistent | frontend/src/features/tasks/stores/taskModalStore.ts:16-50 | every reachable state has mode `edit` iff it holds a task |
| TaskModalStore.ReachableIffConsistent | frontend/src/features/tasks/stores/taskModalStore.ts:16-50 | a state is reachable iff it is consistent |
| TaskModalStore.ResetIsOpenCreate | frontend/src/features/tasks/stores/taskModalStore.ts:22-44 | reset equals open-create and leaves the modal open |
| TaskModalStore.CloseKeepsSession | frontend/src/features/tasks/stores/taskModalStore.ts:46-50 | close clears only `isOpen` |
| TaskModalHook.RunClosedIsEmpty | frontend/src/hooks/tasks.ts:5-21 | in every reachable state a closed modal has no task |
| TaskModalHook.ReachableIffClosedIsEmpty | frontend/src/hooks/tasks.ts:5-21 | a state is reachable iff closed implies no task |
| DueDate.StartOfDay | frontend/src/features/tasks/components/TaskDueDate.tsx:17 | local midnight of the date's day, not after it; Invalid stays Invalid |
| DueDate.IsSameDayIff | frontend/src/features/tasks/components/TaskDueDate.tsx:11 | two dates are on the same day iff their local day numbers agree |
| DueDate.IsTodayIff | frontend/src/features/tasks/components/TaskDueDate.tsx:11 | "today" iff the local day is now's |
| DueDate.IsTomorrowIff | frontend/src/features/tasks/components/TaskDueDate.tsx:12 | "tomorrow" iff the local day is one after now's |
| DueDate.InvalidIsNeitherTodayNorTomorrow | frontend/src/features/tasks/components/TaskDueDate.tsx:11-12 | Invalid Date is neither today nor tomorrow |
| DueDate.MonthDayLabel | frontend/src/features/tasks/components/TaskDueDate.tsx:13 | `MMM d`: month abbreviation, a space, the day without padding |
| DueDate.MonthDayLabelInjective | frontend/src/features/tasks/components/TaskDueDate.tsx:13 | two labels agree iff month and day agree |
| DueDate.FormatDueDate | frontend/src/features/tasks/components/TaskDueDate.tsx:10-14 | throws iff Invalid; `Today` iff today; `Tomorrow` iff tomorrow and not today; else the month-day label of the local day |
| DueDate.DueLabelByDay | frontend/src/features/tasks/components/TaskDueDate.tsx:10-14 | the label in terms of local day numbers |
| DueDate.OverDueIff | frontend/src/features/tasks/components/TaskDueDate.tsx:17-18 | overdue iff the due day is before today and the task is not done; never for Invalid |
| UserColors.ToInt32 | frontend/src/common/utils/userColors.ts:25 | the result lies in the signed 32-bit range |
| UserColors.ToInt32Shift | frontend/src/common/utils/userColors.ts:24-25 | the 32-bit conversion ignores multiples of 2^32 |
| UserColors.HashStepIsTimes31 | frontend/src/common/utils/userColors.ts:24-25 | `(h << 5) - h + c` then `& h` is the 32-bit wrap of `31h + c` |
| UserColors.HashStepTracksPolynomial | frontend/src/common/utils/userColors.ts:22-26 | a step from the wrapped polynomial is the wrap of the next polynomial |
| UserColors.HashString | frontend/src/common/utils/userColors.ts:20-28 | the hash is the absolute value of the wrapped base-31 polynomial of the UTF-16 units, in 0..2^31 |
| UserColors.EmptyHashIsZero | frontend/src/common/utils/userColors.ts:20-28 | the empty string hashes to 0 |
| UserColors.GetUserColor | frontend/src/common/utils/userColors.ts:30-34 | the colour is the palette entry at hash mod 16, so always a palette entry and a function of the id |
| UserColors.TextColorIgnoresUser | frontend/src/common/utils/userColors.ts:36-38 | every user gets `text-white` |
| Members.CreateAcronym | frontend/src/components/task/TaskAssignee.tsx:5-24 | one capital per word, in order; blank input gives the empty string |
| Members.JoinedInitialsOfSplit | frontend/src/components/task/TaskAssignee.tsx:10-21 | the joined initials of the trimmed split are the capitals of the words |
| Members.PiecesOfTrimmedSplit | frontend/src/components/task/TaskAssignee.tsx:10-11 | trimming then splitting gives one empty piece for a blank string, else the words |
| Members.AcronymsAgree | frontend/src/features/tasks/components/AssigneeSelect.tsx:59-65 | the picker's acronym equals the card's on every name |
| Members.MemberDisplay | frontend/src/features/tasks/components/AssigneeSelect.tsx:49-50 | `?` for a missing or blank name, otherwise the acronym; never empty |
| Members.GetInitials | frontend/src/features/tasks/components/MemberAvatar.tsx:20-26 | at most 2 characters; empty iff blank; a one-word name gives its first two characters upper-cased; more words give the first two capitals |
| Members.OnValueChange | frontend/src/features/tasks/components/AssigneeSelect.tsx:24 | `none` reports null; anything else is reported as is |
| Members.PickerRoundTrip | frontend/src/features/tasks/components/AssigneeSelect.tsx:23-24 | the picker reports back its selection iff it is not the empty id or an id spelled `none` |
| CategoryColors.GetCategoryColor | frontend/src/features/tasks/config/categories.ts:1-9 | configured names get their hex colour; every other name gets `#94a3b8` |
| CategoryColors.EveryCategoryHasItsOwnHex | frontend/src/features/tasks/config/categories.ts:1-9 | each category has a colour of its own, distinct from the default |
| CategoryColors.GetCategoryColorsAsWritten | frontend/src/components/task/categoryColors.ts:31-42 | the plain-object lookup returns an inherited value iff the name is no own key but an `Object.prototype` name |
| CategoryColors.InheritedNameLeaks | frontend/src/components/task/categoryColors.ts:31-42 | `toString` and `constructor` come back as non-colours |
| CategoryColors.GetCategoryColors | frontend/src/components/task/categoryColors.ts:7-42 | own entries give their triple; every other name gets the default |
| CategoryColors.CorrectedAgreesOffPrototype | frontend/src/components/task/categoryColors.ts:31-42 | the corrected lookup agrees with the written one iff the name is not inherited |
| CategoryColors.LegacyCategoryColors | frontend/src/components/task/categoryColors.ts:7-29 | `Chore` and `Shopping` get the default colours, since the table says `Chores` |
| Tasks.CategoryNameInjective | backend/src/models/tasks.py:11-15 | distinct categories have distinct values |
| Tasks.StatusNameInjective | backend/src/models/tasks.py:18-21 | distinct statuses have distinct wire strings |
| BackendModels.ParseCategory | backend/src/models/tasks.py:11-15 | a parsed category has the given value |
| BackendModels.ParseStatus | backend/src/models/tasks.py:18-21 | a parsed status has the given wire string |
| BackendModels.EnumWireRoundTrip | backend/src/models/tasks.py:11-21 | a value parses to a member iff it is that member's value |
| BackendModels.CategoryListsAgree | backend/src/api/routes/tasks.py:16-18 | the published list is the frontend's four; the add dialog's `Personal` names no category |
| BackendModels.ParseDueDate | backend/src/models/tasks.py:29 | a parsed date is a valid day of years 1..9999 written exactly as given |
| BackendModels.TaskFailures | backend/src/models/tasks.py:24-30 | a field fails iff it is required and missing, null or not text, or is given and fails its type check |
| BackendModels.ValidateTaskCreate | backend/src/models/tasks.py:24-30 | valid iff no field fails; a missing title, category, due date or status is an error on that field; the record keeps the text fields and the parsed enums and day |
| BackendModels.BodyOfApiTask | frontend/src/features/tasks/types/taskApi.ts:1-9 | the body keeps title, description and date, its enum strings parse back to the task's category and status, and its `assignee_id` is absent because the client sends `assignee` |
| BackendModels.ApiTaskValidates | backend/src/models/tasks.py:24-43 | every task the client can send (years 1..9999) validates with the same title, description, category, status and day, and with no assignee |
| BackendModels.BodyOfApiTaskKeyed | backend/src/models/tasks.py:27 | with the key `assignee_id` the body carries the client's assignee |
| BackendModels.ApiTaskKeyedKeepsAssignee | backend/src/models/tasks.py:24-43 | keyed as the backend expects, a task validates iff its assignee is a UUID or absent, and the assignee is stored |
| BackendModels.KeyedFailures | backend/src/models/tasks.py:24-30 | with the assignee keyed as `assignee_id`, a client task with a day in years 1..9999 fails validation on its assignee alone, and only when that is not a UUID |
| BackendModels.ValidateTaskUpdate | backend/src/models/tasks.py:46-52 | every field optional; invalid iff a given field fails, naming exactly the failing fields; a given category, due date or status is stored as its parsed value; missing fields stay `None` |
| BackendModels.CategoryOnlyUpdate | backend/src/models/tasks.py:46-52 | a body giving only a category stores that category and nothing else |
| BackendModels.UpdateAgreesWithCreate | backend/src/models/tasks.py:24-52 | an empty update sets nothing; with every required field given, an update validates iff the create body does, to the same values; with one missing, the create fails |
| BackendModels.ValidateUserBase | backend/src/models/users.py:12-16 | email checked and at most 255 characters, stored in its normalised form; full name at most 255; the defaults `None`, true, false |
| BackendModels.UserDefaults | backend/tests/users/test_users.py:46-54 | an email alone gives its normalised form, no name, active and not superuser |
| BackendModels.UserLengthLimits | backend/tests/users/test_users.py:34-44 | an over-long email and an over-long name are rejected |
| UserStore.FirstWith | backend/src/webhooks/handlers.py:132 | the index of the first row with the id, or none iff no row has it |
| UserStore.FirstWithSameIds | backend/src/scripts/sync_clerk_users.py:168 | lookups depend only on the ids |
| UserStore.FirstWithAppend | backend/src/scripts/sync_clerk_users.py:168 | an appended row never hides an earlier one, and is found when it is the only one |
| Webhooks.Commit | backend/src/webhooks/handlers.py:79-88 | a commit succeeds iff emails stay unique, and otherwise rolls back |
| Webhooks.MissingFirstNameIsWrittenOut | backend/src/webhooks/handlers.py:61-66 | a missing first name produces `None <last>` |
| Webhooks.MissingLastNameIsWrittenOut | backend/src/webhooks/handlers.py:142-148 | a missing last name produces `<first> None` |
| Webhooks.NullFirstNameIsWrittenOut | backend/src/webhooks/handlers.py:61-66 | a null first name with `Doe` gives `None Doe` |
| Webhooks.FullNameAsWritten | backend/src/webhooks/handlers.py:61-66 | there is no name iff neither part is truthy; where both parts are strings it is their stripped join |
| Webhooks.FullName | backend/src/webhooks/handlers.py:64-66 | the corrected rule: there is no name iff neither name is truthy |
| Webhooks.FullNameIgnoresMissingName | backend/src/webhooks/handlers.py:61-66 | a missing name counts as empty; the rules agree wherever both names are present |
| Webhooks.PrimaryOf | backend/src/webhooks/handlers.py:57-59 | the first entry's address, non-empty |
| Webhooks.CreatedRow | backend/src/webhooks/handlers.py:61-77 | the provider id, the first email, the name as written, the image, active, not superuser |
| Webhooks.HandleUserCreated | backend/src/webhooks/handlers.py:48-88 | errors leave the store unchanged; a missing id, missing emails and a missing first address each raise iff they occur, in that order; a well-formed event succeeds iff the new row keeps emails unique, and then the row is appended; otherwise the database error |
| Webhooks.CreateWithNewEmailSucceeds | backend/src/webhooks/handlers.py:48-80 | a well-formed event with an email new to a consistent table is stored |
| Webhooks.CreateStoresNoneDoe | backend/src/webhooks/handlers.py:61-80 | a `null` first name with last name `Doe` is stored as `None Doe` |
| Webhooks.UpdatedRow | backend/src/webhooks/handlers.py:136-151 | the email becomes a non-empty first address; the name becomes the as-written join when a name is a string, else stays; the image follows a present key (null clears it); nothing else changes |
| Webhooks.UpdateStoresJaneNone | backend/src/webhooks/handlers.py:142-148 | a first name `Jane` sent without a last name is stored as `Jane None` |
| Webhooks.HandleUserUpdated | backend/src/webhooks/handlers.py:127-161 | errors roll back; an unknown id raises; for a known id the commit succeeds iff the updated table keeps emails unique, else the database error; success changes only the first matching row |
| Webhooks.UpdateWithOwnEmailSucceeds | backend/src/webhooks/handlers.py:127-153 | an update of a known user that sends no email, or one no other row has, is stored |
| Webhooks.HandleUserDeleted | backend/src/webhooks/handlers.py:192-211 | errors roll back; an unknown id raises; success changes only `is_active` of the first matching row |
| Webhooks.DeleteOfKnownUserSucceeds | backend/src/webhooks/handlers.py:197-203 | deleting a known user on a consistent table succeeds and deactivates the row |
| Webhooks.HandlersKeepEmailsUnique | backend/src/models/users.py:13 | no handler can leave two rows with one email |
| UserSync.FirstEmailWithId | backend/src/scripts/sync_clerk_users.py:125-128 | the first entry whose id equals the primary id; two missing ids are equal |
| UserSync.PrimaryEmail | backend/src/scripts/sync_clerk_users.py:122-131 | the primary entry's address when non-empty, else the first entry's, else none; always an address from the list |
| UserSync.SyncFullName | backend/src/scripts/sync_clerk_users.py:133-135 | the stripped pair, or none iff it is blank |
| UserSync.ExtractUserData | backend/src/scripts/sync_clerk_users.py:110-144 | id and image as sent; the email is one of the user's addresses, the primary entry's when it is non-empty; the name is the non-blank stripped join, none iff blank |
| UserSync.SyncNameAgreesWithHandlers | backend/src/scripts/sync_clerk_users.py:133-135 | the script's name equals the corrected handler name rule, except that a blank name becomes none |
| UserSync.SyncedRow | backend/src/scripts/sync_clerk_users.py:196-199 | an update overwrites email, name and image and reactivates, keeping id and superuser |
| UserSync.SyncUser | backend/src/scripts/sync_clerk_users.py:147-217 | error iff data is incomplete; created iff the id is unknown; unchanged iff the synced row would equal the row; a dry run changes nothing |
| UserSync.SyncIsIdempotent | backend/src/scripts/sync_clerk_users.py:170-204 | syncing the same data again is `unchanged` and changes nothing |
| UserSync.SyncPass | backend/src/scripts/sync_clerk_users.py:282-295 | created + updated + unchanged + errors is the number of users; errors counts incomplete data; a dry run changes nothing |
| UserSync.RetireAll | backend/src/scripts/sync_clerk_users.py:239-243 | a row stays active iff it was active and its id is known |
| UserSync.MissingCountIsActiveLoss | backend/src/scripts/sync_clerk_users.py:234-247 | the count equals the number of rows that lose their active flag |
| UserSync.DeactivateMissing | backend/src/scripts/sync_clerk_users.py:220-247 | deactivates exactly the active unknown rows, or nothing in a dry run, and returns their count |
| UserSync.SyncClerkUsers | backend/src/scripts/sync_clerk_users.py:279-307 | a dry run changes nothing; a refused commit changes nothing; the stats add up |
| UserSync.SyncUserKeepsActive | backend/src/scripts/sync_clerk_users.py:147-217 | syncing keeps already active users active and makes the synced one active |
| UserSync.SyncPassKeepsActive | backend/src/scripts/sync_clerk_users.py:282-295 | after the pass every user with complete data has an active row |
| UserSync.RetireKeepsKnownActive | backend/src/scripts/sync_clerk_users.py:239-243 | deactivation spares the rows of known ids |
| UserSync.CommittedSyncMirrorsProvider | backend/src/scripts/sync_clerk_users.py:279-307 | after a commit every complete provider user has an active row; with deactivation every active row is a provider user |
| UserSync.DryRunChangesNothing | backend/src/scripts/sync_clerk_users.py:297-305 | a dry run leaves the table alone and still reports the would-be deactivations |
| Text.TrimIgnoresSurroundingSpace | frontend/src/components/task/TaskAssignee.tsx:10 | surrounding whitespace never changes a trim |
| Text.SplitOfTrimIsWords | frontend/src/components/task/TaskAssignee.tsx:10-11 | splitting a non-blank trimmed string on whitespace runs gives its words |
| Text.WordsEmptyIffBlank | frontend/src/features/tasks/components/MemberAvatar.tsx:21 | a string has no words iff it is blank |
| Text.Utf16 | frontend/src/common/utils/userColors.ts:22-23 | the code units are 16-bit and at least one per character |

## Left out

- The JSX rendering, dialogs and toasts are left out. `console` output is left out too.
- Authentication, the HTTP client and the task service are left out. The route handlers other than the category list are also left out.
- The identity provider's paging fetch (`fetch_all_clerk_users`) and the script's process exit are I/O. The model starts from the fetched users.
- Webhook signature verification (HMAC-SHA256 and base64) is left out. It is foreign cryptography, and the route calls it without awaiting it.
- TanStack Query's staleness windows, retries, request de-duplication and refetching are library behaviour. Only keys, invalidation marks and the `enabled` switch of `useTask` are modelled; an invalidated or missing entry is what makes a query fetch.
- `useDeferredValue` is left out. The page filters with the current filters.
- `isDirty` is not defined in `useFilterTasks.ts`, so it is not modelled.
- Daylight-saving time is not modelled. The local offset is one fixed number of minutes for every instant.
- date-fns `format` with `MMM d` is modelled in the default en-US locale.
- `localeCompare` is an abstract total preorder. Unicode case mapping is ASCII only.
- The JavaScript Date parser is modelled only for the date forms `YYYY`, `YYYY-MM` and `YYYY-MM-DD` of years 0..9999. Extended years and other forms are not modelled.
- Transform.ParseDateFromApi: a day beyond its month's length (`2025-02-30`) or a month out of range is Invalid Date in the model. ECMA-262 lets `DD` run to 31, and some engines (V8) roll such a day over into the next month, while others return Invalid Date. The model fixes the rejecting behaviour. The backend only ever sends real days.
- TaskModal.ProcessSubmit: `onSave` is not awaited, so a promise it returns that later rejects does not stop `onClose`. The `onSaveOutcome` parameter models a synchronous throw only.
- Members.CreateAcronym: `charAt(0)` takes a UTF-16 unit. Characters outside the Basic Multilingual Plane are not split into surrogates.
- Members.GetInitials: `charAt(0)` and `substring(0, 2)` take UTF-16 units. The model takes whole characters, so a name starting outside the Basic Multilingual Plane is not split into surrogates. The same holds for `Members.PickerAcronym` and `Members.MemberDisplay`.
- TaskModal.LocalDayText: date-fns `yyyy` writes the era year, so a date in year 0 or before is written as a positive year, and a year above 9999 takes more than four digits. The model writes the astronomical year and promises the parse only for years 1 to 9999. `AddTask.ProcessSubmit` and `TaskModal.PayloadDateIsLocalDay` inherit that range.
- TasksPage.RenderTasksPage: as written the page destructures `{ filteredTasks, isDirty }` from `useFilterTasks`, which returns the array itself, so `filteredTasks` is undefined and `filteredTasks.length` at `TasksPage.tsx:57` throws once data has loaded. The model renders from the returned array, as the page evidently means to.
- BackendModels.ValidateUserBase: `EmailStr` normalisation is the parameter `normalize`. The 255-character limit is checked on the text as given, not on its normalised form.
- Members.MemberDisplay: the contract gives `?` only as an implication. A name such as `?x` also displays `?`, so the converse does not hold.
- `EmailStr` syntax checking and UUID parsing are function parameters (`isEmail`, `isUuid`).
- BackendModels.ValidateTaskCreate: a required field that is left out, `null` or not text is one case, `None`. The model names the failing field but not pydantic's message (`Field required` or the type error). Text-like inputs pydantic also coerces to `str` (bytes) are not modelled.
- BackendModels.ParseDueDate: pydantic also accepts other date inputs (numbers, datetime strings). The model accepts only `YYYY-MM-DD`.
- The `VARCHAR(255)` limit the table declares is not modelled. Table models do not validate.
- Each per-row ORM `UPDATE` is not checked against the unique email constraint on its own. The model checks email uniqueness on the table a commit would leave.
- A failed commit of the sync script raises out of the script. The model records it as an error with the table unchanged.
- The sync script's `print` output and the `(action, user)` pair's user object are left out. The model keeps the action and the table.
- The sync script's identifier set also receives `None` for a provider user without an id. A row's id is always a string, so `None` is left out of the set.
- `email_addresses` in a provider user object is modelled as a list, as the provider's API returns it. A non-list would raise.
- Payload values of the webhook handlers are strings, null or missing. A non-string id or name is not modelled.
- The legacy due-date duplicates (`components/task/TaskDueDate.tsx`, `components/task/utils.ts`) repeat the modelled rule. They are not modelled separately.
- `useTasksByCategory`, `useUpcomingTasks`, `filterTasks` and `sortTasks` are imported by some components but defined nowhere. That code is not part of this model.

## Findings

| source | as written | input that shows it | evidently intended | confidence | as-written member | corrected member |
|---|---|---|---|---|---|---|
| frontend/src/features/tasks/utils/transorm.ts:13-21 | the wire date is the UTC day of the date, but the parsed date is local midnight | `2025-03-01` read in a zone at UTC+1 is sent back as `2025-02-28` | write the local calendar day, so every zone round-trips | high; not executed | Transform.ApiTaskRoundTripEast | Transform.ApiTaskLocalRoundTrip |
| backend/src/webhooks/handlers.py:61-66 | `f"{first_name} {last_name}"` writes a `None` name as the word `None` | `first_name: null, last_name: "Doe"` is stored as `None Doe` | a missing name contributes nothing, as in the sync script | high; not executed | Webhooks.CreateStoresNoneDoe | Webhooks.FullNameIgnoresMissingName |
| frontend/src/features/tasks/types/taskApi.ts:5 | the wire task carries the assignee under `assignee`; `TaskCreate` reads only `assignee_id` and ignores other keys | a task with an assignee is created with `assignee_id` null | send the key `assignee_id`, as the older add dialog does (`AddTask.tsx:73`) | medium; not executed | BackendModels.ApiTaskValidates | BackendModels.ApiTaskKeyedKeepsAssignee |
| frontend/src/components/task/categoryColors.ts:31-42 | indexing a plain object also finds inherited `Object.prototype` members, which are truthy | `getCategoryColors("toString")` returns a function instead of a colour | only the table's own entries count; anything else gets the default | low (callers pass category names); not executed | CategoryColors.InheritedNameLeaks | CategoryColors.CorrectedAgreesOffPrototype |

=== FILE: backend_models.dfy ===
/**
 * The backend's data models as validators: the task enums and the task
 * create/update bodies, and the user base record with its defaults and length
 * limits. A body either validates into a record or names the fields that fail.
 */
module BackendModels {
  import opened Wrappers
  import opened Calendar
  import opened JsDates
  import opened Tasks
  import FormSchema

  // ---------------------------------------------------------------------------
  // The enums

  /** `TaskCategory(value)`: the member whose value is the text. */
  function ParseCategory(s: string): (r: Option<Category>)
    ensures r.Some? ==> CategoryName(r.value) == s
  {
    if s == "Chore" then Some(Chore)
    else if s == "Shopping" then Some(Shopping)
    else if s == "Homework" then Some(Homework)
    else if s == "Other" then Some(Other)
    else None
  }

  /** `TaskStatus(value)`. */
  function ParseStatus(s: string): (r: Option<Status>)
    ensures r.Some? ==> StatusName(r.value) == s
  {
    if s == "todo" then Some(Todo)
    else if s == "in-progress" then Some(InProgress)
    else if s == "completed" then Some(Completed)
    else None
  }

  /** A value parses to a member exactly when it is that member's value. */
  lemma EnumWireRoundTrip(s: string, c: Category, st: Status)
    ensures ParseCategory(s) == Some(c) <==> CategoryName(c) == s
    ensures ParseStatus(s) == Some(st) <==> StatusName(st) == s
  {
  }

  /** `GET /task/category`: the members' values in declaration order. */
  const CategoryValues: seq<string> := ["Chore", "Shopping", "Homework", "Other"]

  /**
   * The category list the server publishes is the frontend's list; every entry
   * parses. The older add dialog's extra `Personal` passes its form schema but
   * names no category here.
   */
  lemma CategoryListsAgree(v: FormSchema.FormValues)
    ensures CategoryValues == FormSchema.Categories(FormSchema.ModalSchema)
    ensures forall i :: 0 <= i < |CategoryValues| ==> ParseCategory(CategoryValues[i]).Some?
    ensures v.category == Some("Personal") && FormSchema.Validate(FormSchema.AddTaskSchema, v).Ok?
      ==> ParseCategory(FormSchema.Validate(FormSchema.AddTaskSchema, v).value.category) == None
  {
  }

  // ---------------------------------------------------------------------------
  // Task bodies

  /** `due_date: date` read from text: `YYYY-MM-DD` naming a day of years 1 to 9999. */
  function ParseDueDate(s: string): (r: Option<Civil>)
    ensures r.Some? ==> ValidDate(r.value) && 1 <= r.value.year <= 9999 && FormatIsoDate(r.value) == s
  {
    match ParseIsoDate(s)
    case Some(c) =>
      if c.year >= 1 then
        FormatOfParse(s);
        Some(c)
      else None
    case None => None
  }

  /**
   * A task body as it arrives: enum members and the date as text, the assignee
   * as a UUID string. The four required fields are `None` when the body leaves
   * them out, sends `null` or sends something other than text; pydantic reports
   * each of these as an error on that field.
   */
  datatype TaskBody = TaskBody(
    title: Option<string>,
    description: Option<string>,
    assigneeId: Option<string>,
    category: Option<string>,
    dueDate: Option<string>,
    status: Option<string>)

  /** `TaskBase`: a validated task. */
  datatype TaskRecord = TaskRecord(
    title: string,
    description: Option<string>,
    assigneeId: Option<string>,
    category: Category,
    dueDate: Civil,
    status: Status)

  datatype TaskField = TitleField | AssigneeIdField | CategoryField | DueDateField | StatusField

  /** The fields of a body that are missing or fail their type; `isUuid` is the UUID text check. */
  function TaskFailures(b: TaskBody, isUuid: string -> bool): (r: set<TaskField>)
    ensures TitleField in r <==> b.title.None?
    ensures AssigneeIdField in r <==> b.assigneeId.Some? && !isUuid(b.assigneeId.value)
    ensures CategoryField in r <==> b.category.None? || ParseCategory(b.category.value).None?
    ensures DueDateField in r <==> b.dueDate.None? || ParseDueDate(b.dueDate.value).None?
    ensures StatusField in r <==> b.status.None? || ParseStatus(b.status.value).None?
  {
    set f: TaskField | FieldFails(b, isUuid, f)
  }

  /** Whether field `f` of `b` is missing or fails its type. */
  predicate FieldFails(b: TaskBody, isUuid: string -> bool, f: TaskField) {
    match f
    case TitleField => b.title.None?
    case AssigneeIdField => b.assigneeId.Some? && !isUuid(b.assigneeId.value)
    case CategoryField => b.category.None? || ParseCategory(b.category.value).None?
    case DueDateField => b.dueDate.None? || ParseDueDate(b.dueDate.value).None?
    case StatusField => b.status.None? || ParseStatus(b.status.value).None?
  }

  /** `TaskCreate.model_validate(body)`. */
  function ValidateTaskCreate(b: TaskBody, isUuid: string -> bool): (r: Result<TaskRecord, set<TaskField>>)
    ensures r.Err? <==> TaskFailures(b, isUuid) != {}
    ensures r.Err? ==> r.error == TaskFailures(b, isUuid)
    ensures b.title.None? ==> r.Err? && TitleField in r.error
    ensures b.category.None? ==> r.Err? && CategoryField in r.error
    ensures b.dueDate.None? ==> r.Err? && DueDateField in r.error
    ensures b.status.None? ==> r.Err? && StatusField in r.error
    ensures r.Ok? ==> (b.title == Some(r.value.title) && r.value.description == b.description
      && r.value.assigneeId == b.assigneeId
      && b.category == Some(CategoryName(r.value.category)) && b.status == Some(StatusName(r.value.status))
      && b.dueDate.Some? && ParseDueDate(b.dueDate.value) == Some(r.value.dueDate))
  {
    var failed := TaskFailures(b, isUuid);
    if failed != {} then Err(failed)
    else
      Ok(TaskRecord(b.title.value, b.description, b.assigneeId, ParseCategory(b.category.value).value,
                    ParseDueDate(b.dueDate.value).value, ParseStatus(b.status.value).value))
  }

  /**
   * The body the frontend sends for a task, as the backend reads it: the due
   * date is written `YYYY-MM-DD`, and the assignee travels under the key
   * `assignee`, which `TaskCreate` does not declare and so ignores, leaving
   * `assignee_id` at its default `None`.
   */
  function BodyOfApiTask(a: TaskApi): (b: TaskBody)
    ensures b.assigneeId.None?
    ensures b.title == Some(a.title) && b.description == a.description && b.dueDate == Some(a.dueDate)
    ensures b.category.Some? && ParseCategory(b.category.value) == Some(a.category)
    ensures b.status.Some? && ParseStatus(b.status.value) == Some(a.status)
  {
    EnumWireRoundTrip(CategoryName(a.category), a.category, a.status);
    EnumWireRoundTrip(StatusName(a.status), a.category, a.status);
    TaskBody(Some(a.title), a.description, None, Some(CategoryName(a.category)), Some(a.dueDate),
             Some(StatusName(a.status)))
  }

  /**
   * Every task the frontend can send with a due date in years 1 to 9999
   * validates, keeping its title, description, category, status and day, and
   * storing no assignee whatever the client chose.
   */
  lemma ApiTaskValidates(a: TaskApi, c: Civil, isUuid: string -> bool)
    requires ValidDate(c) && 1 <= c.year <= 9999 && a.dueDate == FormatIsoDate(c)
    ensures var r := ValidateTaskCreate(BodyOfApiTask(a), isUuid);
      r.Ok? && r.value.title == a.title && r.value.description == a.description
      && r.value.category == a.category && r.value.status == a.status && r.value.dueDate == c
      && r.value.assigneeId.None?
  {
    var b := BodyOfApiTask(a);
    ParseOfFormat(c);
    assert ParseDueDate(b.dueDate.value) == Some(c);
    assert TaskFailures(b, isUuid) == {} by {
      assert forall f: TaskField :: !FieldFails(b, isUuid, f);
    }
  }

  /** The body with the assignee sent under `assignee_id`, the key `TaskCreate` reads. */
  function BodyOfApiTaskKeyed(a: TaskApi): (b: TaskBody)
    ensures b.assigneeId == a.assignee
    ensures b.title == Some(a.title) && b.description == a.description && b.dueDate == Some(a.dueDate)
    ensures b.category.Some? && ParseCategory(b.category.value) == Some(a.category)
    ensures b.status.Some? && ParseStatus(b.status.value) == Some(a.status)
  {
    EnumWireRoundTrip(CategoryName(a.category), a.category, a.status);
    EnumWireRoundTrip(StatusName(a.status), a.category, a.status);
    TaskBody(Some(a.title), a.description, a.assignee, Some(CategoryName(a.category)), Some(a.dueDate),
             Some(StatusName(a.status)))
  }

  /**
   * With the assignee keyed as the backend expects, a task validates exactly
   * when its assignee (if any) is a UUID, and then the assignee is stored.
   */
  lemma ApiTaskKeyedKeepsAssignee(a: TaskApi, c: Civil, isUuid: string -> bool)
    requires ValidDate(c) && 1 <= c.year <= 9999 && a.dueDate == FormatIsoDate(c)
    ensures var r := ValidateTaskCreate(BodyOfApiTaskKeyed(a), isUuid);
      (r.Ok? <==> (a.assignee.Some? ==> isUuid(a.assignee.value)))
      && (r.Ok? ==> r.value.assigneeId == a.assignee && r.value.category == a.category
                    && r.value.status == a.status && r.value.dueDate == c)
  {
    KeyedFailures(a, c, isUuid);
  }

  /** The keyed body fails on its assignee alone, and only when that is not a UUID. */
  lemma KeyedFailures(a: TaskApi, c: Civil, isUuid: string -> bool)
    requires ValidDate(c) && 1 <= c.year <= 9999 && a.dueDate == FormatIsoDate(c)
    ensures ParseDueDate(a.dueDate) == Some(c)
    ensures TaskFailures(BodyOfApiTaskKeyed(a), isUuid)
         == if a.assignee.Some? && !isUuid(a.assignee.value) then {AssigneeIdField} else {}
  {
    var b := BodyOfApiTaskKeyed(a);
    ParseOfFormat(c);
    assert ParseDueDate(b.dueDate.value) == Some(c);
    assert forall f: TaskField :: FieldFails(b, isUuid, f) <==> f == AssigneeIdField && FieldFails(b, isUuid, f);
  }

  /** `TaskUpdate`: every field optional, `None` when left out. */
  datatype TaskUpdateBody = TaskUpdateBody(
    title: Option<string>,
    description: Option<string>,
    assigneeId: Option<string>,
    category: Option<string>,
    dueDate: Option<string>,
    status: Option<string>)

  datatype TaskUpdate = TaskUpdate(
    title: Option<string>,
    description: Option<string>,
    assigneeId: Option<string>,
    category: Option<Category>,
    dueDate: Option<Civil>,
    status: Option<Status>)

  const EmptyUpdateBody := TaskUpdateBody(None, None, None, None, None, None)

  /** A given field is checked as in a create body; a missing one is `None`. */
  function ValidateTaskUpdate(b: TaskUpdateBody, isUuid: string -> bool): (r: Result<TaskUpdate, set<TaskField>>)
    ensures r.Err? <==> ((b.assigneeId.Some? && !isUuid(b.assigneeId.value))
      || (b.category.Some? && ParseCategory(b.category.value).None?)
      || (b.dueDate.Some? && ParseDueDate(b.dueDate.value).None?)
      || (b.status.Some? && ParseStatus(b.status.value).None?))
    ensures r.Ok? ==> (r.value.title == b.title && r.value.description == b.description
      && r.value.assigneeId == b.assigneeId
      && (r.value.category.Some? <==> b.category.Some?)
      && (r.value.dueDate.Some? <==> b.dueDate.Some?)
      && (r.value.status.Some? <==> b.status.Some?))
    ensures r.Ok? && b.category.Some? ==> r.value.category == ParseCategory(b.category.value)
    ensures r.Ok? && b.dueDate.Some? ==> r.value.dueDate == ParseDueDate(b.dueDate.value)
    ensures r.Ok? && b.status.Some? ==> r.value.status == ParseStatus(b.status.value)
    ensures r.Err? ==> (CategoryField in r.error <==> b.category.Some? && ParseCategory(b.category.value).None?)
    ensures r.Err? ==> (DueDateField in r.error <==> b.dueDate.Some? && ParseDueDate(b.dueDate.value).None?)
    ensures r.Err? ==> (StatusField in r.error <==> b.status.Some? && ParseStatus(b.status.value).None?)
    ensures r.Err? ==> (AssigneeIdField in r.error <==> b.assigneeId.Some? && !isUuid(b.assigneeId.value))
  {
    var failed :=
      (if b.assigneeId.Some? && !isUuid(b.assigneeId.value) then {AssigneeIdField} else {})
      + (if b.category.Some? && ParseCategory(b.category.value).None? then {CategoryField} else {})
      + (if b.dueDate.Some? && ParseDueDate(b.dueDate.value).None? then {DueDateField} else {})
      + (if b.status.Some? && ParseStatus(b.status.value).None? then {StatusField} else {});
    if failed != {} then Err(failed)
    else
      Ok(TaskUpdate(b.title, b.description, b.assigneeId,
        if b.category.Some? then ParseCategory(b.category.value) else None,
        if b.dueDate.Some? then ParseDueDate(b.dueDate.value) else None,
        if b.status.Some? then ParseStatus(b.status.value) else None))
  }

  /**
   * An empty update is valid and sets nothing. The same fields sent as an
   * update validate exactly when they validate as a create body, and to the
   * same values, once every required field is there; with one missing, the
   * create fails though the update may pass.
   */
  lemma UpdateAgreesWithCreate(b: TaskBody, isUuid: string -> bool)
    ensures ValidateTaskUpdate(EmptyUpdateBody, isUuid) == Ok(TaskUpdate(None, None, None, None, None, None))
    ensures var u := ValidateTaskUpdate(TaskUpdateBody(b.title, b.description, b.assigneeId,
                                          b.category, b.dueDate, b.status), isUuid);
      var c := ValidateTaskCreate(b, isUuid);
      var complete := b.title.Some? && b.category.Some? && b.dueDate.Some? && b.status.Some?;
      (complete ==> (u.Ok? <==> c.Ok?))
      && (!complete ==> c.Err?)
      && (c.Ok? ==> u.value == TaskUpdate(Some(c.value.title), c.value.description, c.value.assigneeId,
                                           Some(c.value.category), Some(c.value.dueDate), Some(c.value.status)))
  {
  }

  /** A PATCH that gives only a category stores that category's member and sets nothing else. */
  lemma CategoryOnlyUpdate(c: Category, isUuid: string -> bool)
    ensures ValidateTaskUpdate(TaskUpdateBody(None, None, None, Some(CategoryName(c)), None, None), isUuid)
         == Ok(TaskUpdate(None, None, None, Some(c), None, None))
  {
    EnumWireRoundTrip(CategoryName(c), c, Todo);
  }

  // ---------------------------------------------------------------------------
  // Users

  /** A field of a body that is either left out or given (possibly as `None`). */
  datatype Given<T> = Omitted | Given(value: T)

  datatype UserBody = UserBody(
    email: string,
    fullName: Given<Option<string>>,
    isActive: Given<bool>,
    isSuperuser: Given<bool>)

  /** `UserBase`. */
  datatype UserRecord = UserRecord(email: string, fullName: Option<string>, isActive: bool, isSuperuser: bool)

  datatype UserField = EmailField | FullNameField

  const MaxFieldLength := 255

  /**
   * `UserBase(**body)`: the email must be an email address (`isEmail`, the
   * `EmailStr` check) of at most 255 characters and is stored in the form
   * `EmailStr` normalises it to (`normalize`); a given full name is at most
   * 255 characters; a missing full name is `None`, a missing `is_active` true
   * and a missing `is_superuser` false.
   */
  function ValidateUserBase(b: UserBody, isEmail: string -> bool, normalize: string -> string)
    : (r: Result<UserRecord, set<UserField>>)
    ensures r.Err? <==> !isEmail(b.email) || |b.email| > MaxFieldLength
                        || (b.fullName.Given? && b.fullName.value.Some? && |b.fullName.value.value| > MaxFieldLength)
    ensures r.Err? ==> (EmailField in r.error <==> !isEmail(b.email) || |b.email| > MaxFieldLength)
    ensures r.Ok? ==> (r.value.email == normalize(b.email)
      && r.value.fullName == (if b.fullName.Given? then b.fullName.value else None)
      && r.value.isActive == (b.isActive.Omitted? || b.isActive.value)
      && r.value.isSuperuser == (b.isSuperuser.Given? && b.isSuperuser.value))
  {
    var failed :=
      (if !isEmail(b.email) || |b.email| > MaxFieldLength then {EmailField} else {})
      + (if b.fullName.Given? && b.fullName.value.Some? && |b.fullName.value.value| > MaxFieldLength
         then {FullNameField} else {});
    if failed != {} then Err(failed)
    else
      Ok(UserRecord(normalize(b.email),
        match b.fullName case Given(n) => n case Omitted => None,
        match b.isActive case Given(a) => a case Omitted => true,
        match b.isSuperuser case Given(s) => s case Omitted => false))
  }

  /** Only an email given: no full name, active, not a superuser. */
  lemma UserDefaults(email: string, isEmail: string -> bool, normalize: string -> string)
    requires isEmail(email) && |email| <= MaxFieldLength
    ensures ValidateUserBase(UserBody(email, Omitted, Omitted, Omitted), isEmail, normalize)
         == Ok(UserRecord(normalize(email), None, true, false))
  {
  }

  /** A 262-character email and a 256-character name are both too long. */
  lemma UserLengthLimits(isEmail: string -> bool, normalize: string -> string)
    ensures var long := seq(250, _ => 'a') + "@example.com";
      ValidateUserBase(UserBody(long, Omitted, Omitted, Omitted), isEmail, normalize).Err?
    ensures var name := seq(256, _ => 'a');
      ValidateUserBase(UserBody("test@example.com", Given(Some(name)), Omitted, Omitted), isEmail, normalize).Err?
  {
  }
}

=== FILE: calendar.dfy ===
/**
 * The proleptic Gregorian calendar: civil dates (year, month, day) and their
 * numbering as days since 1970-01-01, which is how JavaScript `Date` and the
 * date-fns helpers turn time values into calendar fields and back.
 *
 * Days are grouped into 400-year eras of 146097 days.  Inside an era, years
 * start in March, so that the leap day is the last day of its year; the
 * conversion is proved bijective one layer at a time (era, year of era, month
 * of year).
 */
module Calendar {

  datatype Civil = Civil(year: int, month: int, day: int)

  predicate IsLeapYear(y: int) {
    y % 4 == 0 && (y % 100 != 0 || y % 400 == 0)
  }

  function DaysInMonth(y: int, m: int): int
    requires 1 <= m <= 12
  {
    if m == 2 then (if IsLeapYear(y) then 29 else 28)
    else if m == 4 || m == 6 || m == 9 || m == 11 then 30
    else 31
  }

  /** A real calendar day: month 1..12 and a day that month has. */
  predicate ValidDate(c: Civil) {
    1 <= c.month <= 12 && 1 <= c.day <= DaysInMonth(c.year, c.month)
  }

  // ---------------------------------------------------------------------------
  // Month layer: a day of a March-based year <-> (month from March, day)

  /** First day (0-based) of the `mp`-th month counted from March. */
  function MonthStart(mp: int): int
    requires 0 <= mp < 12
  {
    [0, 31, 61, 92, 122, 153, 184, 214, 245, 275, 306, 337][mp]
  }

  function MarchMonthLen(mp: int, leap: bool): int
    requires 0 <= mp < 12
  {
    if mp == 11 then (if leap then 29 else 28) else MonthStart(mp + 1) - MonthStart(mp)
  }

  function YearDays(leap: bool): int {
    if leap then 366 else 365
  }

  function SplitDayOfYear(doy: int, leap: bool): (r: (int, int))
    requires 0 <= doy < YearDays(leap)
    ensures 0 <= r.0 < 12 && 1 <= r.1 <= MarchMonthLen(r.0, leap)
    ensures MonthStart(r.0) + r.1 - 1 == doy
  {
    var mp :=
      if doy < 31 then 0 else if doy < 61 then 1 else if doy < 92 then 2
      else if doy < 122 then 3 else if doy < 153 then 4 else if doy < 184 then 5
      else if doy < 214 then 6 else if doy < 245 then 7 else if doy < 275 then 8
      else if doy < 306 then 9 else if doy < 337 then 10 else 11;
    (mp, doy - MonthStart(mp) + 1)
  }

  lemma SplitDayOfYearInverse(mp: int, d: int, leap: bool)
    requires 0 <= mp < 12 && 1 <= d <= MarchMonthLen(mp, leap)
    ensures MonthStart(mp) + d - 1 < YearDays(leap)
    ensures SplitDayOfYear(MonthStart(mp) + d - 1, leap) == (mp, d)
  {
  }

  // ---------------------------------------------------------------------------
  // Arithmetic helpers

  lemma {:induction false} MulAtLeast(k: int, d: int)
    requires k >= 1 && d > 0
    ensures k * d >= d
    decreases k
  {
    if k > 1 {
      MulAtLeast(k - 1, d);
      assert k * d == (k - 1) * d + d;
    }
  }

  /** Euclidean division is unique: a quotient and remainder in range are *the* ones. */
  lemma DivMod(n: int, d: int, q: int, r: int)
    requires d > 0 && 0 <= r < d && n == q * d + r
    ensures n / d == q && n % d == r
  {
    var q', r' := n / d, n % d;
    assert n == q' * d + r';
    assert (q - q') * d == r' - r by {
      assert (q - q') * d == q * d - q' * d;
    }
    if q > q' {
      MulAtLeast(q - q', d);
    } else if q < q' {
      MulAtLeast(q' - q, d);
    }
  }

  // ---------------------------------------------------------------------------
  // Year layer: a day of a 400-year era <-> (March-based year of era, day of year)
  //
  // An era has four centuries of 36524 days, the last one a day longer; a
  // century has 4-year blocks of 1461 days, its last block a day shorter
  // unless the century is the era's last; a block has three years of 365 days
  // and a fourth of 366.

  /** The March-based year `yoe` of an era ends with February of civil year `yoe + 1`. */
  predicate MarchYearIsLeap(yoe: int) {
    IsLeapYear(yoe + 1)
  }

  function YearStart(yoe: int): int {
    365 * yoe + yoe / 4 - yoe / 100
  }

  lemma YearStartOfParts(c: int, q: int, yq: int)
    requires 0 <= c <= 3 && 0 <= q <= 24 && 0 <= yq <= 3
    ensures YearStart(100 * c + 4 * q + yq) == 36524 * c + 1461 * q + 365 * yq
  {
    var yoe := 100 * c + 4 * q + yq;
    DivMod(yoe, 4, 25 * c + q, yq);
    DivMod(yoe, 100, c, 4 * q + yq);
  }

  lemma LeapOfParts(c: int, q: int, yq: int)
    requires 0 <= c <= 3 && 0 <= q <= 24 && 0 <= yq <= 3
    ensures MarchYearIsLeap(100 * c + 4 * q + yq) <==> yq == 3 && (q < 24 || c == 3)
  {
    var n := 100 * c + 4 * q + yq + 1;
    if yq < 3 {
      DivMod(n, 4, 25 * c + q, yq + 1);
    } else {
      DivMod(n, 4, 25 * c + q + 1, 0);
      if q < 24 {
        DivMod(n, 100, c, 4 * q + 4);
      } else {
        DivMod(n, 100, c + 1, 0);
        if c < 3 {
          DivMod(n, 400, 0, n);
        } else {
          DivMod(n, 400, 1, 0);
        }
      }
    }
  }

  lemma PartsOfYear(yoe: int) returns (c: int, q: int, yq: int)
    requires 0 <= yoe < 400
    ensures 0 <= c <= 3 && 0 <= q <= 24 && 0 <= yq <= 3
    ensures yoe == 100 * c + 4 * q + yq
  {
    c, q, yq := yoe / 100, (yoe % 100) / 4, yoe % 4;
    assert yoe % 100 == 4 * q + (yoe % 100) % 4;
    DivMod(yoe, 4, 25 * c + q, (yoe % 100) % 4);
  }

  function CenturySplit(doe: int): (r: (int, int))
    requires 0 <= doe < 146097
    ensures 0 <= r.0 <= 3 && 0 <= r.1 <= 36524 && doe == 36524 * r.0 + r.1
    ensures r.0 < 3 ==> r.1 < 36524
  {
    var c := if doe / 36524 < 3 then doe / 36524 else 3;
    (c, doe - 36524 * c)
  }

  function BlockSplit(doc: int): (r: (int, int))
    requires 0 <= doc <= 36524
    ensures 0 <= r.0 <= 24 && 0 <= r.1 < 1461 && doc == 1461 * r.0 + r.1
  {
    (doc / 1461, doc % 1461)
  }

  function YearOfBlockSplit(doq: int): (r: (int, int))
    requires 0 <= doq < 1461
    ensures 0 <= r.0 <= 3 && 0 <= r.1 <= 365 && doq == 365 * r.0 + r.1
    ensures r.1 == 365 ==> r.0 == 3
  {
    var yq := if doq / 365 < 3 then doq / 365 else 3;
    (yq, doq - 365 * yq)
  }

  function SplitDayOfEra(doe: int): (r: (int, int))
    requires 0 <= doe < 146097
    ensures 0 <= r.0 < 400 && 0 <= r.1 < YearDays(MarchYearIsLeap(r.0))
    ensures YearStart(r.0) + r.1 == doe
  {
    var cs := CenturySplit(doe);
    var bs := BlockSplit(cs.1);
    var ys := YearOfBlockSplit(bs.1);
    YearStartOfParts(cs.0, bs.0, ys.0);
    LeapOfParts(cs.0, bs.0, ys.0);
    (100 * cs.0 + 4 * bs.0 + ys.0, ys.1)
  }

  lemma CenturySplitInverse(c: int, doc: int)
    requires 0 <= c <= 3 && 0 <= doc <= 36524 && (c < 3 ==> doc < 36524)
    ensures CenturySplit(36524 * c + doc) == (c, doc)
  {
    var doe := 36524 * c + doc;
    if doc < 36524 {
      DivMod(doe, 36524, c, doc);
    } else {
      DivMod(doe, 36524, 4, 0);
    }
  }

  lemma BlockSplitInverse(q: int, doq: int)
    requires 0 <= q <= 24 && 0 <= doq < 1461 && 1461 * q + doq <= 36524
    ensures BlockSplit(1461 * q + doq) == (q, doq)
  {
    DivMod(1461 * q + doq, 1461, q, doq);
  }

  lemma YearOfBlockSplitInverse(yq: int, doy: int)
    requires 0 <= yq <= 3 && 0 <= doy <= 365 && (doy == 365 ==> yq == 3)
    ensures YearOfBlockSplit(365 * yq + doy) == (yq, doy)
  {
    if doy < 365 {
      DivMod(365 * yq + doy, 365, yq, doy);
    } else {
      DivMod(365 * yq + doy, 365, 4, 0);
    }
  }

  lemma SplitDayOfEraOfParts(doe: int, c: int, doc: int, q: int, doq: int, yq: int, doy: int)
    requires 0 <= doe < 146097 && CenturySplit(doe) == (c, doc)
    requires 0 <= doc <= 36524 && BlockSplit(doc) == (q, doq)
    requires 0 <= doq < 1461 && YearOfBlockSplit(doq) == (yq, doy)
    ensures SplitDayOfEra(doe) == (100 * c + 4 * q + yq, doy)
  {
  }

  /** The day of the era of day `doy` of year `yoe`, split into its century, block and year. */
  lemma DayOfEraParts(c: int, q: int, yq: int, doy: int)
    requires 0 <= c <= 3 && 0 <= q <= 24 && 0 <= yq <= 3
    requires 0 <= doy < YearDays(MarchYearIsLeap(100 * c + 4 * q + yq))
    ensures YearStart(100 * c + 4 * q + yq) + doy == 36524 * c + 1461 * q + 365 * yq + doy
    ensures doy <= 365 && (doy == 365 ==> yq == 3 && (q < 24 || c == 3))
  {
    YearStartOfParts(c, q, yq);
    LeapOfParts(c, q, yq);
  }

  /** Splitting a day of the era written out from its parts gives those parts back. */
  lemma SplitDayOfEraOfWritten(c: int, q: int, yq: int, doy: int)
    requires 0 <= c <= 3 && 0 <= q <= 24 && 0 <= yq <= 3
    requires 0 <= doy <= 365 && (doy == 365 ==> yq == 3 && (q < 24 || c == 3))
    ensures 0 <= 36524 * c + 1461 * q + 365 * yq + doy < 146097
    ensures SplitDayOfEra(36524 * c + 1461 * q + 365 * yq + doy) == (100 * c + 4 * q + yq, doy)
  {
    var doq := 365 * yq + doy;
    var doc := 1461 * q + doq;
    CenturySplitInverse(c, doc);
    BlockSplitInverse(q, doq);
    YearOfBlockSplitInverse(yq, doy);
    SplitDayOfEraOfParts(36524 * c + doc, c, doc, q, doq, yq, doy);
  }

  /** `SplitDayOfEraInverse` for a year of the era given by its century, block and year of block. */
  lemma SplitDayOfEraInverseOfParts(c: int, q: int, yq: int, doy: int)
    requires 0 <= c <= 3 && 0 <= q <= 24 && 0 <= yq <= 3
    requires 0 <= doy < YearDays(MarchYearIsLeap(100 * c + 4 * q + yq))
    ensures 0 <= YearStart(100 * c + 4 * q + yq) + doy < 146097
    ensures SplitDayOfEra(YearStart(100 * c + 4 * q + yq) + doy) == (100 * c + 4 * q + yq, doy)
  {
    DayOfEraParts(c, q, yq, doy);
    SplitDayOfEraOfWritten(c, q, yq, doy);
  }

  lemma SplitDayOfEraInverse(yoe: int, doy: int)
    requires 0 <= yoe < 400 && 0 <= doy < YearDays(MarchYearIsLeap(yoe))
    ensures 0 <= YearStart(yoe) + doy < 146097
    ensures SplitDayOfEra(YearStart(yoe) + doy) == (yoe, doy)
  {
    var c, q, yq := PartsOfYear(yoe);
    assert MarchYearIsLeap(yoe) == MarchYearIsLeap(100 * c + 4 * q + yq);
    SplitDayOfEraInverseOfParts(c, q, yq, doy);
    assert YearStart(yoe) == YearStart(100 * c + 4 * q + yq);
  }

  /** Civil years 400 apart agree on being leap years. */
  lemma LeapYearPeriodic(era: int, k: int)
    ensures IsLeapYear(400 * era + k) == IsLeapYear(k)
  {
    DivMod(400 * era + k, 4, 100 * era + k / 4, k % 4);
    DivMod(400 * era + k, 100, 4 * era + k / 100, k % 100);
    DivMod(400 * era + k, 400, era + k / 400, k % 400);
  }

  // ---------------------------------------------------------------------------
  // Civil dates <-> day numbers (0000-03-01 is day -719468, an era is 146097 days)

  /** The number of days from 1970-01-01 to `c` (negative before it). */
  function DaysFromCivil(c: Civil): int
    requires ValidDate(c)
  {
    var yy := if c.month <= 2 then c.year - 1 else c.year;
    var mp := if c.month > 2 then c.month - 3 else c.month + 9;
    (yy / 400) * 146097 + YearStart(yy % 400) + MonthStart(mp) + c.day - 1 - 719468
  }

  /** The civil date of day `d` of month `mp` (from March) of year `yoe` of era `era`. */
  function FromMarch(era: int, yoe: int, mp: int, d: int): Civil
    requires 0 <= mp < 12
  {
    var m := if mp < 10 then mp + 3 else mp - 9;
    Civil(era * 400 + yoe + (if m <= 2 then 1 else 0), m, d)
  }

  /** The calendar day numbered `z` days after 1970-01-01. */
  function CivilFromDays(z: int): (c: Civil)
    ensures ValidDate(c)
  {
    CivilFromMarchDays(z + 719468)
  }

  /** The calendar day numbered `zz` days after 0000-03-01. */
  function CivilFromMarchDays(zz: int): (c: Civil)
    ensures ValidDate(c)
  {
    var ye := SplitDayOfEra(zz % 146097);
    var md := SplitDayOfYear(ye.1, MarchYearIsLeap(ye.0));
    LeapYearPeriodic(zz / 146097, ye.0 + 1);
    FromMarch(zz / 146097, ye.0, md.0, md.1)
  }

  /** The era and the day of the era that `CivilFromDays` computes for day `z`. */
  lemma EraOfDay(zz: int, era: int, yoe: int, doy: int)
    requires 0 <= yoe < 400 && 0 <= doy < YearDays(MarchYearIsLeap(yoe))
    requires zz == era * 146097 + YearStart(yoe) + doy
    ensures zz / 146097 == era
    ensures SplitDayOfEra(zz % 146097) == (yoe, doy)
  {
    SplitDayOfEraInverse(yoe, doy);
    DivMod(zz, 146097, era, YearStart(yoe) + doy);
  }

  /** `CivilFromDays` reads a day number through its era, year-of-era and day-of-year. */
  lemma CivilFromDaysOfParts(z: int, era: int, yoe: int, doy: int, mp: int, d: int)
    requires 0 <= yoe < 400 && 0 <= doy < YearDays(MarchYearIsLeap(yoe))
    requires z + 719468 == era * 146097 + YearStart(yoe) + doy
    requires 0 <= mp < 12 && SplitDayOfYear(doy, MarchYearIsLeap(yoe)) == (mp, d)
    ensures CivilFromDays(z) == FromMarch(era, yoe, mp, d)
  {
    var zz := z + 719468;
    assert CivilFromDays(z) == CivilFromMarchDays(zz);
    CivilFromMarchDaysOfParts(zz, era, yoe, doy, mp, d);
  }

  lemma CivilFromMarchDaysOfParts(zz: int, era: int, yoe: int, doy: int, mp: int, d: int)
    requires 0 <= yoe < 400 && 0 <= doy < YearDays(MarchYearIsLeap(yoe))
    requires zz == era * 146097 + YearStart(yoe) + doy
    requires 0 <= mp < 12 && SplitDayOfYear(doy, MarchYearIsLeap(yoe)) == (mp, d)
    ensures CivilFromMarchDays(zz) == FromMarch(era, yoe, mp, d)
  {
    EraOfDay(zz, era, yoe, doy);
  }

  /** Numbering a valid date and reading the number back gives the date. */
  lemma CivilRoundTrip(c: Civil)
    requires ValidDate(c)
    ensures CivilFromDays(DaysFromCivil(c)) == c
  {
    var yy := if c.month <= 2 then c.year - 1 else c.year;
    var mp := if c.month > 2 then c.month - 3 else c.month + 9;
    var era, yoe := yy / 400, yy % 400;
    var leap := MarchYearIsLeap(yoe);
    assert MarchMonthLen(mp, leap) == DaysInMonth(c.year, c.month) by {
      LeapYearPeriodic(era, yoe + 1);
    }
    var doy := MonthStart(mp) + c.day - 1;
    assert doy < YearDays(leap) && SplitDayOfYear(doy, leap) == (mp, c.day) by {
      SplitDayOfYearInverse(mp, c.day, leap);
    }
    CivilFromDaysOfParts(DaysFromCivil(c), era, yoe, doy, mp, c.day);
  }

  /** `DaysFromCivil` of a date given by era, year of era, month from March and day. */
  lemma DaysFromCivilOfParts(era: int, yoe: int, mp: int, d: int)
    requires 0 <= yoe < 400 && 0 <= mp < 12 && ValidDate(FromMarch(era, yoe, mp, d))
    ensures DaysFromCivil(FromMarch(era, yoe, mp, d))
         == era * 146097 + YearStart(yoe) + MonthStart(mp) + d - 1 - 719468
  {
    var c := FromMarch(era, yoe, mp, d);
    var yy := if c.month <= 2 then c.year - 1 else c.year;
    assert yy == era * 400 + yoe;
    DivMod(yy, 400, era, yoe);
  }

  /** The era, year of era, day of year, month from March and day `CivilFromDays` finds for `z`. */
  lemma PartsOfDay(z: int) returns (era: int, yoe: int, doy: int, mp: int, d: int)
    ensures 0 <= yoe < 400 && 0 <= mp < 12
    ensures z + 719468 == era * 146097 + YearStart(yoe) + doy
    ensures MonthStart(mp) + d - 1 == doy
    ensures CivilFromDays(z) == FromMarch(era, yoe, mp, d)
  {
    var zz := z + 719468;
    assert CivilFromDays(z) == CivilFromMarchDays(zz);
    era := zz / 146097;
    var ye := SplitDayOfEra(zz % 146097);
    yoe, doy := ye.0, ye.1;
    var md := SplitDayOfYear(doy, MarchYearIsLeap(yoe));
    mp, d := md.0, md.1;
  }

  /** Reading a day number as a date and numbering it again gives the number. */
  lemma DaysRoundTrip(z: int)
    ensures DaysFromCivil(CivilFromDays(z)) == z
  {
    var era, yoe, doy, mp, d := PartsOfDay(z);
    DaysFromCivilOfParts(era, yoe, mp, d);
  }

  /** Distinct day numbers name distinct dates. */
  lemma CivilFromDaysInjective(z1: int, z2: int)
    requires z1 != z2
    ensures CivilFromDays(z1) != CivilFromDays(z2)
  {
    DaysRoundTrip(z1);
    DaysRoundTrip(z2);
  }

  /** Years 0..9999 lie between day -719528 (0000-01-01) and day 3000000. */
  lemma DaysFromCivilBounds(c: Civil)
    requires ValidDate(c) && 0 <= c.year <= 9999
    ensures -719528 <= DaysFromCivil(c) <= 3_000_000
  {
    var yy := if c.month <= 2 then c.year - 1 else c.year;
    var mp := if c.month > 2 then c.month - 3 else c.month + 9;
    var yoe := yy % 400;
    var c', q, yq := PartsOfYear(yoe);
    YearStartOfParts(c', q, yq);
    if yy < 0 {
      DivMod(yy, 400, -1, 399);
      assert mp >= 10;
    } else {
      assert 0 <= yy / 400 <= 24;
    }
  }
}

=== FILE: category_colors.dfy ===
/**
 * The two category colour tables: the hex colour of the current card, looked
 * up with optional chaining, and the border/background/text classes of the
 * older card, looked up in a plain object. A plain object also answers for the
 * names `Object.prototype` defines, which is where the two lookups differ.
 */
module CategoryColors {
  import opened Wrappers
  import opened Tasks

  // ---------------------------------------------------------------------------
  // The current card: `CATEGORY_CONFIG[name]?.color ?? '#94a3b8'`

  const DefaultHexColor := "#94a3b8"

  /** The configured colour of a name, if the table has an own entry for it. */
  function ConfiguredHex(name: string): Option<string> {
    if name == "Chore" then Some("#0D9488")
    else if name == "Shopping" then Some("#E11D48")
    else if name == "Homework" then Some("#2563EB")
    else if name == "Other" then Some("#4B5563")
    else None
  }

  /**
   * An inherited property of the table (a function, or the prototype itself)
   * has no `color`, so optional chaining yields `undefined` and the default
   * applies just as for a missing name.
   */
  function GetCategoryColor(name: string): (r: string)
    ensures ConfiguredHex(name).Some? ==> r == ConfiguredHex(name).value
    ensures ConfiguredHex(name).None? ==> r == DefaultHexColor
  {
    match ConfiguredHex(name)
    case Some(hex) => hex
    case None => DefaultHexColor
  }

  /** Every category has its own colour, distinct from the others and from the default. */
  lemma EveryCategoryHasItsOwnHex(a: Category, b: Category)
    ensures GetCategoryColor(CategoryName(a)) != DefaultHexColor
    ensures GetCategoryColor(CategoryName(a)) == GetCategoryColor(CategoryName(b)) <==> a == b
  {
  }

  // ---------------------------------------------------------------------------
  // The older card: `CATEGORY_COLORS[name]`, falling back when the value is falsy

  datatype CategoryColor = CategoryColor(border: string, background: string, text: string)

  const HomeworkColor := CategoryColor("border-l-blue-500", "bg-blue-100", "text-blue-800")
  const ChoresColor := CategoryColor("border-l-green-500", "bg-green-100", "text-green-800")
  const OtherColor := CategoryColor("border-l-purple-500", "bg-purple-100", "text-purple-800")
  const DefaultColor := CategoryColor("border-l-gray-300", "bg-gray-100", "text-gray-800")

  /** The table's own entries. */
  function OwnColor(name: string): Option<CategoryColor> {
    if name == "Homework" then Some(HomeworkColor)
    else if name == "Chores" then Some(ChoresColor)
    else if name == "Other" then Some(OtherColor)
    else None
  }

  /** The properties every plain object inherits from `Object.prototype`; each is truthy. */
  const ObjectPrototypeNames: set<string> := {
    "constructor", "__proto__", "hasOwnProperty", "isPrototypeOf",
    "propertyIsEnumerable", "toString", "toLocaleString", "valueOf",
    "__defineGetter__", "__defineSetter__", "__lookupGetter__", "__lookupSetter__"}

  /** What the indexing expression yields: an own colour, or an inherited non-colour value. */
  datatype Looked = Colour(color: CategoryColor) | Inherited(property: string)

  /** `getCategoryColors` as written: an inherited property is truthy and is returned as the colour. */
  function GetCategoryColorsAsWritten(categoryName: string): (r: Looked)
    ensures r.Inherited? <==> OwnColor(categoryName).None? && categoryName in ObjectPrototypeNames
  {
    match OwnColor(categoryName)
    case Some(c) => Colour(c)
    case None => if categoryName in ObjectPrototypeNames then Inherited(categoryName) else Colour(DefaultColor)
  }

  /** The name `toString` reaches the caller as a function, not a colour. */
  lemma InheritedNameLeaks()
    ensures GetCategoryColorsAsWritten("toString") == Inherited("toString")
    ensures GetCategoryColorsAsWritten("constructor").Inherited?
  {
  }

  /** `getCategoryColors` restricted to own entries: every name gets a colour. */
  function GetCategoryColors(categoryName: string): (r: CategoryColor)
    ensures r in {HomeworkColor, ChoresColor, OtherColor, DefaultColor}
    ensures OwnColor(categoryName).Some? ==> r == OwnColor(categoryName).value
    ensures OwnColor(categoryName).None? ==> r == DefaultColor
  {
    match OwnColor(categoryName)
    case Some(c) => c
    case None => DefaultColor
  }

  /** The corrected lookup agrees with the written one on every name that is not inherited. */
  lemma CorrectedAgreesOffPrototype(categoryName: string)
    ensures categoryName !in ObjectPrototypeNames
        <==> GetCategoryColorsAsWritten(categoryName) == Colour(GetCategoryColors(categoryName))
  {
  }

  /**
   * The older card's tasks are `Chore`, `Homework`, `Shopping` or `Other`; the
   * table spells the first `Chores` and has no `Shopping`, so those two get the
   * default colours.
   */
  lemma LegacyCategoryColors(c: Category)
    ensures GetCategoryColors(CategoryName(c)) == DefaultColor <==> c == Chore || c == Shopping
  {
  }
}

=== FILE: due_date.dfy ===
/**
 * The due-date badge of a task card: the label (`Today`, `Tomorrow`, or the
 * month and day) and whether the task is overdue. Days are local calendar
 * days at a fixed zone offset `off` (minutes east of UTC); the clock reading
 * `now` is a parameter.
 */
module DueDate {
  import opened Wrappers
  import opened Calendar
  import opened JsDates

  /** Instants far enough inside the time range that their day and the next one are representable. */
  predicate InRange(t: int) {
    -MaxTime + MsPerDay <= t <= MaxTime - MsPerDay
  }

  // ---------------------------------------------------------------------------
  // The date-fns helpers the badge uses

  /** `startOfDay`: the local midnight that begins the date's day. */
  function StartOfDay(d: JsDate, off: int): (r: JsDate)
    ensures d.Invalid? ==> r.Invalid?
    ensures d.Valid? && InRange(d.time) && PlausibleOffset(off) ==> r.Valid?
    ensures r.Valid? ==> r.time <= d.time && r.time + off * MsPerMinute == LocalDay(d.time, off) * MsPerDay
    ensures r.Valid? ==> LocalDay(r.time, off) == LocalDay(d.time, off)
  {
    match d
    case Invalid => Invalid
    case Valid(t) =>
      var z := LocalDay(t, off);
      UtcDayOfInstant(z, z * MsPerDay);
      TimeClip(z * MsPerDay - off * MsPerMinute)
  }

  /** `isSameDay`: the two days' starts are the same time value (NaN equals nothing). */
  predicate IsSameDay(a: JsDate, b: JsDate, off: int) {
    var sa, sb := StartOfDay(a, off), StartOfDay(b, off);
    sa.Valid? && sb.Valid? && sa.time == sb.time
  }

  /** `addDays` on the local calendar; a fixed offset makes every day 24 hours long. */
  function AddDays(d: JsDate, n: int): (r: JsDate)
    ensures r.Valid? ==> d.Valid? && r.time == d.time + n * MsPerDay
  {
    match d
    case Invalid => Invalid
    case Valid(t) => TimeClip(t + n * MsPerDay)
  }

  predicate IsToday(d: JsDate, now: int, off: int) {
    IsSameDay(d, Valid(now), off)
  }

  predicate IsTomorrow(d: JsDate, now: int, off: int) {
    IsSameDay(d, AddDays(Valid(now), 1), off)
  }

  /** `isPast`: strictly before the clock reading; never for Invalid Date. */
  predicate IsPast(d: JsDate, now: int) {
    d.Valid? && d.time < now
  }

  /** Two instants in range share a local day exactly when their day numbers agree. */
  lemma IsSameDayIff(a: int, b: int, off: int)
    requires InRange(a) && InRange(b) && PlausibleOffset(off)
    ensures IsSameDay(Valid(a), Valid(b), off) <==> LocalDay(a, off) == LocalDay(b, off)
  {
    var za, zb := LocalDay(a, off), LocalDay(b, off);
    if za != zb {
      assert za * MsPerDay != zb * MsPerDay;
    }
  }

  lemma IsTodayIff(t: int, now: int, off: int)
    requires InRange(t) && InRange(now) && PlausibleOffset(off)
    ensures IsToday(Valid(t), now, off) <==> LocalDay(t, off) == LocalDay(now, off)
  {
    IsSameDayIff(t, now, off);
  }

  lemma IsTomorrowIff(t: int, now: int, off: int)
    requires InRange(t) && -MaxTime + MsPerDay <= now <= MaxTime - 2 * MsPerDay && PlausibleOffset(off)
    ensures IsTomorrow(Valid(t), now, off) <==> LocalDay(t, off) == LocalDay(now, off) + 1
  {
    var z := LocalDay(now, off);
    assert AddDays(Valid(now), 1) == Valid(now + MsPerDay);
    UtcDayOfInstant(z + 1, now + MsPerDay + off * MsPerMinute);
    IsSameDayIff(t, now + MsPerDay, off);
  }

  /** Invalid Date is never today or tomorrow. */
  lemma InvalidIsNeitherTodayNorTomorrow(now: int, off: int)
    ensures !IsToday(Invalid, now, off) && !IsTomorrow(Invalid, now, off)
  {
  }

  // ---------------------------------------------------------------------------
  // The label

  const MonthAbbreviations: seq<string> :=
    ["Jan", "Feb", "Mar", "Apr", "May", "Jun", "Jul", "Aug", "Sep", "Oct", "Nov", "Dec"]

  /** The `MMM d` pattern in the default English locale: `Mar 7`, `Dec 25`. */
  function MonthDayLabel(c: Civil): (r: string)
    requires ValidDate(c)
    ensures |r| == (if c.day < 10 then 5 else 6)
    ensures r[..3] == MonthAbbreviations[c.month - 1] && r[3] == ' '
    ensures AllDigits(r[4..]) && DigitsValue(r[4..]) == c.day
  {
    var w := if c.day < 10 then 1 else 2;
    var r := MonthAbbreviations[c.month - 1] + " " + Digits(c.day, w);
    assert r[4..] == Digits(c.day, w);
    DigitsValueOfDigits(c.day, w);
    r
  }

  /** The month an abbreviation names; 0 for any other text. */
  function MonthOfAbbreviation(s: string): int {
    if s == "Jan" then 1 else if s == "Feb" then 2 else if s == "Mar" then 3
    else if s == "Apr" then 4 else if s == "May" then 5 else if s == "Jun" then 6
    else if s == "Jul" then 7 else if s == "Aug" then 8 else if s == "Sep" then 9
    else if s == "Oct" then 10 else if s == "Nov" then 11 else if s == "Dec" then 12
    else 0
  }

  lemma MonthOfAbbreviationOf(m: int)
    requires 1 <= m <= 12
    ensures MonthOfAbbreviation(MonthAbbreviations[m - 1]) == m
  {
  }

  /** A month-day label names one month and day. */
  lemma MonthDayLabelInjective(c: Civil, c': Civil)
    requires ValidDate(c) && ValidDate(c')
    ensures MonthDayLabel(c) == MonthDayLabel(c') <==> c.month == c'.month && c.day == c'.day
  {
    var r, r' := MonthDayLabel(c), MonthDayLabel(c');
    if r == r' {
      assert r[..3] == r'[..3];
      var a, a' := MonthAbbreviations[c.month - 1], MonthAbbreviations[c'.month - 1];
      assert a == a';
      MonthOfAbbreviationOf(c.month);
      MonthOfAbbreviationOf(c'.month);
      assert MonthOfAbbreviation(a) == MonthOfAbbreviation(a');
      assert r[4..] == r'[4..];
      assert DigitsValue(r[4..]) == DigitsValue(r'[4..]);
    }
  }

  /** `formatDueDate`; `format` throws `RangeError` on Invalid Date. */
  function FormatDueDate(d: JsDate, now: int, off: int): (r: Result<string, RangeError>)
    ensures r.Err? <==> d.Invalid?
    ensures r == Ok("Today") <==> IsToday(d, now, off)
    ensures r == Ok("Tomorrow") <==> IsTomorrow(d, now, off) && !IsToday(d, now, off)
    ensures r.Ok? && !IsToday(d, now, off) && !IsTomorrow(d, now, off)
      ==> r.value == MonthDayLabel(CivilFromDays(LocalDay(d.time, off)))
  {
    if IsToday(d, now, off) then Ok("Today")
    else if IsTomorrow(d, now, off) then Ok("Tomorrow")
    else if d.Invalid? then Err(InvalidTimeValue)
    else
      var c := CivilFromDays(LocalDay(d.time, off));
      var r := MonthDayLabel(c);
      assert r[0] != 'T' by {
        assert r[0] == MonthAbbreviations[c.month - 1][0];
      }
      Ok(r)
  }

  /** The label of a valid date is decided by its local day against today's. */
  lemma DueLabelByDay(t: int, now: int, off: int)
    requires InRange(t) && -MaxTime + MsPerDay <= now <= MaxTime - 2 * MsPerDay && PlausibleOffset(off)
    ensures FormatDueDate(Valid(t), now, off) == Ok("Today") <==> LocalDay(t, off) == LocalDay(now, off)
    ensures FormatDueDate(Valid(t), now, off) == Ok("Tomorrow") <==> LocalDay(t, off) == LocalDay(now, off) + 1
  {
    IsTodayIff(t, now, off);
    IsTomorrowIff(t, now, off);
  }

  // ---------------------------------------------------------------------------
  // Overdue

  /** `isPast(startOfDay(due)) && !isToday(startOfDay(due)) && !isDone`. */
  predicate IsOverDue(due: JsDate, now: int, off: int, isDone: bool) {
    var start := StartOfDay(due, off);
    IsPast(start, now) && !IsToday(start, now, off) && !isDone
  }

  /** An open task is overdue exactly when its local day is before today; Invalid Date never is. */
  lemma OverDueIff(t: int, now: int, off: int, isDone: bool)
    requires InRange(t) && InRange(now) && PlausibleOffset(off)
    ensures IsOverDue(Valid(t), now, off, isDone) <==> LocalDay(t, off) < LocalDay(now, off) && !isDone
    ensures !IsOverDue(Invalid, now, off, isDone)
  {
    var start := StartOfDay(Valid(t), off);
    var z, zn := LocalDay(t, off), LocalDay(now, off);
    assert start.Valid? && start.time + off * MsPerMinute == z * MsPerDay;
    assert StartOfDay(start, off) == start;
    var nowStart := StartOfDay(Valid(now), off);
    assert nowStart.Valid? && nowStart.time + off * MsPerMinute == zn * MsPerDay;
    assert IsToday(start, now, off) <==> z == zn by {
      if z != zn {
        assert z * MsPerDay != zn * MsPerDay;
      }
    }
    if z < zn {
      assert z * MsPerDay <= zn * MsPerDay - MsPerDay;
    }
    if start.time < now {
      assert z * MsPerDay < (zn + 1) * MsPerDay;
    }
  }
}

=== FILE: filter_tasks.dfy ===
/**
 * `useFilterTasks`: the tasks that pass the search, category and assignee
 * clauses, sorted by due date or by title.
 */
module FilterTasks {
  import opened Wrappers
  import opened Text
  import opened JsDates
  import opened Tasks
  import opened Sorting

  datatype SortKey = ByDueDate | ByTitle

  /** The filter state; `category` and `assignee` are free text, `"all"` disables the clause. */
  datatype Filters = Filters(searchQuery: string, category: string, assignee: string, sortBy: SortKey)

  /**
   * `a.localeCompare(b)`: negative, zero or positive. Its collation is the
   * host's; the model only asks that `<= 0` be a total preorder.
   */
  type Collation = (string, string) -> int

  ghost predicate IsCollation(collate: Collation) {
    (forall a, b :: collate(a, b) <= 0 || collate(b, a) <= 0)
    && (forall a, b, c :: collate(a, b) <= 0 && collate(b, c) <= 0 ==> collate(a, c) <= 0)
  }

  // ---------------------------------------------------------------------------
  // The filter clauses

  /** The text searched: title, a space, and the description or nothing, lower-cased. */
  function SearchText(t: Task): string {
    Lower(t.title + " " + t.description.GetOr(""))
  }

  /** `!query || text.includes(query)`, with `query` already trimmed and not lower-cased. */
  predicate MatchesSearch(t: Task, query: string) {
    query == "" || Includes(SearchText(t), query)
  }

  predicate MatchesCategory(t: Task, category: string) {
    category == "all" || CategoryName(t.category) == category
  }

  predicate MatchesAssignee(t: Task, assignee: string) {
    assignee == "all" || t.assignee == Some(assignee)
  }

  predicate Matches(t: Task, f: Filters) {
    MatchesSearch(t, Trim(Js, f.searchQuery))
    && MatchesCategory(t, f.category) && MatchesAssignee(t, f.assignee)
  }

  /**
   * `tasks.filter(...)`: the matching tasks, in input order. `KeepOne` and
   * `KeepAppend` pin the order, and `KeepCounts` says every occurrence of a
   * matching task is kept and every other one dropped.
   */
  function Keep(tasks: seq<Task>, f: Filters): (r: seq<Task>)
    ensures forall t :: t in r <==> t in tasks && Matches(t, f)
    ensures multiset(r) <= multiset(tasks)
  {
    if tasks == [] then []
    else
      var rest := Keep(tasks[1..], f);
      var keep := Matches(tasks[0], f);
      var r := if keep then [tasks[0]] + rest else rest;
      KeepStep(tasks, keep, rest, r);
      r
  }

  /** One step of a filter: the head kept or dropped in front of the filtered tail. */
  lemma KeepStep<T>(s: seq<T>, keep: bool, rest: seq<T>, r: seq<T>)
    requires s != [] && r == (if keep then [s[0]] + rest else rest)
    requires multiset(rest) <= multiset(s[1..])
    ensures multiset(r) <= multiset(s)
    ensures forall t :: t in r <==> (keep && t == s[0]) || t in rest
    ensures forall t :: t in s <==> t == s[0] || t in s[1..]
    ensures multiset(s) == multiset{s[0]} + multiset(s[1..])
    ensures multiset(r) == (if keep then multiset{s[0]} else multiset{}) + multiset(rest)
  {
    assert s == [s[0]] + s[1..];
  }

  /** A single task is kept exactly when it matches. */
  lemma KeepOne(t: Task, f: Filters)
    ensures Keep([t], f) == if Matches(t, f) then [t] else []
  {
    assert [t][1..] == [];
  }

  /** Filtering a list with a given head: the head if it matches, then the filtered rest. */
  lemma KeepCons(t: Task, rest: seq<Task>, f: Filters)
    ensures Keep([t] + rest, f) == (if Matches(t, f) then [t] else []) + Keep(rest, f)
  {
    var s := [t] + rest;
    assert s != [] && s[0] == t && s[1..] == rest;
  }

  /** Filtering a concatenation filters each part and keeps them in order. */
  lemma {:induction false} KeepAppend(a: seq<Task>, b: seq<Task>, f: Filters)
    ensures Keep(a + b, f) == Keep(a, f) + Keep(b, f)
  {
    if a == [] {
      assert a + b == b;
    } else {
      assert a == [a[0]] + a[1..];
      assert a + b == [a[0]] + (a[1..] + b);
      KeepAppend(a[1..], b, f);
      KeepAppendStep(a[0], a[1..], b, f);
    }
  }

  /** The inductive step of `KeepAppend`: a head in front of the first part. */
  lemma KeepAppendStep(t: Task, rest: seq<Task>, b: seq<Task>, f: Filters)
    requires Keep(rest + b, f) == Keep(rest, f) + Keep(b, f)
    ensures Keep([t] + (rest + b), f) == Keep([t] + rest, f) + Keep(b, f)
  {
    var head := if Matches(t, f) then [t] else [];
    KeepCons(t, rest + b, f);
    KeepCons(t, rest, f);
    ConcatAssoc(head, Keep(rest, f), Keep(b, f));
  }

  /** Every occurrence of a matching task is kept, and every other one dropped. */
  lemma {:induction false} KeepCounts(tasks: seq<Task>, f: Filters, t: Task)
    ensures multiset(Keep(tasks, f))[t] == if Matches(t, f) then multiset(tasks)[t] else 0
  {
    if tasks != [] {
      assert tasks == [tasks[0]] + tasks[1..];
      KeepCounts(tasks[1..], f, t);
      KeepCountsStep(tasks[0], tasks[1..], f, t);
    }
  }

  /** The inductive step of `KeepCounts`: one more task in front. */
  lemma KeepCountsStep(h: Task, rest: seq<Task>, f: Filters, t: Task)
    requires multiset(Keep(rest, f))[t] == if Matches(t, f) then multiset(rest)[t] else 0
    ensures multiset(Keep([h] + rest, f))[t] == if Matches(t, f) then multiset([h] + rest)[t] else 0
  {
    var head := if Matches(h, f) then [h] else [];
    KeepCons(h, rest, f);
    assert multiset(Keep([h] + rest, f)) == multiset(head) + multiset(Keep(rest, f));
    assert multiset([h] + rest) == multiset{h} + multiset(rest);
  }

  lemma {:induction false} KeepAll(tasks: seq<Task>, f: Filters)
    requires forall t :: t in tasks ==> Matches(t, f)
    ensures Keep(tasks, f) == tasks
  {
    if tasks != [] {
      KeepAll(tasks[1..], f);
    }
  }

  lemma {:induction false} KeepNone(tasks: seq<Task>, f: Filters)
    requires forall t :: t in tasks ==> !Matches(t, f)
    ensures Keep(tasks, f) == []
  {
    if tasks != [] {
      KeepNone(tasks[1..], f);
    }
  }

  // ---------------------------------------------------------------------------
  // The two orders

  /**
   * `new Date(a.due_date).getTime() - new Date(b.due_date).getTime()`; a NaN
   * result (an Invalid Date on either side) counts as 0.
   */
  function DueDateCompare(a: Task, b: Task): int {
    if a.dueDate.Valid? && b.dueDate.Valid? then a.dueDate.time - b.dueDate.time else 0
  }

  predicate DueLeq(a: Task, b: Task) {
    DueDateCompare(a, b) <= 0
  }

  function TitleOrder(collate: Collation): (Task, Task) -> bool {
    (a: Task, b: Task) => collate(a.title, b.title) <= 0
  }

  /** The hook's result: a fresh, sorted copy of the matching tasks. */
  function UseFilterTasks(tasks: seq<Task>, f: Filters, collate: Collation): (r: seq<Task>)
    ensures multiset(r) == multiset(Keep(tasks, f))
    ensures forall t :: t in r <==> t in tasks && Matches(t, f)
    ensures forall t :: multiset(r)[t] == if Matches(t, f) then multiset(tasks)[t] else 0
  {
    var kept := Keep(tasks, f);
    forall t ensures multiset(kept)[t] == if Matches(t, f) then multiset(tasks)[t] else 0 {
      KeepCounts(tasks, f, t);
    }
    var leq := if f.sortBy == ByDueDate then DueLeq else TitleOrder(collate);
    SortPermutes(kept, leq);
    var r := SortBy(kept, leq);
    assert forall t :: t in r <==> t in multiset(r);
    r
  }

  // ---------------------------------------------------------------------------
  // Properties

  /** A blank or whitespace-only query keeps every task as far as the search goes. */
  lemma BlankQueryMatchesAll(t: Task, f: Filters)
    requires IsBlank(Js, f.searchQuery)
    ensures MatchesSearch(t, Trim(Js, f.searchQuery))
  {
  }

  /**
   * The query is compared with lower-cased text but is not lower-cased itself,
   * so a query holding an ASCII capital letter matches no task.
   */
  lemma CapitalInQueryMatchesNothing(t: Task, f: Filters, k: nat)
    requires k < |Trim(Js, f.searchQuery)| && IsAsciiUpper(Trim(Js, f.searchQuery)[k])
    ensures !Matches(t, f)
  {
    NotIncludedWhenCharMissing(SearchText(t), Trim(Js, f.searchQuery), k);
  }

  /** A category filter that is neither `"all"` nor a category name keeps nothing. */
  lemma UnknownCategoryKeepsNothing(tasks: seq<Task>, f: Filters, collate: Collation)
    requires f.category != "all"
    requires forall c: Category :: CategoryName(c) != f.category
    ensures UseFilterTasks(tasks, f, collate) == []
  {
    KeepNone(tasks, f);
    assert |UseFilterTasks(tasks, f, collate)| == |multiset(Keep(tasks, f))|;
  }

  /** With every clause open the result is a rearrangement of all the tasks. */
  lemma OpenFiltersKeepEverything(tasks: seq<Task>, f: Filters, collate: Collation)
    requires IsBlank(Js, f.searchQuery) && f.category == "all" && f.assignee == "all"
    ensures multiset(UseFilterTasks(tasks, f, collate)) == multiset(tasks)
  {
    KeepAll(tasks, f);
  }

  predicate AllDatesValid(tasks: seq<Task>) {
    forall t :: t in tasks ==> t.dueDate.Valid?
  }

  lemma DueOrderIsPreorder(u: seq<Task>)
    requires AllDatesValid(u)
    ensures TotalPreorderOn(u, DueLeq)
  {
  }

  /**
   * Sorting by due date: with every date valid the result is non-decreasing in
   * time, and tasks due at the same instant keep their input order.
   */
  lemma DueDateSortOrdered(tasks: seq<Task>, f: Filters, collate: Collation, x: Task)
    requires f.sortBy == ByDueDate && AllDatesValid(tasks) && x.dueDate.Valid?
    ensures var r := UseFilterTasks(tasks, f, collate);
      forall i, j :: 0 <= i < j < |r| ==> r[i].dueDate.time <= r[j].dueDate.time
    ensures Level(UseFilterTasks(tasks, f, collate), x, DueLeq) == Level(Keep(tasks, f), x, DueLeq)
  {
    var kept := Keep(tasks, f);
    DueOrderIsPreorder(kept);
    SortSorted(kept, DueLeq);
    DueOrderIsPreorder(kept + [x]);
    SortStable(kept, x, DueLeq);
    var r := UseFilterTasks(tasks, f, collate);
    forall i, j | 0 <= i < j < |r|
      ensures r[i].dueDate.time <= r[j].dueDate.time
    {
      assert r[i] in r && r[j] in r;
      assert DueLeq(r[i], r[j]);
    }
  }

  lemma TitleOrderIsPreorder(u: seq<Task>, collate: Collation)
    requires IsCollation(collate)
    ensures TotalPreorderOn(u, TitleOrder(collate))
  {
    var leq := TitleOrder(collate);
    forall a, b | a in u && b in u
      ensures leq(a, b) || leq(b, a)
    {
      assert collate(a.title, b.title) <= 0 || collate(b.title, a.title) <= 0;
    }
    forall a, b, c | a in u && b in u && c in u && leq(a, b) && leq(b, c)
      ensures leq(a, c)
    {
      assert collate(a.title, b.title) <= 0 && collate(b.title, c.title) <= 0;
    }
  }

  /**
   * Any other sort key orders by title under the collation; tasks whose titles
   * collate level keep their input order.
   */
  lemma TitleSortOrdered(tasks: seq<Task>, f: Filters, collate: Collation, x: Task)
    requires f.sortBy == ByTitle && IsCollation(collate)
    ensures var r := UseFilterTasks(tasks, f, collate);
      forall i, j :: 0 <= i < j < |r| ==> collate(r[i].title, r[j].title) <= 0
    ensures Level(UseFilterTasks(tasks, f, collate), x, TitleOrder(collate))
         == Level(Keep(tasks, f), x, TitleOrder(collate))
  {
    var kept := Keep(tasks, f);
    TitleOrderIsPreorder(kept, collate);
    SortSorted(kept, TitleOrder(collate));
    TitleOrderIsPreorder(kept + [x], collate);
    SortStable(kept, x, TitleOrder(collate));
  }
}

=== FILE: forms.dfy ===
/**
 * The task forms' validation: three zod object schemas that share the title,
 * description and due-date rules and differ in their category lists and in
 * the key the assignee travels under.
 */
module FormSchema {
  import opened Wrappers
  import opened Text
  import opened JsDates

  /** Which schema: the feature form's, the older edit modal's, or the older add dialog's. */
  datatype Schema = FeatureSchema | ModalSchema | AddTaskSchema

  datatype Field = TitleField | DescriptionField | DueDateField | CategoryField

  /** The values a form holds; `None` is `undefined`. The due date is `None` when no `Date` is set. */
  datatype FormValues = FormValues(
    title: string,
    description: string,
    assignee: Option<string>,
    dueDate: Option<JsDate>,
    category: Option<string>)

  /** What a schema hands to the submit handler. */
  datatype FormData = FormData(
    title: string,
    description: string,
    assignee: Option<string>,
    dueDate: int,
    category: string)

  /** The category literals of each schema's `z.enum`. */
  function Categories(k: Schema): seq<string> {
    match k
    case AddTaskSchema => ["Chore", "Shopping", "Personal", "Homework", "Other"]
    case _ => ["Chore", "Shopping", "Homework", "Other"]
  }

  /** `z.string().min(lo).max(hi)`: bounds on the UTF-16 length. */
  predicate LengthWithin(s: string, lo: nat, hi: nat) {
    lo <= JsLength(s) <= hi
  }

  /** `z.date()`: a `Date` object whose time value is not NaN. */
  predicate IsDateValue(d: Option<JsDate>) {
    d.Some? && d.value.Valid?
  }

  /** `z.enum(categories)`: a string equal to one of the literals. */
  predicate InEnum(c: Option<string>, categories: seq<string>) {
    c.Some? && c.value in categories
  }

  /** The fields that fail their rule. */
  function Failures(k: Schema, v: FormValues): (r: set<Field>)
    ensures TitleField in r <==> !LengthWithin(v.title, 1, 50)
    ensures DescriptionField in r <==> !LengthWithin(v.description, 1, 500)
    ensures DueDateField in r <==> !IsDateValue(v.dueDate)
    ensures CategoryField in r <==> !InEnum(v.category, Categories(k))
  {
    (if LengthWithin(v.title, 1, 50) then {} else {TitleField})
    + (if LengthWithin(v.description, 1, 500) then {} else {DescriptionField})
    + (if IsDateValue(v.dueDate) then {} else {DueDateField})
    + (if InEnum(v.category, Categories(k)) then {} else {CategoryField})
  }

  /**
   * `schema.safeParse(values)`: the parsed data, or the failing fields. zod
   * drops keys the schema does not declare, so the feature schema, whose key
   * is `assignee_id`, drops the form's `assignee`.
   */
  function Validate(k: Schema, v: FormValues): (r: Result<FormData, set<Field>>)
    ensures r.Ok? <==> (LengthWithin(v.title, 1, 50) && LengthWithin(v.description, 1, 500)
                        && IsDateValue(v.dueDate) && InEnum(v.category, Categories(k)))
    ensures r.Err? ==> r.error != {}
    ensures r.Ok? ==> (r.value.title == v.title && r.value.description == v.description
                       && Valid(r.value.dueDate) == v.dueDate.value && Some(r.value.category) == v.category)
    ensures r.Ok? ==> r.value.assignee == if k == FeatureSchema then None else v.assignee
  {
    var failed := Failures(k, v);
    if failed == {} then
      Ok(FormData(v.title, v.description, if k == FeatureSchema then None else v.assignee,
                  v.dueDate.value.time, v.category.value))
    else
      Err(failed)
  }

  /** The older add dialog accepts everything the other schemas accept, and also `Personal`. */
  lemma AddTaskSchemaWidens(v: FormValues)
    ensures Validate(ModalSchema, v).Ok? ==> Validate(AddTaskSchema, v).Ok?
    ensures Validate(FeatureSchema, v).Ok? <==> Validate(ModalSchema, v).Ok?
    ensures v.category == Some("Personal") ==>
      !Validate(ModalSchema, v).Ok? && (Validate(AddTaskSchema, v).Ok? <==> Failures(ModalSchema, v) == {CategoryField})
  {
    if v.category == Some("Personal") {
      assert "Personal" != "Chore" && "Personal" != "Shopping" && "Personal" != "Homework" && "Personal" != "Other";
      assert Failures(AddTaskSchema, v) == Failures(ModalSchema, v) - {CategoryField};
    }
  }
}

/** The feature task form: default values and the submit handler. */
module TaskForm {
  import opened Wrappers
  import opened Text
  import opened JsDates
  import opened Tasks
  import opened FormSchema

  /** `s || fallback` on a string: the empty string is falsy. */
  function OrElse(s: Option<string>, fallback: string): string {
    if s.Some? && s.value != "" then s.value else fallback
  }

  /** `s || undefined`. */
  function NonEmpty(s: Option<string>): (r: Option<string>)
    ensures r.Some? <==> s.Some? && s.value != ""
    ensures r.Some? ==> r == s
  {
    if s.Some? && s.value != "" then s else None
  }

  /**
   * `defaultValues`: the task's fields when editing, blanks when creating. A
   * `Date` object is truthy even when invalid, so an edited task always keeps
   * its own due date; a new one starts at `now`.
   */
  function Defaults(task: Option<Task>, now: JsDate): (v: FormValues)
    ensures task.None? ==> v.title == "" && v.description == "" && v.assignee.None? && v.category.None?
    ensures v.dueDate == Some(if task.Some? then task.value.dueDate else now)
    ensures task.Some? ==> v.title == task.value.title && v.description == task.value.description.GetOr("")
    ensures task.Some? ==> (v.assignee.Some? <==> task.value.assignee.Some? && task.value.assignee.value != "")
    ensures task.Some? && v.assignee.Some? ==> v.assignee == task.value.assignee
    ensures task.Some? ==> v.category == Some(CategoryName(task.value.category))
  {
    match task
    case None => FormValues("", "", None, Some(now), None)
    case Some(t) =>
      FormValues(t.title, OrElse(t.description, ""), NonEmpty(t.assignee),
                 Some(t.dueDate), Some(CategoryName(t.category)))
  }

  /** An unchanged form for a new task never passes: the title is required. */
  lemma CreateDefaultsRejected(now: JsDate)
    ensures Validate(FeatureSchema, Defaults(None, now)).Err?
    ensures TitleField in Validate(FeatureSchema, Defaults(None, now)).error
  {
  }

  /**
   * An unchanged form for an existing task passes exactly when the task's
   * title and description fit the length rules and its due date is valid.
   */
  lemma EditDefaultsValidIff(t: Task, now: JsDate)
    ensures Validate(FeatureSchema, Defaults(Some(t), now)).Ok?
        <==> LengthWithin(t.title, 1, 50) && LengthWithin(t.description.GetOr(""), 1, 500) && t.dueDate.Valid?
  {
    var v := Defaults(Some(t), now);
    assert v.description == t.description.GetOr("") by {
      if t.description == Some("") {
        assert OrElse(t.description, "") == "";
      }
    }
    match t.category
    case Chore =>
    case Homework =>
    case Shopping =>
    case Other =>
  }

  /** The body `taskService.save` receives: the parsed data plus a status. */
  datatype SavePayload = SavePayload(
    title: string, description: string, dueDate: int, category: string, status: Status)

  datatype Effect =
    | Save(payload: SavePayload, id: Option<string>)
    | OnSave(saved: Task)
    | LogError

  /** The service's answer to `save`: the saved task, or a rejection. */
  datatype SaveError = SaveRejected

  /**
   * `onSubmit`: save with the task's status when editing and `todo` when
   * creating, passing the task's id when editing; `onSave` sees only a
   * successful result, a failure is only logged.
   */
  function OnSubmit(data: FormData, task: Option<Task>, outcome: Result<Task, SaveError>): (effects: seq<Effect>)
    ensures |effects| == 2 && effects[0].Save?
    ensures effects[0].payload.status == if task.Some? then task.value.status else Todo
    ensures effects[0].id == if task.Some? then Some(task.value.id) else None
    ensures effects[0].payload.title == data.title && effects[0].payload.description == data.description
    ensures effects[0].payload.dueDate == data.dueDate && effects[0].payload.category == data.category
    ensures effects[1].OnSave? <==> outcome.Ok?
    ensures effects[1].OnSave? ==> effects[1].saved == outcome.value
  {
    var status := if task.Some? then task.value.status else Todo;
    var id := if task.Some? then Some(task.value.id) else None;
    var save := Save(SavePayload(data.title, data.description, data.dueDate, data.category, status), id);
    match outcome
    case Ok(saved) => [save, OnSave(saved)]
    case Err(_) => [save, LogError]
  }

  /** The feature form never sends an assignee: the schema drops the `assignee` field. */
  lemma AssigneeNeverReachesPayload(v: FormValues)
    requires Validate(FeatureSchema, v).Ok?
    ensures Validate(FeatureSchema, v).value.assignee.None?
  {
  }
}

/** The older edit modal: `isCategory`, default values and `processSubmit`. */
module TaskModal {
  import opened Wrappers
  import opened JsDates
  import opened Calendar
  import opened Tasks
  import opened FormSchema
  import TaskForm
  import Transform

  const CategoryList: seq<string> := ["Chore", "Shopping", "Homework", "Other"]

  /** `!!val && CATEGORIES.includes(val)`. */
  predicate IsCategory(val: Option<string>) {
    val.Some? && val.value != "" && val.value in CategoryList
  }

  /** The strings `isCategory` accepts are exactly the names of the four categories. */
  lemma IsCategoryNamesACategory(val: Option<string>)
    ensures IsCategory(val) <==> exists c: Category :: val == Some(CategoryName(c))
  {
    if IsCategory(val) {
      var s := val.value;
      if s == "Chore" { assert val == Some(CategoryName(Chore)); }
      else if s == "Shopping" { assert val == Some(CategoryName(Shopping)); }
      else if s == "Homework" { assert val == Some(CategoryName(Homework)); }
      else { assert val == Some(CategoryName(Other)); }
    }
  }

  /**
   * Default values. The category is kept only when `isCategory` accepts it;
   * the older task type names its date `dueDate`, so `task?.due_date` is always
   * undefined and the due date always starts at `now`.
   */
  function Defaults(task: Option<LegacyTask>, now: JsDate): (v: FormValues)
    ensures task.None? ==> v.title == "" && v.description == "" && v.assignee.None? && v.category.None?
    ensures task.Some? ==> v.category == if IsCategory(Some(CategoryName(task.value.category)))
                                         then Some(CategoryName(task.value.category)) else None
    ensures v.dueDate == Some(now)
  {
    match task
    case None => FormValues("", "", None, Some(now), None)
    case Some(t) =>
      var cat := Some(CategoryName(t.category));
      FormValues(t.title, TaskForm.OrElse(t.description, ""), TaskForm.NonEmpty(Some(t.assignee)),
                 Some(now), if IsCategory(cat) then cat else None)
  }

  /** The request body. */
  datatype Payload = Payload(
    title: string, description: string, assigneeId: Option<string>,
    category: string, status: Status, dueDate: string)

  datatype Method = Patch | Post

  datatype Effect =
    | Request(verb: Method, url: string, body: Payload)
    | OnSave(saved: LegacyTask)
    | OnClose
    | LogError

  datatype RequestError = RequestFailed

  /**
   * `format(date, 'yyyy-MM-dd')`: the local calendar day of the date, which
   * for years 1 to 9999 is a `YYYY-MM-DD` text naming exactly that day.
   */
  function LocalDayText(t: int, off: int): (r: string)
    ensures var c := CivilFromDays(LocalDay(t, off));
      1 <= c.year <= 9999 ==> ParseIsoDate(r) == Some(c) && DaysFromCivil(ParseIsoDate(r).value) == LocalDay(t, off)
  {
    var c := CivilFromDays(LocalDay(t, off));
    if 1 <= c.year <= 9999 then
      ParseOfFormat(c);
      DaysRoundTrip(LocalDay(t, off));
      FormatIsoDate(c)
    else
      FormatIsoDate(c)
  }

  /**
   * Whether an `onSave` callback returned normally, or threw (or, where it is
   * awaited, rejected).
   */
  datatype CallbackError = CallbackFailed

  /**
   * `processSubmit`: PATCH `/task/{id}` for an existing task, POST `/task`
   * otherwise; `onSave` runs after the request succeeds, and `onClose` only
   * when `onSave` did not throw, since both sit inside the `try`.
   */
  function ProcessSubmit(data: FormData, task: Option<LegacyTask>, off: int,
                         response: Result<LegacyTask, RequestError>,
                         onSaveOutcome: Result<(), CallbackError>): (effects: seq<Effect>)
    ensures |effects| >= 2 && effects[0].Request?
    ensures effects[0].verb == (if task.Some? then Patch else Post)
    ensures effects[0].url == if task.Some? then "/task/" + task.value.id else "/task"
    ensures effects[0].body.assigneeId == if data.assignee == Some("") then None else data.assignee
    ensures effects[0].body.status == if task.Some? then task.value.status else Todo
    ensures effects[0].body.title == data.title && effects[0].body.description == data.description
    ensures effects[0].body.category == data.category
    ensures effects[0].body.dueDate == LocalDayText(data.dueDate, off)
    ensures |effects| == if response.Ok? then 3 else 2
    ensures response.Err? ==> effects[1..] == [LogError]
    ensures response.Ok? ==> effects[1] == OnSave(response.value)
    ensures OnClose in effects <==> response.Ok? && onSaveOutcome.Ok?
    ensures effects[|effects| - 1] == (if response.Ok? && onSaveOutcome.Ok? then OnClose else LogError)
  {
    var body := Payload(data.title, data.description, TaskForm.NonEmpty(data.assignee), data.category,
                        if task.Some? then task.value.status else Todo, LocalDayText(data.dueDate, off));
    var request := if task.Some? then Request(Patch, "/task/" + task.value.id, body)
                   else Request(Post, "/task", body);
    match response
    case Err(_) => [request, LogError]
    case Ok(saved) =>
      if onSaveOutcome.Ok? then [request, OnSave(saved), OnClose]
      else [request, OnSave(saved), LogError]
  }

  /**
   * Unlike the feature form's, this payload's due date names the local day, so
   * reading it back as the client does (`parseDateFromApi`, local midnight)
   * lands on the day the user picked.
   */
  lemma PayloadDateIsLocalDay(data: FormData, task: Option<LegacyTask>, off: int, response: Result<LegacyTask, RequestError>,
                              onSaveOutcome: Result<(), CallbackError>)
    requires PlausibleOffset(off)
    requires 1 <= CivilFromDays(LocalDay(data.dueDate, off)).year <= 9999
    ensures var body := ProcessSubmit(data, task, off, response, onSaveOutcome)[0].body;
      var back := Transform.ParseDateFromApi(body.dueDate, off);
      back.Valid? && LocalDay(back.time, off) == LocalDay(data.dueDate, off)
  {
    var body := ProcessSubmit(data, task, off, response, onSaveOutcome)[0].body;
    var z := LocalDay(data.dueDate, off);
    assert ParseIsoDate(body.dueDate).Some? && DaysFromCivil(ParseIsoDate(body.dueDate).value) == z;
    var back := Transform.ParseDateFromApi(body.dueDate, off);
    assert back.time + off * MsPerMinute == z * MsPerDay;
    UtcDayOfInstant(z, back.time + off * MsPerMinute);
  }
}

/** The older add dialog: reset on close and `processSubmit`. */
module AddTask {
  import opened Wrappers
  import opened JsDates
  import opened Tasks
  import opened FormSchema
  import TaskForm
  import TaskModal

  /** The values the dialog starts from and resets to. */
  function BlankValues(now: JsDate): FormValues {
    FormValues("", "", None, Some(now), None)
  }

  /** The reset effect: while open nothing changes; once closed the fields are blanked. */
  function OnOpenChange(isOpen: bool, current: FormValues, now: JsDate): (v: FormValues)
    ensures isOpen ==> v == current
    ensures !isOpen ==> v.title == "" && v.description == "" && v.assignee.None? && v.category.None?
  {
    if isOpen then current else BlankValues(now)
  }

  /** A closed dialog's values never pass validation, so nothing stale can be submitted. */
  lemma ClosedDialogValuesRejected(current: FormValues, now: JsDate)
    ensures Validate(AddTaskSchema, OnOpenChange(false, current, now)).Err?
  {
  }

  datatype Effect =
    | Request(url: string, body: TaskModal.Payload)
    | OnSave(created: LegacyTask)
    | OnClose
    | LogError

  /**
   * `processSubmit`: always POST `/task` with status `todo`; `onClose` runs
   * only after both the request and the awaited `onSave` succeed.
   */
  function ProcessSubmit(data: FormData, off: int, response: Result<LegacyTask, TaskModal.RequestError>,
                         onSaveOutcome: Result<(), TaskModal.CallbackError>): (effects: seq<Effect>)
    ensures |effects| >= 2 && effects[0].Request? && effects[0].url == "/task"
    ensures effects[0].body.status == Todo
    ensures effects[0].body.assigneeId == if data.assignee == Some("") then None else data.assignee
    ensures effects[0].body.title == data.title && effects[0].body.description == data.description
    ensures effects[0].body.category == data.category
    ensures effects[0].body.dueDate == TaskModal.LocalDayText(data.dueDate, off)
    ensures OnClose in effects <==> response.Ok? && onSaveOutcome.Ok?
    ensures effects[|effects| - 1] == OnClose || effects[|effects| - 1] == LogError
  {
    var body := TaskModal.Payload(data.title, data.description, TaskForm.NonEmpty(data.assignee),
                                  data.category, Todo, TaskModal.LocalDayText(data.dueDate, off));
    var request := Request("/task", body);
    match response
    case Err(_) => [request, LogError]
    case Ok(created) =>
      if onSaveOutcome.Ok? then [request, OnSave(created), OnClose]
      else [request, OnSave(created), LogError]
  }
}

=== FILE: jsdate.dfy ===
/**
 * The slice of the JavaScript `Date` object the task feature uses: time values,
 * the `YYYY-MM-DD` text of a calendar day, `toISOString`'s date part, and the
 * local-time reading of `new Date("YYYY-MM-DDT00:00:00")`.
 *
 * The host's time zone is a fixed offset `off`, in minutes east of UTC
 * (UTC+2 is 120, UTC-5 is -300); daylight-saving changes are not modelled.
 */
module JsDates {
  import opened Wrappers
  import opened Calendar

  const MsPerMinute: int := 60_000
  const MsPerDay: int := 86_400_000
  /** Time values lie within 8.64e15 ms of the epoch (section 21.4.1.1 of ECMA-262). */
  const MaxTime: int := 8_640_000_000_000_000

  /** A `Date`: a time value in milliseconds since 1970-01-01T00:00Z, or Invalid Date (NaN). */
  datatype JsDate = Valid(time: int) | Invalid

  /** The `RangeError` that `toISOString` throws for Invalid Date. */
  datatype RangeError = InvalidTimeValue

  /** Real zone offsets stay within a day of UTC (they range from UTC-12 to UTC+14). */
  predicate PlausibleOffset(off: int) {
    -1440 < off < 1440
  }

  /** TimeClip: a time value out of range gives Invalid Date. */
  function TimeClip(t: int): (d: JsDate)
    ensures d.Valid? <==> -MaxTime <= t <= MaxTime
    ensures d.Valid? ==> d.time == t
  {
    if -MaxTime <= t <= MaxTime then Valid(t) else Invalid
  }

  /** The UTC day number of a time value (division rounds toward minus infinity). */
  function UtcDay(t: int): (z: int)
    ensures z * MsPerDay <= t < (z + 1) * MsPerDay
  {
    DivMod(t, MsPerDay, t / MsPerDay, t % MsPerDay);
    t / MsPerDay
  }

  /** The day number of a time value's calendar day in the host's zone. */
  function LocalDay(t: int, off: int): (z: int)
    ensures z * MsPerDay <= t + off * MsPerMinute < (z + 1) * MsPerDay
  {
    UtcDay(t + off * MsPerMinute)
  }

  /** A day's number is determined by any instant inside it. */
  lemma UtcDayOfInstant(z: int, t: int)
    requires z * MsPerDay <= t < (z + 1) * MsPerDay
    ensures UtcDay(t) == z
  {
    DivMod(t, MsPerDay, z, t - z * MsPerDay);
  }

  // ---------------------------------------------------------------------------
  // Decimal digits

  predicate IsDigit(ch: char) {
    '0' <= ch <= '9'
  }

  predicate AllDigits(s: string) {
    forall i :: 0 <= i < |s| ==> IsDigit(s[i])
  }

  function Pow10(w: nat): (p: nat)
    ensures p >= 1
  {
    if w == 0 then 1 else 10 * Pow10(w - 1)
  }

  /** `n` written with exactly `width` decimal digits, most significant first (zero-padded). */
  function Digits(n: nat, width: nat): (r: string)
    ensures |r| == width && AllDigits(r)
  {
    if width == 0 then "" else Digits(n / 10, width - 1) + [('0' as int + n % 10) as char]
  }

  /** The number a string of decimal digits denotes. */
  function DigitsValue(s: string): (v: nat)
    requires AllDigits(s)
    ensures v < Pow10(|s|)
  {
    if s == "" then 0 else DigitsValue(s[..|s| - 1]) * 10 + (s[|s| - 1] as int - '0' as int)
  }

  /** Reading back the digits of a number that fits the width gives the number. */
  lemma {:induction false} DigitsValueOfDigits(n: nat, width: nat)
    requires n < Pow10(width)
    ensures DigitsValue(Digits(n, width)) == n
  {
    if width > 0 {
      DivMod(n, 10, n / 10, n % 10);
      assert n / 10 < Pow10(width - 1);
      DigitsValueOfDigits(n / 10, width - 1);
      var r := Digits(n, width);
      assert r[..|r| - 1] == Digits(n / 10, width - 1);
    }
  }

  /** Rewriting the number a digit string denotes, at its own width, gives the string back. */
  lemma {:induction false} DigitsOfDigitsValue(s: string)
    requires AllDigits(s)
    ensures Digits(DigitsValue(s), |s|) == s
  {
    if s != "" {
      var init := s[..|s| - 1];
      var d := s[|s| - 1] as int - '0' as int;
      DivMod(DigitsValue(s), 10, DigitsValue(init), d);
      DigitsOfDigitsValue(init);
      assert s == init + [s[|s| - 1]];
    }
  }

  // ---------------------------------------------------------------------------
  // The YYYY-MM-DD text of a calendar day

  /**
   * The date part of `toISOString`: four year digits for years 0..9999, else a
   * sign and six digits, then two-digit month and day, separated by '-'.
   */
  function FormatIsoDate(c: Civil): (s: string)
    requires ValidDate(c)
    ensures |s| == 10 <==> 0 <= c.year <= 9999
  {
    var tail := "-" + Digits(c.month, 2) + "-" + Digits(c.day, 2);
    if 0 <= c.year <= 9999 then Digits(c.year, 4) + tail
    else if c.year < 0 then "-" + Digits(-c.year, 6) + tail
    else "+" + Digits(c.year, 6) + tail
  }

  /** A `YYYY-MM-DD` string naming a real calendar day; anything else is rejected. */
  function ParseIsoDate(s: string): (r: Option<Civil>)
    ensures r.Some? ==> ValidDate(r.value) && 0 <= r.value.year <= 9999 && |s| == 10
  {
    if |s| == 10 && s[4] == '-' && s[7] == '-'
       && AllDigits(s[..4]) && AllDigits(s[5..7]) && AllDigits(s[8..])
    then
      var c := Civil(DigitsValue(s[..4]), DigitsValue(s[5..7]), DigitsValue(s[8..]));
      if ValidDate(c) then Some(c) else None
    else None
  }

  /** Every day of years 0..9999 is written in a form that parses back to it. */
  lemma ParseOfFormat(c: Civil)
    requires ValidDate(c) && 0 <= c.year <= 9999
    ensures ParseIsoDate(FormatIsoDate(c)) == Some(c)
  {
    var y, m, d := Digits(c.year, 4), Digits(c.month, 2), Digits(c.day, 2);
    var s := y + "-" + m + "-" + d;
    assert s == FormatIsoDate(c);
    assert s[..4] == y && s[5..7] == m && s[8..] == d;
    assert s[4] == '-' && s[7] == '-';
    DigitsValueOfDigits(c.year, 4);
    DigitsValueOfDigits(c.month, 2);
    DigitsValueOfDigits(c.day, 2);
    assert Civil(DigitsValue(s[..4]), DigitsValue(s[5..7]), DigitsValue(s[8..])) == c;
  }

  /** A string that parses is exactly the written form of the day it names. */
  lemma FormatOfParse(s: string)
    requires ParseIsoDate(s).Some?
    ensures FormatIsoDate(ParseIsoDate(s).value) == s
  {
    DigitsOfDigitsValue(s[..4]);
    DigitsOfDigitsValue(s[5..7]);
    DigitsOfDigitsValue(s[8..]);
    assert s == s[..4] + "-" + s[5..7] + "-" + s[8..];
  }

  /**
   * The date forms that may precede a `T` time part in a date-time string:
   * `YYYY` (January 1), `YYYY-MM` (the 1st) and `YYYY-MM-DD`. A month or day
   * that names no real date is rejected, as some engines do; others roll an
   * overlong day over into the next month.
   */
  function ParseDateForm(s: string): (r: Option<Civil>)
    ensures r.Some? ==> ValidDate(r.value) && 0 <= r.value.year <= 9999
    ensures |s| == 10 ==> r == ParseIsoDate(s)
  {
    if |s| == 4 && AllDigits(s) then Some(Civil(DigitsValue(s), 1, 1))
    else if |s| == 7 && s[4] == '-' && AllDigits(s[..4]) && AllDigits(s[5..]) then
      var c := Civil(DigitsValue(s[..4]), DigitsValue(s[5..]), 1);
      if ValidDate(c) then Some(c) else None
    else ParseIsoDate(s)
  }

  /** The text before the first occurrence of `sep` (all of `s` when there is none). */
  function BeforeFirst(s: string, sep: char): (r: string)
    ensures r <= s && sep !in r
    ensures |r| < |s| ==> s[|r|] == sep
  {
    if s == "" || s[0] == sep then "" else [s[0]] + BeforeFirst(s[1..], sep)
  }

  /** Splitting at the first separator recovers the part written before it. */
  lemma {:induction false} BeforeFirstOfJoin(a: string, sep: char, b: string)
    requires sep !in a
    ensures BeforeFirst(a + [sep] + b, sep) == a
  {
    if a != "" {
      assert (a + [sep] + b)[1..] == a[1..] + [sep] + b;
      BeforeFirstOfJoin(a[1..], sep, b);
    }
  }

  /** A written date holds only digits and the characters '-' and '+'. */
  lemma FormatIsoDateHasNoLetter(c: Civil, ch: char)
    requires ValidDate(c) && !IsDigit(ch) && ch != '-' && ch != '+'
    ensures ch !in FormatIsoDate(c)
  {
    var s := FormatIsoDate(c);
    forall i | 0 <= i < |s|
      ensures s[i] != ch
    {
      var m, d := Digits(c.month, 2), Digits(c.day, 2);
      var tail := "-" + m + "-" + d;
      assert tail[0] != ch && tail[3] != ch && IsDigit(tail[1]) && IsDigit(tail[2]);
      assert IsDigit(tail[4]) && IsDigit(tail[5]);
    }
  }

  // ---------------------------------------------------------------------------
  // The Date operations used by the task feature

  /**
   * `date.toISOString()`: `YYYY-MM-DDTHH:mm:ss.sssZ` in UTC; Invalid Date throws
   * a `RangeError`.
   */
  function ToIsoString(d: JsDate): (r: Result<string, RangeError>)
    ensures r.Ok? <==> d.Valid?
  {
    match d
    case Invalid => Err(InvalidTimeValue)
    case Valid(t) =>
      var ms: nat := t - UtcDay(t) * MsPerDay;
      var time := Digits(ms / 3_600_000, 2) + ":" + Digits(ms / 60_000 % 60, 2) + ":"
        + Digits(ms / 1000 % 60, 2) + "." + Digits(ms % 1000, 3) + "Z";
      Ok(FormatIsoDate(CivilFromDays(UtcDay(t))) + "T" + time)
  }

  /**
   * A local date-time `new Date(...)` accepts: local midnight of day `c`, which
   * `TimeClip` keeps for every day of years 0..9999.
   */
  function LocalMidnight(c: Civil, off: int): (d: JsDate)
    requires ValidDate(c) && 0 <= c.year <= 9999 && PlausibleOffset(off)
    ensures d.Valid? && d.time + off * MsPerMinute == DaysFromCivil(c) * MsPerDay
    ensures LocalDay(d.time, off) == DaysFromCivil(c)
  {
    DaysFromCivilBounds(c);
    var d := TimeClip(DaysFromCivil(c) * MsPerDay - off * MsPerMinute);
    UtcDayOfInstant(DaysFromCivil(c), DaysFromCivil(c) * MsPerDay);
    d
  }
}

=== FILE: members.dfy ===
/**
 * How a family member is shown and chosen: the acronym and initials drawn
 * from a full name, the avatar text of the assignee picker, and the picker's
 * mapping between a selected member and its `"none"` entry. Case mapping is
 * ASCII only.
 */
module Members {
  import opened Wrappers
  import opened Text

  /** A piece's first character, upper-cased; nothing for an empty piece. */
  function Initial(w: string): (r: string)
    ensures |r| == (if w == "" then 0 else 1)
  {
    if w == "" then "" else [UpperChar(w[0])]
  }

  function InitialsOf(pieces: seq<string>): (r: seq<string>)
    ensures |r| == |pieces|
    ensures forall i :: 0 <= i < |pieces| ==> r[i] == Initial(pieces[i])
  {
    seq(|pieces|, i requires 0 <= i < |pieces| => Initial(pieces[i]))
  }

  /**
   * The initials of the pieces of `trim().split(/\s+/)`, joined: one capital
   * per word of `s`, in order.
   */
  lemma JoinedInitialsOfSplit(s: string)
    ensures var r := Concat(InitialsOf(SplitOnSpaces(Trim(Js, s))));
      |r| == |Words(s)| && forall i :: 0 <= i < |r| ==> r[i] == UpperChar(Words(s)[i][0])
  {
    var pieces := SplitOnSpaces(Trim(Js, s));
    WordsEmptyIffBlank(s);
    if IsBlank(Js, s) {
      SplitOfBlank(s);
      ConcatOfEmpties(InitialsOf(pieces));
    } else {
      SplitOfTrimIsWords(s);
      ConcatOfSingletons(InitialsOf(pieces));
    }
  }

  /** `trim().split(/\s+/)` is one empty piece for a blank string and the words otherwise. */
  lemma PiecesOfTrimmedSplit(s: string)
    ensures SplitOnSpaces(Trim(Js, s)) == if IsBlank(Js, s) then [""] else Words(s)
    ensures Words(s) == [] <==> IsBlank(Js, s)
  {
    WordsEmptyIffBlank(s);
    if IsBlank(Js, s) {
      SplitOfBlank(s);
    } else {
      SplitOfTrimIsWords(s);
    }
  }

  /** `createAcronym` of the task card: the capitalised first letter of every word. */
  function CreateAcronym(str: string): (r: string)
    ensures |r| == |Words(str)|
    ensures forall i :: 0 <= i < |r| ==> r[i] == UpperChar(Words(str)[i][0])
  {
    if str == "" then
      WordsEmptyIffBlank(str);
      ""
    else
      JoinedInitialsOfSplit(str);
      Concat(InitialsOf(SplitOnSpaces(Trim(Js, str))))
  }

  /**
   * The picker's own `createAcronym`: the first character of every piece,
   * joined, then upper-cased. An empty piece contributes nothing (`undefined`
   * joins as the empty string).
   */
  function PickerAcronym(name: string): string {
    var pieces := SplitOnSpaces(Trim(Js, name));
    Upper(Concat(seq(|pieces|, i requires 0 <= i < |pieces| => if pieces[i] == "" then "" else [pieces[i][0]])))
  }

  /** The two acronym helpers agree on every name. */
  lemma AcronymsAgree(name: string)
    ensures PickerAcronym(name) == CreateAcronym(name)
  {
    var pieces := SplitOnSpaces(Trim(Js, name));
    var raw := seq(|pieces|, i requires 0 <= i < |pieces| => if pieces[i] == "" then "" else [pieces[i][0]]);
    var r, a := PickerAcronym(name), CreateAcronym(name);
    WordsEmptyIffBlank(name);
    if IsBlank(Js, name) {
      SplitOfBlank(name);
      ConcatOfEmpties(raw);
    } else {
      SplitOfTrimIsWords(name);
      ConcatOfSingletons(raw);
      assert |r| == |a|;
    }
  }

  /** The avatar text in the picker: the acronym, or `?` for a missing or blank name. */
  function MemberDisplay(name: Option<string>): (r: string)
    ensures name.None? || IsBlank(Js, name.value) ==> r == "?"
    ensures name.Some? && !IsBlank(Js, name.value) ==> r == CreateAcronym(name.value)
    ensures |r| >= 1
  {
    if name.None? || IsBlank(Js, name.value) then "?"
    else
      AcronymsAgree(name.value);
      WordsEmptyIffBlank(name.value);
      PickerAcronym(name.value)
  }

  /**
   * `getInitials` of the member avatar: a one-word name gives its first two
   * characters upper-cased; a longer name gives the capitals of its first two
   * words.
   */
  function GetInitials(name: string): (r: string)
    ensures |r| <= 2
    ensures r == "" <==> IsBlank(Js, name)
    ensures |Words(name)| == 1 ==> r == Upper(Words(name)[0][..if |Words(name)[0]| < 2 then |Words(name)[0]| else 2])
    ensures |Words(name)| >= 2 ==> r == [UpperChar(Words(name)[0][0]), UpperChar(Words(name)[1][0])]
  {
    var words := SplitOnSpaces(Trim(Js, name));
    PiecesOfTrimmedSplit(name);
    if |words| == 1 then
      var w := words[0];
      Upper(w[..if |w| < 2 then |w| else 2])
    else
      assert IsWord(words[0]) && IsWord(words[1]);
      [UpperChar(words[0][0]), UpperChar(words[1][0])]
  }

  // ---------------------------------------------------------------------------
  // The assignee picker

  /** The picker's value: the selected id, or `"none"` when nothing (or `""`) is selected. */
  function SelectValue(selected: Option<string>): string {
    if selected.None? || selected.value == "" then "none" else selected.value
  }

  /** `onValueChange`: the `"none"` entry reports `null`, any other entry its id. */
  function OnValueChange(value: string): (r: Option<string>)
    ensures r.None? <==> value == "none"
  {
    if value == "none" then None else Some(value)
  }

  /**
   * The picker reports back what it shows exactly when the selection is not
   * the empty id and not an id spelled `"none"`.
   */
  lemma PickerRoundTrip(selected: Option<string>)
    ensures OnValueChange(SelectValue(selected)) == selected
        <==> selected != Some("") && selected != Some("none")
  {
  }
}

=== FILE: modals.dfy ===
/**
 * The task modal store: whether the modal is open, whether it creates or
 * edits, and which task it edits. Every state reachable from the initial one
 * edits exactly when it holds a task.
 */
module TaskModalStore {
  import opened Wrappers
  import opened Tasks

  datatype Mode = Create | Edit

  datatype ModalState = ModalState(isOpen: bool, mode: Mode, currentTask: Option<Task>)

  const Initial := ModalState(false, Create, None)

  datatype Action = OpenCreateModal | OpenEditModal(task: Task) | ResetModal | CloseModal

  function Step(s: ModalState, a: Action): ModalState {
    match a
    case OpenCreateModal => ModalState(true, Create, None)
    case OpenEditModal(t) => ModalState(true, Edit, Some(t))
    case ResetModal => ModalState(true, Create, None)
    case CloseModal => s.(isOpen := false)
  }

  /** The store after a sequence of actions from the initial state. */
  function Run(actions: seq<Action>): ModalState {
    if actions == [] then Initial else Step(Run(actions[..|actions| - 1]), actions[|actions| - 1])
  }

  /** The store edits exactly when it holds a task. */
  predicate Consistent(s: ModalState) {
    s.mode == Edit <==> s.currentTask.Some?
  }

  lemma {:induction false} RunConsistent(actions: seq<Action>)
    ensures Consistent(Run(actions))
  {
    if actions != [] {
      RunConsistent(actions[..|actions| - 1]);
    }
  }

  /** A state is reachable from the initial state exactly when it is consistent. */
  lemma ReachableIffConsistent(s: ModalState)
    ensures (exists actions :: Run(actions) == s) <==> Consistent(s)
  {
    if exists actions :: Run(actions) == s {
      var actions :| Run(actions) == s;
      RunConsistent(actions);
    }
    if Consistent(s) {
      RunReach(s);
    }
  }

  /** Actions that reach a consistent state: open the modal for its task, then close it if it is closed. */
  function Reach(s: ModalState): seq<Action> {
    var open := match s.currentTask
      case None => [OpenCreateModal]
      case Some(t) => [OpenEditModal(t)];
    if s.isOpen then open else open + [CloseModal]
  }

  lemma RunReach(s: ModalState)
    requires Consistent(s)
    ensures Run(Reach(s)) == s
  {
    var open := match s.currentTask
      case None => [OpenCreateModal]
      case Some(t) => [OpenEditModal(t)];
    assert open[..0] == [];
    assert Run(open) == s.(isOpen := true);
    if !s.isOpen {
      var closing := open + [CloseModal];
      assert closing[..1] == open;
      assert Run(closing) == Step(Run(open), CloseModal);
    }
  }

  /** Resetting is opening a fresh create modal, whatever the store held before. */
  lemma ResetIsOpenCreate(s: ModalState, s': ModalState)
    ensures Step(s, ResetModal) == Step(s', OpenCreateModal)
    ensures Step(s, ResetModal).isOpen && Step(s, ResetModal).currentTask == None
  {
  }

  /**
   * Closing hides the modal and keeps mode and task, so opening the editor
   * and closing it leaves the task behind.
   */
  lemma CloseKeepsSession(s: ModalState, t: Task)
    ensures var c := Step(s, CloseModal); !c.isOpen && c.mode == s.mode && c.currentTask == s.currentTask
    ensures Step(Step(s, OpenEditModal(t)), CloseModal) == ModalState(false, Edit, Some(t))
  {
  }
}

/**
 * The older modal hook: open or closed, and the task being edited. Closing
 * clears the task, so a closed modal never holds one.
 */
module TaskModalHook {
  import opened Wrappers
  import opened Tasks

  datatype HookState = HookState(isOpen: bool, editingTask: Option<LegacyTask>)

  const Initial := HookState(false, None)

  datatype Action = OpenAddModal | OpenEditModal(task: LegacyTask) | CloseModal

  /** Each handler sets both fields in one batched update. */
  function Step(s: HookState, a: Action): HookState {
    match a
    case OpenAddModal => HookState(true, None)
    case OpenEditModal(t) => HookState(true, Some(t))
    case CloseModal => HookState(false, None)
  }

  function Run(actions: seq<Action>): HookState {
    if actions == [] then Initial else Step(Run(actions[..|actions| - 1]), actions[|actions| - 1])
  }

  predicate ClosedIsEmpty(s: HookState) {
    !s.isOpen ==> s.editingTask.None?
  }

  lemma {:induction false} RunClosedIsEmpty(actions: seq<Action>)
    ensures ClosedIsEmpty(Run(actions))
  {
    if actions != [] {
      RunClosedIsEmpty(actions[..|actions| - 1]);
    }
  }

  /** A state is reachable exactly when a closed modal holds no task. */
  lemma ReachableIffClosedIsEmpty(s: HookState)
    ensures (exists actions :: Run(actions) == s) <==> ClosedIsEmpty(s)
  {
    if exists actions :: Run(actions) == s {
      var actions :| Run(actions) == s;
      RunClosedIsEmpty(actions);
    }
    if ClosedIsEmpty(s) {
      RunReach(s);
    }
  }

  /** Actions that reach a state whose closed modal is empty: nothing, or one opening. */
  function Reach(s: HookState): seq<Action> {
    if !s.isOpen then []
    else if s.editingTask.None? then [OpenAddModal]
    else [OpenEditModal(s.editingTask.value)]
  }

  lemma RunReach(s: HookState)
    requires ClosedIsEmpty(s)
    ensures Run(Reach(s)) == s
  {
    var w := Reach(s);
    if w != [] {
      assert w[..0] == [];
    }
  }
}

=== FILE: query_cache.dfy ===
/**
 * The client cache protocol of the task hooks: the query-key hierarchy, and
 * what each mutation does to the cache when it succeeds. The cache is a map
 * from query keys to entries; invalidating a key marks every entry whose key
 * starts with it.
 */
module QueryCache {
  import opened Wrappers
  import opened Tasks

  /** One element of a query key: a string, or a number (an id may be either). */
  datatype KeyPart = Str(s: string) | Num(n: int)

  type QueryKey = seq<KeyPart>

  /** What a query caches: the task list, or one task. */
  datatype CacheData = TaskList(tasks: seq<Task>) | TaskDetail(task: Task)

  /** A cached value, and whether it has been invalidated since it was written. */
  datatype Entry = Entry(data: CacheData, invalidated: bool)

  type Cache = map<QueryKey, Entry>

  // ---------------------------------------------------------------------------
  // taskKeys

  function AllKey(): QueryKey {
    [Str("tasks")]
  }

  function ListsKey(): QueryKey {
    AllKey() + [Str("list")]
  }

  function DetailsKey(): QueryKey {
    AllKey() + [Str("detail")]
  }

  function DetailKey(id: KeyPart): QueryKey {
    DetailsKey() + [id]
  }

  /**
   * The hierarchy: `['tasks']` prefixes the list key and every detail key;
   * detail keys of distinct ids differ; the list key neither equals nor
   * prefixes a detail key.
   */
  lemma KeyHierarchy(id: KeyPart, other: KeyPart)
    ensures ListsKey() == [Str("tasks"), Str("list")]
    ensures DetailKey(id) == [Str("tasks"), Str("detail"), id]
    ensures AllKey() <= ListsKey() && AllKey() <= DetailKey(id)
    ensures id != other ==> DetailKey(id) != DetailKey(other)
    ensures !(ListsKey() <= DetailKey(id)) && ListsKey() != DetailKey(id)
  {
    assert DetailKey(id)[1] == Str("detail");
    assert DetailKey(id)[2] == id && DetailKey(other)[2] == other;
  }

  // ---------------------------------------------------------------------------
  // Query client operations

  /** `invalidateQueries({ queryKey: prefix })`: every entry under `prefix` is marked. */
  function Invalidate(cache: Cache, prefix: QueryKey): (r: Cache)
    ensures r.Keys == cache.Keys
    ensures forall k :: k in cache ==> r[k].data == cache[k].data
    ensures forall k :: k in cache ==> (r[k].invalidated <==> cache[k].invalidated || prefix <= k)
  {
    map k | k in cache :: if prefix <= k then cache[k].(invalidated := true) else cache[k]
  }

  /** `setQueryData(key, data)`: the entry is written fresh. */
  function SetQueryData(cache: Cache, key: QueryKey, data: CacheData): (r: Cache)
    ensures r.Keys == cache.Keys + {key}
    ensures r[key] == Entry(data, false)
    ensures forall k :: k in cache && k != key ==> r[k] == cache[k]
  {
    cache[key := Entry(data, false)]
  }

  // ---------------------------------------------------------------------------
  // Mutations. None defines an error handler, so a failure leaves the cache as it was.

  datatype MutationError = MutationFailed

  function OnCreate(cache: Cache, outcome: Result<Task, MutationError>): Cache {
    if outcome.Ok? then Invalidate(cache, AllKey()) else cache
  }

  function OnUpdate(cache: Cache, outcome: Result<Task, MutationError>): Cache {
    match outcome
    case Err(_) => cache
    case Ok(updated) =>
      Invalidate(SetQueryData(cache, DetailKey(Str(updated.id)), TaskDetail(updated)), ListsKey())
  }

  function OnDelete(cache: Cache, outcome: Result<(), MutationError>): Cache {
    if outcome.Ok? then Invalidate(cache, AllKey()) else cache
  }

  /** A successful create or delete marks every task entry and nothing else. */
  lemma CreateAndDeleteInvalidateAll(cache: Cache, created: Task, k: QueryKey)
    requires k in cache
    ensures OnCreate(cache, Ok(created)).Keys == cache.Keys
    ensures OnCreate(cache, Ok(created))[k].invalidated <==> cache[k].invalidated || [Str("tasks")] <= k
    ensures OnDelete(cache, Ok(())) == OnCreate(cache, Ok(created))
  {
  }

  /**
   * A successful update writes the returned task under its detail key, leaves
   * that entry fresh, marks the list entries, and leaves every other detail
   * entry untouched.
   */
  lemma UpdateWritesDetailAndMarksLists(cache: Cache, updated: Task, k: QueryKey)
    ensures var r := OnUpdate(cache, Ok(updated));
      r.Keys == cache.Keys + {DetailKey(Str(updated.id))}
      && r[DetailKey(Str(updated.id))] == Entry(TaskDetail(updated), false)
    ensures k in cache && DetailsKey() <= k && k != DetailKey(Str(updated.id))
      ==> OnUpdate(cache, Ok(updated))[k] == cache[k]
    ensures k in cache && ListsKey() <= k && k != DetailKey(Str(updated.id))
      ==> OnUpdate(cache, Ok(updated))[k] == cache[k].(invalidated := true)
  {
    KeyHierarchy(Str(updated.id), Str(updated.id));
    if k in cache && DetailsKey() <= k {
      assert k[1] == Str("detail");
      assert !(ListsKey() <= k);
    }
  }

  /** A failed mutation changes nothing. */
  lemma FailedMutationsKeepCache(cache: Cache)
    ensures OnCreate(cache, Err(MutationFailed)) == cache
    ensures OnUpdate(cache, Err(MutationFailed)) == cache
    ensures OnDelete(cache, Err(MutationFailed)) == cache
  {
  }

  /** `enabled: !!id`: the detail query runs only for a truthy id (not `""`, not `0`). */
  predicate DetailQueryEnabled(id: KeyPart) {
    match id
    case Str(s) => s != ""
    case Num(n) => n != 0
  }

  /** Whether `useTask` asked the service for the task, and the cache afterwards. */
  datatype DetailRun = DetailRun(requested: bool, cache: Cache)

  /**
   * `useTask(id)` mounting: a disabled query never calls `taskService.get`;
   * an enabled one calls it when the detail entry is missing or invalidated,
   * and a successful answer is cached fresh under the detail key while a
   * failure leaves the cache as it was.
   */
  function UseTask(cache: Cache, id: KeyPart, response: Result<Task, MutationError>): (r: DetailRun)
    ensures r.requested <==>
      DetailQueryEnabled(id) && (DetailKey(id) !in cache || cache[DetailKey(id)].invalidated)
    ensures !r.requested || response.Err? ==> r.cache == cache
    ensures r.requested && response.Ok? ==>
      r.cache.Keys == cache.Keys + {DetailKey(id)}
      && r.cache[DetailKey(id)] == Entry(TaskDetail(response.value), false)
      && forall k :: k in cache && k != DetailKey(id) ==> r.cache[k] == cache[k]
  {
    var key := DetailKey(id);
    if DetailQueryEnabled(id) && (key !in cache || cache[key].invalidated) then
      match response
      case Ok(t) => DetailRun(true, SetQueryData(cache, key, TaskDetail(t)))
      case Err(_) => DetailRun(true, cache)
    else DetailRun(false, cache)
  }

  /**
   * An empty id (`""` or `0`) never reaches the service, while any other id
   * is fetched into an empty cache; and a detail query never disturbs the
   * list entry.
   */
  lemma DisabledQueryNeverFetches(cache: Cache, id: KeyPart, response: Result<Task, MutationError>)
    ensures UseTask(cache, Str(""), response) == DetailRun(false, cache)
    ensures UseTask(cache, Num(0), response) == DetailRun(false, cache)
    ensures DetailQueryEnabled(id) ==> UseTask(map[], id, response).requested
    ensures ListsKey() in cache ==> UseTask(cache, id, response).cache[ListsKey()] == cache[ListsKey()]
  {
    KeyHierarchy(id, id);
  }
}

=== FILE: sorting.dfy ===
/**
 * `Array.prototype.sort` with a comparator, as a stable insertion sort over a
 * "sorts no later than" relation `leq` (the comparator's result is `<= 0`).
 * ECMAScript requires the sort to be stable; when the comparator is a
 * consistent total preorder on the values sorted, every stable sort gives the
 * same result, so this one stands for the engine's.
 */
module Sorting {

  /** `leq` is total and transitive on the values of `u`. */
  predicate TotalPreorderOn<T(==)>(u: seq<T>, leq: (T, T) -> bool) {
    (forall a, b {:trigger leq(a, b)} :: a in u && b in u ==> leq(a, b) || leq(b, a))
    && (forall a, b, c {:trigger leq(a, b), leq(b, c)} :: a in u && b in u && c in u && leq(a, b) && leq(b, c) ==> leq(a, c))
  }

  predicate Sorted<T>(s: seq<T>, leq: (T, T) -> bool) {
    forall i, j :: 0 <= i < j < |s| ==> leq(s[i], s[j])
  }

  /** Every value of `s` occurs in `u`. */
  predicate Within<T(==)>(s: seq<T>, u: seq<T>) {
    forall x :: x in s ==> x in u
  }

  /** `x` inserted after the leading values that sort no later than it. */
  function Insert<T>(x: T, s: seq<T>, leq: (T, T) -> bool): (r: seq<T>)
    ensures |r| == |s| + 1
  {
    if s == [] then [x]
    else if leq(s[0], x) then [s[0]] + Insert(x, s[1..], leq)
    else [x] + s
  }

  /** Insertion sort: each value in input order is inserted into the sorted prefix. */
  function SortBy<T>(s: seq<T>, leq: (T, T) -> bool): (r: seq<T>)
    ensures |r| == |s|
  {
    if s == [] then [] else Insert(s[|s| - 1], SortBy(s[..|s| - 1], leq), leq)
  }

  lemma {:induction false} InsertPermutes<T>(x: T, s: seq<T>, leq: (T, T) -> bool)
    ensures multiset(Insert(x, s, leq)) == multiset(s) + multiset{x}
  {
    if s != [] && leq(s[0], x) {
      var t := s[1..];
      InsertPermutes(x, t, leq);
      assert Insert(x, s, leq) == [s[0]] + Insert(x, t, leq);
      assert s == [s[0]] + t;
      assert multiset(s) == multiset{s[0]} + multiset(t);
    } else {
      assert Insert(x, s, leq) == [x] + s;
    }
  }

  /** The sort returns a rearrangement of its input. */
  lemma {:induction false} SortPermutes<T>(s: seq<T>, leq: (T, T) -> bool)
    ensures multiset(SortBy(s, leq)) == multiset(s)
  {
    if s != [] {
      var p, x := s[..|s| - 1], s[|s| - 1];
      SortPermutes(p, leq);
      InsertPermutes(x, SortBy(p, leq), leq);
      assert SortBy(s, leq) == Insert(x, SortBy(p, leq), leq);
      assert s == p + [x];
      assert multiset(s) == multiset(p) + multiset{x};
    }
  }

  lemma SortWithin<T>(s: seq<T>, leq: (T, T) -> bool)
    ensures Within(SortBy(s, leq), s)
  {
    SortPermutes(s, leq);
    forall x | x in SortBy(s, leq)
      ensures x in s
    {
      assert x in multiset(SortBy(s, leq));
    }
  }

  lemma {:induction false} InsertSorted<T>(x: T, s: seq<T>, leq: (T, T) -> bool, u: seq<T>)
    requires TotalPreorderOn(u, leq) && x in u && Within(s, u) && Sorted(s, leq)
    ensures Sorted(Insert(x, s, leq), leq)
  {
    if s != [] && leq(s[0], x) {
      InsertSorted(x, s[1..], leq, u);
      InsertPermutes(x, s[1..], leq);
      var r := Insert(x, s[1..], leq);
      forall k | 0 <= k < |r|
        ensures leq(s[0], r[k])
      {
        assert r[k] in multiset(s[1..]) + multiset{x};
        if r[k] != x {
          assert r[k] in s[1..];
        }
      }
    } else if s != [] {
      assert leq(x, s[0]);
      forall k | 0 <= k < |s|
        ensures leq(x, s[k])
      {
        if k > 0 {
          assert leq(s[0], s[k]);
        }
      }
    }
  }

  /** Under a total preorder the sort returns its input in non-decreasing order. */
  lemma {:induction false} SortSorted<T>(s: seq<T>, leq: (T, T) -> bool)
    requires TotalPreorderOn(s, leq)
    ensures Sorted(SortBy(s, leq), leq)
  {
    if s != [] {
      var init := s[..|s| - 1];
      assert TotalPreorderOn(init, leq) by {
        assert Within(init, s);
      }
      SortSorted(init, leq);
      SortWithin(init, leq);
      InsertSorted(s[|s| - 1], SortBy(init, leq), leq, s);
    }
  }

  // ---------------------------------------------------------------------------
  // Stability

  /** The values of `s` that sort level with `x`, in the order `s` holds them. */
  function Level<T>(s: seq<T>, x: T, leq: (T, T) -> bool): (r: seq<T>)
    ensures |r| <= |s|
  {
    if s == [] then []
    else (if leq(s[0], x) && leq(x, s[0]) then [s[0]] else []) + Level(s[1..], x, leq)
  }

  lemma {:induction false} LevelOfAppend<T>(s: seq<T>, y: T, x: T, leq: (T, T) -> bool)
    ensures Level(s + [y], x, leq)
         == Level(s, x, leq) + (if leq(y, x) && leq(x, y) then [y] else [])
  {
    if s != [] {
      assert (s + [y])[1..] == s[1..] + [y];
      LevelOfAppend(s[1..], y, x, leq);
    }
  }

  /** No value after the insertion point sorts level with `y`. */
  lemma {:induction false} LevelAfterInsertPoint<T>(y: T, s: seq<T>, x: T, leq: (T, T) -> bool, u: seq<T>)
    requires TotalPreorderOn(u, leq) && y in u && x in u && Within(s, u) && Sorted(s, leq)
    requires s != [] && !leq(s[0], y) && leq(y, x) && leq(x, y)
    ensures Level(s, x, leq) == []
  {
    forall k | 0 <= k < |s|
      ensures !(leq(s[k], x) && leq(x, s[k]))
    {
      if k > 0 {
        assert leq(s[0], s[k]);
      }
      assert s[0] in u && s[k] in u;
    }
    LevelEmpty(s, x, leq);
  }

  lemma {:induction false} LevelEmpty<T>(s: seq<T>, x: T, leq: (T, T) -> bool)
    requires forall k :: 0 <= k < |s| ==> !(leq(s[k], x) && leq(x, s[k]))
    ensures Level(s, x, leq) == []
  {
    if s != [] {
      LevelEmpty(s[1..], x, leq);
    }
  }

  lemma SortedTail<T>(s: seq<T>, leq: (T, T) -> bool, u: seq<T>)
    requires s != [] && Within(s, u) && Sorted(s, leq)
    ensures Within(s[1..], u) && Sorted(s[1..], leq)
  {
    assert forall k :: 0 <= k < |s[1..]| ==> s[1..][k] == s[k + 1];
  }

  lemma LevelOfCons<T>(a: T, r: seq<T>, x: T, leq: (T, T) -> bool)
    ensures Level([a] + r, x, leq) == (if leq(a, x) && leq(x, a) then [a] else []) + Level(r, x, leq)
  {
    assert ([a] + r)[1..] == r;
  }

  /** Inserting `y` places it after every value already level with it. */
  lemma {:induction false} LevelOfInsert<T>(y: T, s: seq<T>, x: T, leq: (T, T) -> bool, u: seq<T>)
    requires TotalPreorderOn(u, leq) && y in u && x in u && Within(s, u) && Sorted(s, leq)
    ensures Level(Insert(y, s, leq), x, leq)
         == Level(s, x, leq) + (if leq(y, x) && leq(x, y) then [y] else [])
  {
    if s == [] {
    } else if leq(s[0], y) {
      SortedTail(s, leq, u);
      LevelOfInsert(y, s[1..], x, leq, u);
      LevelOfInsertPastHead(y, s, x, leq);
    } else if leq(y, x) && leq(x, y) {
      LevelAfterInsertPoint(y, s, x, leq, u);
      assert ([y] + s)[1..] == s;
    } else {
      assert ([y] + s)[1..] == s;
    }
  }

  /** `LevelOfInsert` past a head that sorts no later than `y`, given the claim for the tail. */
  lemma LevelOfInsertPastHead<T>(y: T, s: seq<T>, x: T, leq: (T, T) -> bool)
    requires s != [] && leq(s[0], y)
    requires Level(Insert(y, s[1..], leq), x, leq)
          == Level(s[1..], x, leq) + (if leq(y, x) && leq(x, y) then [y] else [])
    ensures Level(Insert(y, s, leq), x, leq)
         == Level(s, x, leq) + (if leq(y, x) && leq(x, y) then [y] else [])
  {
    var t := s[1..];
    var e := if leq(y, x) && leq(x, y) then [y] else [];
    var h := if leq(s[0], x) && leq(x, s[0]) then [s[0]] else [];
    assert Insert(y, s, leq) == [s[0]] + Insert(y, t, leq);
    LevelOfCons(s[0], Insert(y, t, leq), x, leq);
    assert s == [s[0]] + t;
    LevelOfCons(s[0], t, x, leq);
    ConcatAssoc(h, Level(t, x, leq), e);
  }

  lemma ConcatAssoc<T>(a: seq<T>, b: seq<T>, c: seq<T>)
    ensures a + (b + c) == (a + b) + c
  {
  }

  /**
   * Stability: the values that sort level with any `x` come out in the order
   * they went in.
   */
  lemma {:induction false} SortStable<T>(s: seq<T>, x: T, leq: (T, T) -> bool)
    requires TotalPreorderOn(s + [x], leq)
    ensures Level(SortBy(s, leq), x, leq) == Level(s, x, leq)
  {
    if s != [] {
      var init, y := s[..|s| - 1], s[|s| - 1];
      assert s == init + [y];
      assert TotalPreorderOn(init + [x], leq) by {
        assert Within(init + [x], s + [x]);
      }
      SortStable(init, x, leq);
      assert TotalPreorderOn(init, leq) by {
        assert Within(init, s + [x]);
      }
      SortSorted(init, leq);
      SortWithin(init, leq);
      LevelOfInsert(y, SortBy(init, leq), x, leq, s + [x]);
      LevelOfAppend(init, y, x, leq);
    }
  }
}

=== FILE: tasks.dfy ===
/**
 * The task records the frontend passes around: the domain `Task` (due date as a
 * `Date`), its wire form `TaskApi` (due date as `YYYY-MM-DD` text), and the
 * older page's `LegacyTask`.
 */
module Tasks {
  import opened Wrappers
  import opened JsDates

  /** The four task categories, shared by the frontend types and the backend enum. */
  datatype Category = Chore | Homework | Shopping | Other

  /** Task progress, shared by the frontend types and the backend enum. */
  datatype Status = Todo | InProgress | Completed

  /** The string a category is written as, on the wire and in filter state. */
  function CategoryName(c: Category): string {
    match c
    case Chore => "Chore"
    case Homework => "Homework"
    case Shopping => "Shopping"
    case Other => "Other"
  }

  /** The string a status is written as on the wire. */
  function StatusName(s: Status): string {
    match s
    case Todo => "todo"
    case InProgress => "in-progress"
    case Completed => "completed"
  }

  /** Category names are distinct. */
  lemma CategoryNameInjective(a: Category, b: Category)
    requires CategoryName(a) == CategoryName(b)
    ensures a == b
  {
  }

  /** Status names are distinct. */
  lemma StatusNameInjective(a: Status, b: Status)
    requires StatusName(a) == StatusName(b)
    ensures a == b
  {
  }

  datatype Task = Task(
    id: string,
    title: string,
    description: Option<string>,
    assignee: Option<string>,
    category: Category,
    dueDate: JsDate,
    status: Status)

  datatype TaskApi = TaskApi(
    id: string,
    title: string,
    description: Option<string>,
    assignee: Option<string>,
    category: Category,
    dueDate: string,
    status: Status)

  /** The older page's task: a mandatory assignee and an optional due-date string. */
  datatype LegacyTask = LegacyTask(
    id: string,
    title: string,
    description: Option<string>,
    assignee: string,
    category: Category,
    dueDate: Option<string>,
    status: Status)
}

=== FILE: tasks_page.dfy ===
/**
 * The filter state of the tasks page: one handler per field, a reset to the
 * initial filters, and what the page shows before and after the tasks load.
 */
module TasksPage {
  import opened Wrappers
  import opened Tasks
  import opened FilterTasks
  import opened Text

  /** The filters the page starts from and resets to. */
  const InitialFilters := Filters("", "all", "all", ByDueDate)

  function HandleSearchChange(f: Filters, value: string): (r: Filters)
    ensures r.searchQuery == value
    ensures r.category == f.category && r.assignee == f.assignee && r.sortBy == f.sortBy
  {
    f.(searchQuery := value)
  }

  function HandleCategoryChange(f: Filters, value: string): (r: Filters)
    ensures r.category == value
    ensures r.searchQuery == f.searchQuery && r.assignee == f.assignee && r.sortBy == f.sortBy
  {
    f.(category := value)
  }

  function HandleAssigneeChange(f: Filters, value: string): (r: Filters)
    ensures r.assignee == value
    ensures r.searchQuery == f.searchQuery && r.category == f.category && r.sortBy == f.sortBy
  {
    f.(assignee := value)
  }

  function HandleSortChange(f: Filters, value: SortKey): (r: Filters)
    ensures r.sortBy == value
    ensures r.searchQuery == f.searchQuery && r.category == f.category && r.assignee == f.assignee
  {
    f.(sortBy := value)
  }

  function HandleFilterReset(f: Filters): Filters {
    InitialFilters
  }

  /** One user edit to the filters. */
  datatype Edit =
    | Search(query: string)
    | Category(category: string)
    | Assignee(assignee: string)
    | Sort(key: SortKey)
    | Reset

  function Apply(f: Filters, e: Edit): Filters {
    match e
    case Search(q) => HandleSearchChange(f, q)
    case Category(c) => HandleCategoryChange(f, c)
    case Assignee(a) => HandleAssigneeChange(f, a)
    case Sort(k) => HandleSortChange(f, k)
    case Reset => HandleFilterReset(f)
  }

  function ApplyAll(f: Filters, edits: seq<Edit>): Filters
    decreases |edits|
  {
    if edits == [] then f else ApplyAll(Apply(f, edits[0]), edits[1..])
  }

  /** Reset forgets every earlier edit: resetting after any edits equals resetting alone. */
  lemma ResetForgetsHistory(f: Filters, edits: seq<Edit>)
    ensures ApplyAll(f, edits + [Reset]) == InitialFilters
    ensures HandleFilterReset(HandleFilterReset(f)) == HandleFilterReset(f)
  {
    ApplyAllAppend(f, edits, Reset);
  }

  lemma {:induction false} ApplyAllAppend(f: Filters, edits: seq<Edit>, e: Edit)
    ensures ApplyAll(f, edits + [e]) == Apply(ApplyAll(f, edits), e)
    decreases |edits|
  {
    if edits != [] {
      assert (edits + [e])[1..] == edits[1..] + [e];
      ApplyAllAppend(Apply(f, edits[0]), edits[1..], e);
    }
  }

  /** Edits of different fields commute. */
  lemma DistinctFieldEditsCommute(f: Filters, q: string, c: string, a: string, k: SortKey)
    ensures HandleCategoryChange(HandleSearchChange(f, q), c) == HandleSearchChange(HandleCategoryChange(f, c), q)
    ensures HandleAssigneeChange(HandleSearchChange(f, q), a) == HandleSearchChange(HandleAssigneeChange(f, a), q)
    ensures HandleSortChange(HandleSearchChange(f, q), k) == HandleSearchChange(HandleSortChange(f, k), q)
    ensures HandleAssigneeChange(HandleCategoryChange(f, c), a) == HandleCategoryChange(HandleAssigneeChange(f, a), c)
    ensures HandleSortChange(HandleCategoryChange(f, c), k) == HandleCategoryChange(HandleSortChange(f, k), c)
    ensures HandleSortChange(HandleAssigneeChange(f, a), k) == HandleAssigneeChange(HandleSortChange(f, k), a)
  {
  }

  /** The initial filters keep every loaded task. */
  lemma InitialFiltersKeepEverything(tasks: seq<Task>, collate: Collation)
    ensures multiset(UseFilterTasks(tasks, InitialFilters, collate)) == multiset(tasks)
  {
    var f := InitialFilters;
    assert f.searchQuery == "" && f.category == "all" && f.assignee == "all";
    assert IsBlank(Js, f.searchQuery) by {
      assert TrimStart(Js, "") == "" && TrimEnd(Js, "") == "";
    }
    OpenFiltersKeepEverything(tasks, f, collate);
  }

  // ---------------------------------------------------------------------------
  // What the page shows

  datatype PageView = Nothing | Grid(tasks: seq<Task>) | EmptyState

  /** The hook runs over `tasks ?? []`; with no data yet the page renders nothing. */
  function RenderTasksPage(data: Option<seq<Task>>, f: Filters, collate: Collation): (v: PageView)
    ensures data.None? <==> v.Nothing?
    ensures v.Grid? ==> |v.tasks| > 0 && forall t :: t in v.tasks ==> t in data.value && Matches(t, f)
    ensures v.Grid? ==> v.tasks == UseFilterTasks(data.value, f, collate)
    ensures v.EmptyState? ==> forall t :: t in data.value ==> !Matches(t, f)
  {
    var shown := UseFilterTasks(data.GetOr([]), f, collate);
    if data.None? then Nothing
    else if |shown| > 0 then Grid(shown)
    else
      assert forall t :: t in data.value && Matches(t, f) ==> t in shown;
      EmptyState
  }

  /** Before the tasks load, the hook filters the empty list. */
  lemma UnloadedFiltersNothing(f: Filters, collate: Collation)
    ensures UseFilterTasks(Option<seq<Task>>.None.GetOr([]), f, collate) == []
  {
    assert |UseFilterTasks([], f, collate)| == |multiset(Keep([], f))|;
  }
}

/**
 * The older tasks page: its own filter fields with a clear action, and the
 * list operations that toggle a task's status and replace an edited task.
 */
module LegacyTasksPage {
  import opened Tasks

  datatype LegacyFilters = LegacyFilters(category: string, assignee: string, sortBy: string, searchQuery: string)

  /** The page's initial `useState` values. */
  const LegacyInitialFilters := LegacyFilters("all", "all", "dueDate", "")

  function ClearFilters(f: LegacyFilters): (r: LegacyFilters)
    ensures r.category == "all" && r.assignee == "all" && r.sortBy == "dueDate" && r.searchQuery == ""
  {
    LegacyFilters("all", "all", "dueDate", "")
  }

  /** Clearing returns the page to its initial filter state, from any state. */
  lemma ClearFiltersRestoresInitial(f: LegacyFilters)
    ensures ClearFilters(f) == LegacyInitialFilters
    ensures ClearFilters(ClearFilters(f)) == ClearFilters(f)
  {
  }

  /** A completed task goes back to in-progress; any other becomes completed. */
  function ToggledStatus(s: Status): (r: Status)
    ensures r != s
    ensures r == Completed || r == InProgress
  {
    if s == Completed then InProgress else Completed
  }

  /** `handleToggleTaskStatus`: the status of every task with the id is toggled. */
  function ToggleTaskStatus(tasks: seq<LegacyTask>, id: string): (r: seq<LegacyTask>)
    ensures |r| == |tasks|
    ensures forall i :: 0 <= i < |tasks| && tasks[i].id != id ==> r[i] == tasks[i]
    ensures forall i :: 0 <= i < |tasks| && tasks[i].id == id ==>
      r[i].status == ToggledStatus(tasks[i].status) && r[i].(status := tasks[i].status) == tasks[i]
  {
    if tasks == [] then []
    else
      var t := tasks[0];
      [if t.id == id then t.(status := ToggledStatus(t.status)) else t] + ToggleTaskStatus(tasks[1..], id)
  }

  /**
   * Toggling twice restores the list exactly when no toggled task was `todo`:
   * a `todo` task comes back `in-progress`.
   */
  lemma ToggleTwice(tasks: seq<LegacyTask>, id: string)
    ensures ToggleTaskStatus(ToggleTaskStatus(tasks, id), id) == tasks
        <==> forall i :: 0 <= i < |tasks| && tasks[i].id == id ==> tasks[i].status != Todo
  {
    var twice := ToggleTaskStatus(ToggleTaskStatus(tasks, id), id);
    if forall i :: 0 <= i < |tasks| && tasks[i].id == id ==> tasks[i].status != Todo {
      assert forall i :: 0 <= i < |tasks| ==> twice[i] == tasks[i];
    } else {
      var i :| 0 <= i < |tasks| && tasks[i].id == id && tasks[i].status == Todo;
      assert twice[i].status == InProgress;
    }
  }

  /** `handleUpdateTask`: every task with the edited task's id is replaced by it. */
  function UpdateTask(tasks: seq<LegacyTask>, updated: LegacyTask): (r: seq<LegacyTask>)
    ensures |r| == |tasks|
    ensures forall i :: 0 <= i < |tasks| ==>
      r[i] == if tasks[i].id == updated.id then updated else tasks[i]
  {
    if tasks == [] then []
    else [if tasks[0].id == updated.id then updated else tasks[0]] + UpdateTask(tasks[1..], updated)
  }

  /** An update whose id is not in the list changes nothing. */
  lemma UpdateUnknownIdKeepsList(tasks: seq<LegacyTask>, updated: LegacyTask)
    requires forall t :: t in tasks ==> t.id != updated.id
    ensures UpdateTask(tasks, updated) == tasks
  {
    var r := UpdateTask(tasks, updated);
    forall i | 0 <= i < |tasks|
      ensures r[i] == tasks[i]
    {
      assert tasks[i] in tasks;
    }
  }

  /** Applying the same update twice is the same as applying it once. */
  lemma UpdateIdempotent(tasks: seq<LegacyTask>, updated: LegacyTask)
    ensures UpdateTask(UpdateTask(tasks, updated), updated) == UpdateTask(tasks, updated)
  {
  }
}

=== FILE: text.dfy ===
/**
 * String primitives the application relies on, as JavaScript and Python define
 * them: whitespace classes, trimming, splitting on whitespace runs, ASCII case
 * mapping, substring search and UTF-16 length.
 */
module Text {

  /** Which language's notion of whitespace a trim uses. */
  datatype Flavour = Js | Py

  /** ECMAScript WhiteSpace and LineTerminator: what `trim()` removes and `\s` matches. */
  predicate IsJsSpace(c: char) {
    c == '\t' || c == '\n' || c == '\U{B}' || c == '\U{C}' || c == '\r' || c == ' '
    || c == '\U{A0}' || c == '\U{1680}' || ('\U{2000}' <= c <= '\U{200A}')
    || c == '\U{2028}' || c == '\U{2029}' || c == '\U{202F}' || c == '\U{205F}'
    || c == '\U{3000}' || c == '\U{FEFF}'
  }

  /** Python `str.isspace`: what `str.strip()` removes. */
  predicate IsPySpace(c: char) {
    ('\t' <= c <= '\r') || ('\U{1C}' <= c <= '\U{1F}') || c == ' ' || c == '\U{85}'
    || c == '\U{A0}' || c == '\U{1680}' || ('\U{2000}' <= c <= '\U{200A}')
    || c == '\U{2028}' || c == '\U{2029}' || c == '\U{202F}' || c == '\U{205F}'
    || c == '\U{3000}'
  }

  predicate IsSpace(f: Flavour, c: char) {
    match f
    case Js => IsJsSpace(c)
    case Py => IsPySpace(c)
  }

  predicate AllSpace(f: Flavour, s: string) {
    forall i :: 0 <= i < |s| ==> IsSpace(f, s[i])
  }

  /** Leading whitespace removed: a suffix of `s` that is empty or starts with a non-space. */
  function TrimStart(f: Flavour, s: string): (r: string)
    ensures |r| <= |s| && r == s[|s| - |r|..]
    ensures AllSpace(f, s[..|s| - |r|])
    ensures |r| > 0 ==> !IsSpace(f, r[0])
    decreases |s|
  {
    if |s| > 0 && IsSpace(f, s[0]) then
      var r := TrimStart(f, s[1..]);
      assert s[..|s| - |r|] == [s[0]] + s[1..][..|s| - 1 - |r|];
      AllSpaceCons(f, s[0], s[1..][..|s| - 1 - |r|]);
      r
    else s
  }

  /** Trailing whitespace removed: a prefix of `s` that is empty or ends with a non-space. */
  function TrimEnd(f: Flavour, s: string): (r: string)
    ensures |r| <= |s| && r == s[..|r|]
    ensures AllSpace(f, s[|r|..])
    ensures |r| > 0 ==> !IsSpace(f, r[|r| - 1])
    decreases |s|
  {
    if |s| > 0 && IsSpace(f, s[|s| - 1]) then
      var p := s[..|s| - 1];
      var r := TrimEnd(f, p);
      assert s[|r|..] == p[|r|..] + [s[|s| - 1]];
      AllSpaceSnoc(f, p[|r|..], s[|s| - 1]);
      r
    else s
  }

  lemma AllSpaceCons(f: Flavour, c: char, w: string)
    requires IsSpace(f, c) && AllSpace(f, w)
    ensures AllSpace(f, [c] + w)
  {
    forall i | 0 <= i < |[c] + w|
      ensures IsSpace(f, ([c] + w)[i])
    {
      if i > 0 {
        assert ([c] + w)[i] == w[i - 1];
      }
    }
  }

  lemma AllSpaceSnoc(f: Flavour, w: string, c: char)
    requires AllSpace(f, w) && IsSpace(f, c)
    ensures AllSpace(f, w + [c])
  {
    forall i | 0 <= i < |w + [c]|
      ensures IsSpace(f, (w + [c])[i])
    {
      if i < |w| {
        assert (w + [c])[i] == w[i];
      }
    }
  }

  /** JavaScript `String.prototype.trim` (Js) and Python `str.strip()` (Py). */
  function Trim(f: Flavour, s: string): string {
    TrimEnd(f, TrimStart(f, s))
  }

  predicate IsBlank(f: Flavour, s: string) {
    Trim(f, s) == ""
  }

  lemma {:induction false} TrimStartOfSpaces(f: Flavour, w: string, s: string)
    requires AllSpace(f, w)
    ensures TrimStart(f, w + s) == TrimStart(f, s)
    decreases |w|
  {
    if |w| > 0 {
      assert (w + s)[1..] == w[1..] + s;
      TrimStartOfSpaces(f, w[1..], s);
    } else {
      assert w + s == s;
    }
  }

  lemma {:induction false} TrimEndOfSpaces(f: Flavour, s: string, w: string)
    requires AllSpace(f, w)
    ensures TrimEnd(f, s + w) == TrimEnd(f, s)
    decreases |w|
  {
    if |w| > 0 {
      assert (s + w)[..|s + w| - 1] == s + w[..|w| - 1];
      TrimEndOfSpaces(f, s, w[..|w| - 1]);
    } else {
      assert s + w == s;
    }
  }

  /** A non-blank string keeps its trailing whitespace through `TrimStart`. */
  lemma {:induction false} TrimStartKeepsTail(f: Flavour, s: string, w: string)
    requires TrimStart(f, s) != ""
    ensures TrimStart(f, s + w) == TrimStart(f, s) + w
    decreases |s|
  {
    if IsSpace(f, s[0]) {
      assert (s + w)[1..] == s[1..] + w;
      TrimStartKeepsTail(f, s[1..], w);
    }
  }

  lemma TrimStartOfBlank(f: Flavour, s: string, w: string)
    requires TrimStart(f, s) == ""
    requires AllSpace(f, w)
    ensures TrimStart(f, s + w) == ""
  {
    assert AllSpace(f, s);
    assert AllSpace(f, s + w);
    TrimStartOfSpaces(f, s + w, "");
    assert s + w + "" == s + w;
  }

  /** Surrounding whitespace never changes what a trim returns. */
  lemma TrimIgnoresSurroundingSpace(f: Flavour, w1: string, s: string, w2: string)
    requires AllSpace(f, w1) && AllSpace(f, w2)
    ensures Trim(f, w1 + s + w2) == Trim(f, s)
  {
    assert w1 + s + w2 == w1 + (s + w2);
    TrimStartOfSpaces(f, w1, s + w2);
    if TrimStart(f, s) == "" {
      TrimStartOfBlank(f, s, w2);
    } else {
      TrimStartKeepsTail(f, s, w2);
      TrimEndOfSpaces(f, TrimStart(f, s), w2);
    }
  }

  /** `TrimStart` of a string that has already been trimmed at the start. */
  lemma TrimStartIdempotent(f: Flavour, s: string)
    ensures TrimStart(f, TrimStart(f, s)) == TrimStart(f, s)
  {
  }

  // ---------------------------------------------------------------------------
  // ASCII case mapping (the model's stand-in for Unicode case mapping)

  function UpperChar(c: char): char {
    if 'a' <= c <= 'z' then (c as int - 32) as char else c
  }

  function LowerChar(c: char): char {
    if 'A' <= c <= 'Z' then (c as int + 32) as char else c
  }

  predicate IsAsciiUpper(c: char) {
    'A' <= c <= 'Z'
  }

  /** `toUpperCase()` on ASCII letters. */
  function Upper(s: string): (r: string)
    ensures |r| == |s|
    ensures forall i :: 0 <= i < |s| ==> r[i] == UpperChar(s[i])
  {
    seq(|s|, i requires 0 <= i < |s| => UpperChar(s[i]))
  }

  /** `toLowerCase()` on ASCII letters. */
  function Lower(s: string): (r: string)
    ensures |r| == |s|
    ensures forall i :: 0 <= i < |s| ==> r[i] == LowerChar(s[i])
    ensures forall i :: 0 <= i < |s| ==> !IsAsciiUpper(r[i])
  {
    seq(|s|, i requires 0 <= i < |s| => LowerChar(s[i]))
  }

  // ---------------------------------------------------------------------------
  // Substring search

  /** JavaScript `hay.includes(needle)`. */
  predicate Includes(hay: string, needle: string)
    decreases |hay|
  {
    needle <= hay || (|hay| > 0 && Includes(hay[1..], needle))
  }

  /** A needle holding a character the haystack never holds is never found. */
  lemma {:induction false} NotIncludedWhenCharMissing(hay: string, needle: string, k: nat)
    requires k < |needle|
    requires forall i :: 0 <= i < |hay| ==> hay[i] != needle[k]
    ensures !Includes(hay, needle)
    decreases |hay|
  {
    assert !(needle <= hay) by {
      if |needle| <= |hay| {
        assert hay[k] != needle[k];
      }
    }
    if |hay| > 0 {
      assert forall i :: 0 <= i < |hay[1..]| ==> hay[1..][i] == hay[i + 1];
      NotIncludedWhenCharMissing(hay[1..], needle, k);
    }
  }

  // ---------------------------------------------------------------------------
  // Splitting on whitespace

  /** JavaScript `t.split(/\s+/)`: the pieces between maximal whitespace runs.
      Always at least one piece; a leading or trailing run yields an empty piece. */
  function SplitOnSpaces(t: string): (r: seq<string>)
    ensures |r| >= 1
    decreases |t|
  {
    if t == [] then [""]
    else if IsJsSpace(t[0]) then [""] + SplitOnSpaces(TrimStart(Js, t[1..]))
    else
      var rest := SplitOnSpaces(t[1..]);
      [[t[0]] + rest[0]] + rest[1..]
  }

  predicate IsWord(w: string) {
    |w| > 0 && forall i :: 0 <= i < |w| ==> !IsJsSpace(w[i])
  }

  /** The maximal runs of non-whitespace characters of `s`, in order: the
      reference notion of "the words of `s`". */
  function Words(s: string): (r: seq<string>)
    ensures forall i :: 0 <= i < |r| ==> IsWord(r[i])
    ensures |s| > 0 && !IsJsSpace(s[0]) ==> |r| > 0 && |r[0]| > 0 && r[0][0] == s[0]
    decreases |s|
  {
    if s == [] then []
    else if IsJsSpace(s[0]) then Words(s[1..])
    else
      var rest := Words(s[1..]);
      if |s| > 1 && !IsJsSpace(s[1]) then [[s[0]] + rest[0]] + rest[1..]
      else [[s[0]]] + rest
  }

  lemma {:induction false} WordsOfSpaces(s: string)
    requires AllSpace(Js, s)
    ensures Words(s) == []
    decreases |s|
  {
    if |s| > 0 {
      WordsOfSpaces(s[1..]);
    }
  }

  lemma {:induction false} WordsSkipLeadingSpace(s: string)
    ensures Words(TrimStart(Js, s)) == Words(s)
    decreases |s|
  {
    if |s| > 0 && IsJsSpace(s[0]) {
      WordsSkipLeadingSpace(s[1..]);
    }
  }

  lemma {:induction false} WordsIgnoreTrailingSpace(u: string, w: string)
    requires AllSpace(Js, w)
    ensures Words(u + w) == Words(u)
    decreases |u|
  {
    if u == [] {
      assert u + w == w;
      WordsOfSpaces(w);
    } else {
      assert (u + w)[1..] == u[1..] + w;
      WordsIgnoreTrailingSpace(u[1..], w);
    }
  }

  /** Splitting a string with no surrounding whitespace yields exactly its words. */
  lemma {:induction false} SplitTrimmedIsWords(t: string)
    requires |t| > 0 && !IsJsSpace(t[0]) && !IsJsSpace(t[|t| - 1])
    ensures SplitOnSpaces(t) == Words(t)
    decreases |t|
  {
    if |t| == 1 {
      assert t[1..] == [];
      assert [t[0]] + "" == [t[0]];
      assert SplitOnSpaces(t) == [[t[0]]];
    } else if !IsJsSpace(t[1]) {
      SplitTrimmedIsWords(t[1..]);
    } else {
      var u := TrimStart(Js, t[2..]);
      SpaceRunKeepsLast(t, u);
      SplitTrimmedIsWords(u);
      SplitAtSpaceRun(t, u);
    }
  }

  /** Past a space at index 1, the rest after the run still ends with the last character of `t`. */
  lemma SpaceRunKeepsLast(t: string, u: string)
    requires |t| > 1 && IsJsSpace(t[1]) && !IsJsSpace(t[|t| - 1])
    requires u == TrimStart(Js, t[2..])
    ensures |u| > 0 && !IsJsSpace(u[0]) && u[|u| - 1] == t[|t| - 1] && |u| < |t|
  {
    assert |t| > 2;
    var w := t[2..];
    assert w[|w| - 1] == t[|t| - 1];
    TrimStartKeepsLast(w, u);
  }

  /** Trimming the start of a string that ends with a non-space keeps that last character. */
  lemma {:induction false} TrimStartKeepsLast(w: string, u: string)
    requires |w| > 0 && !IsJsSpace(w[|w| - 1]) && u == TrimStart(Js, w)
    ensures |u| > 0 && !IsJsSpace(u[0]) && u[|u| - 1] == w[|w| - 1] && |u| <= |w|
    decreases |w|
  {
    if IsJsSpace(w[0]) {
      assert |w| > 1;
      assert w[1..][|w| - 2] == w[|w| - 1];
      TrimStartKeepsLast(w[1..], u);
    }
  }

  /** `split(/\s+/)` on a string that starts with whitespace: an empty piece, then the rest after the run. */
  lemma SplitAtLeadingSpace(s: string)
    requires |s| > 0 && IsJsSpace(s[0])
    ensures SplitOnSpaces(s) == [""] + SplitOnSpaces(TrimStart(Js, s[1..]))
  {
  }

  /** One step of `SplitTrimmedIsWords`: a word of one character followed by a space run. */
  lemma SplitAtSpaceRun(t: string, u: string)
    requires |t| > 1 && !IsJsSpace(t[0]) && IsJsSpace(t[1])
    requires u == TrimStart(Js, t[2..]) && SplitOnSpaces(u) == Words(u)
    ensures SplitOnSpaces(t) == Words(t)
  {
    SplitOfSpaceRun(t, u);
    WordsOfSpaceRun(t, u);
  }

  lemma SplitOfSpaceRun(t: string, u: string)
    requires |t| > 1 && !IsJsSpace(t[0]) && IsJsSpace(t[1]) && u == TrimStart(Js, t[2..])
    ensures SplitOnSpaces(t) == [[t[0]]] + SplitOnSpaces(u)
  {
    var s := t[1..];
    assert s[1..] == t[2..];
    SplitAtLeadingSpace(s);
    var rest := SplitOnSpaces(s);
    assert rest[0] == "" && rest[1..] == SplitOnSpaces(u);
    assert [t[0]] + "" == [t[0]];
  }

  lemma WordsOfSpaceRun(t: string, u: string)
    requires |t| > 1 && !IsJsSpace(t[0]) && IsJsSpace(t[1]) && u == TrimStart(Js, t[2..])
    ensures Words(t) == [[t[0]]] + Words(u)
  {
    var s := t[1..];
    assert s[1..] == t[2..];
    assert TrimStart(Js, s) == u;
    WordsSkipLeadingSpace(s);
  }

  /** For non-blank input, `trim().split(/\s+/)` yields the words of the input. */
  lemma SplitOfTrimIsWords(s: string)
    requires !IsBlank(Js, s)
    ensures SplitOnSpaces(Trim(Js, s)) == Words(s)
  {
    var a := TrimStart(Js, s);
    var t := Trim(Js, s);
    assert a == t + a[|t|..];
    WordsIgnoreTrailingSpace(t, a[|t|..]);
    WordsSkipLeadingSpace(s);
    SplitTrimmedIsWords(t);
  }

  /** A string has no words exactly when it is blank. */
  lemma WordsEmptyIffBlank(s: string)
    ensures Words(s) == [] <==> IsBlank(Js, s)
  {
    if IsBlank(Js, s) {
      var a := TrimStart(Js, s);
      assert AllSpace(Js, a[0..]);
      assert a[0..] == a;
      WordsSkipLeadingSpace(s);
      WordsOfSpaces(a);
    } else {
      SplitOfTrimIsWords(s);
    }
  }

  /** Blank input splits into a single empty piece. */
  lemma SplitOfBlank(s: string)
    requires IsBlank(Js, s)
    ensures SplitOnSpaces(Trim(Js, s)) == [""]
  {
  }

  // ---------------------------------------------------------------------------
  // Concatenation and UTF-16

  /** `pieces.join('')`. */
  function Concat(pieces: seq<string>): (r: string)
    ensures pieces == [] ==> r == ""
    decreases |pieces|
  {
    if pieces == [] then "" else pieces[0] + Concat(pieces[1..])
  }

  /** Concatenation of one-character pieces lists those characters in order. */
  lemma {:induction false} ConcatOfSingletons(pieces: seq<string>)
    requires forall i :: 0 <= i < |pieces| ==> |pieces[i]| == 1
    ensures |Concat(pieces)| == |pieces|
    ensures forall i :: 0 <= i < |pieces| ==> Concat(pieces)[i] == pieces[i][0]
    decreases |pieces|
  {
    if pieces != [] {
      ConcatOfSingletons(pieces[1..]);
    }
  }

  /** Concatenation of empty pieces is empty. */
  lemma {:induction false} ConcatOfEmpties(pieces: seq<string>)
    requires forall i :: 0 <= i < |pieces| ==> pieces[i] == ""
    ensures Concat(pieces) == ""
    decreases |pieces|
  {
    if pieces != [] {
      ConcatOfEmpties(pieces[1..]);
    }
  }

  /** The UTF-16 code units of `s`, as `charCodeAt` reads them: one unit per
      Basic Multilingual Plane character, a surrogate pair for the others. */
  function Utf16(s: string): (r: seq<int>)
    ensures |r| >= |s|
    ensures forall i :: 0 <= i < |r| ==> 0 <= r[i] < 0x1_0000
    decreases |s|
  {
    if s == [] then []
    else
      var c := s[0] as int;
      var units := if c < 0x1_0000 then [c]
        else [0xD800 + (c - 0x1_0000) / 0x400, 0xDC00 + (c - 0x1_0000) % 0x400];
      units + Utf16(s[1..])
  }

  /** JavaScript `s.length`. */
  function JsLength(s: string): nat {
    |Utf16(s)|
  }
}

=== FILE: transform.dfy ===
/**
 * Conversion between the domain task and its wire form. As written, the due
 * date goes out as the UTC calendar day of the instant and comes back as local
 * midnight, so in zones east of UTC a day sent back unchanged arrives one day
 * early. `FormatLocalDateForApi` and `ToApiTaskLocal` are the intended
 * behaviour, writing the local calendar day.
 */
module Transform {
  import opened Wrappers
  import opened Calendar
  import opened JsDates
  import opened Tasks

  /** `formatDateForApi`: the part of `toISOString()` before the first `T`. */
  function FormatDateForApi(d: JsDate): (r: Result<string, RangeError>)
    ensures r.Ok? <==> d.Valid?
    ensures d.Valid? ==> r.value == FormatIsoDate(CivilFromDays(UtcDay(d.time)))
  {
    match ToIsoString(d)
    case Err(e) => Err(e)
    case Ok(iso) =>
      var c := CivilFromDays(UtcDay(d.time));
      FormatIsoDateHasNoLetter(c, 'T');
      BeforeFirstOfJoin(FormatIsoDate(c), 'T', iso[|FormatIsoDate(c)| + 1..]);
      assert iso == FormatIsoDate(c) + ['T'] + iso[|FormatIsoDate(c)| + 1..];
      Ok(BeforeFirst(iso, 'T'))
  }

  /**
   * `parseDateFromApi`: `new Date(s + "T00:00:00")`. In this model the
   * appended time makes a valid date-time string exactly when `s` is one of
   * the date forms naming a real day (engines differ on an overlong day such
   * as `2025-02-30`), and a date-time without a zone is read as local time.
   */
  function ParseDateFromApi(s: string, off: int): (d: JsDate)
    requires PlausibleOffset(off)
    ensures d.Valid? <==> ParseDateForm(s).Some?
    ensures ParseIsoDate(s).Some? ==>
      d.Valid? && d.time + off * MsPerMinute == DaysFromCivil(ParseIsoDate(s).value) * MsPerDay
  {
    match ParseDateForm(s)
    case None => Invalid
    case Some(c) => LocalMidnight(c, off)
  }

  /** Every field other than the due date is the same in `t` and `a`. */
  predicate SameFields(t: Task, a: TaskApi) {
    t.id == a.id && t.title == a.title && t.description == a.description
    && t.assignee == a.assignee && t.category == a.category && t.status == a.status
  }

  /** `toApiTask`: the due date is formatted; Invalid Date makes the call throw. */
  function ToApiTask(t: Task): (r: Result<TaskApi, RangeError>)
    ensures r.Ok? <==> t.dueDate.Valid?
    ensures r.Ok? ==> SameFields(t, r.value) && Ok(r.value.dueDate) == FormatDateForApi(t.dueDate)
  {
    match FormatDateForApi(t.dueDate)
    case Err(e) => Err(e)
    case Ok(s) => Ok(TaskApi(t.id, t.title, t.description, t.assignee, t.category, s, t.status))
  }

  /** `fromApiTask`: the due date is parsed; every other field is copied. */
  function FromApiTask(a: TaskApi, off: int): (t: Task)
    requires PlausibleOffset(off)
    ensures SameFields(t, a) && t.dueDate == ParseDateFromApi(a.dueDate, off)
  {
    Task(a.id, a.title, a.description, a.assignee, a.category, ParseDateFromApi(a.dueDate, off), a.status)
  }

  /** West of UTC (and at UTC) a `YYYY-MM-DD` day survives parse then format. */
  lemma ApiDateRoundTripWest(s: string, off: int)
    requires ParseIsoDate(s).Some? && -1440 < off <= 0
    ensures FormatDateForApi(ParseDateFromApi(s, off)) == Ok(s)
  {
    var c := ParseIsoDate(s).value;
    var z := DaysFromCivil(c);
    var d := ParseDateFromApi(s, off);
    UtcDayOfInstant(z, d.time);
    CivilRoundTrip(c);
    FormatOfParse(s);
  }

  /** East of UTC local midnight of day `c` (numbered `z`) falls on the previous UTC day. */
  lemma LocalMidnightEast(c: Civil, z: int, off: int)
    requires ValidDate(c) && 0 <= c.year <= 9999 && z == DaysFromCivil(c) && 0 < off < 1440
    ensures FormatDateForApi(LocalMidnight(c, off)) == Ok(FormatIsoDate(CivilFromDays(z - 1)))
  {
    var d := LocalMidnight(c, off);
    UtcDayBeforeMidnight(d.time, z, off);
    assert FormatDateForApi(d) == Ok(FormatIsoDate(CivilFromDays(UtcDay(d.time))));
  }

  /** An instant a positive offset short of a UTC midnight lies on the UTC day before it. */
  lemma UtcDayBeforeMidnight(t: int, z: int, off: int)
    requires 0 < off < 1440 && t + off * MsPerMinute == z * MsPerDay
    ensures UtcDay(t) == z - 1
  {
    assert 0 < off * MsPerMinute < MsPerDay;
    assert (z - 1) * MsPerDay == z * MsPerDay - MsPerDay;
    UtcDayOfInstant(z - 1, t);
  }

  /** Two distinct days, one of them of years 0..9999, are written differently. */
  lemma WrittenDifferently(p: Civil, c: Civil)
    requires ValidDate(p) && ValidDate(c) && 0 <= c.year <= 9999 && p != c
    ensures FormatIsoDate(p) != FormatIsoDate(c)
  {
    if FormatIsoDate(p) == FormatIsoDate(c) {
      assert |FormatIsoDate(p)| == 10;
      ParseOfFormat(p);
      ParseOfFormat(c);
    }
  }

  /** The day before a day `c` (numbered `z`) of years 0..9999 is written differently from it. */
  lemma PreviousDayWrittenDifferently(c: Civil, z: int)
    requires ValidDate(c) && 0 <= c.year <= 9999 && z == DaysFromCivil(c)
    ensures FormatIsoDate(CivilFromDays(z - 1)) != FormatIsoDate(c)
  {
    assert CivilFromDays(z - 1) != c by {
      CivilRoundTrip(c);
      CivilFromDaysInjective(z - 1, z);
    }
    WrittenDifferently(CivilFromDays(z - 1), c);
  }

  /** East of UTC the day `s`, numbered `z`, comes back as the day before it. */
  lemma ApiDateRoundTripEast(s: string, z: int, off: int)
    requires ParseIsoDate(s).Some? && z == DaysFromCivil(ParseIsoDate(s).value) && 0 < off < 1440
    ensures FormatDateForApi(ParseDateFromApi(s, off)) == Ok(FormatIsoDate(CivilFromDays(z - 1)))
    ensures FormatDateForApi(ParseDateFromApi(s, off)) != Ok(s)
  {
    var c := ParseIsoDate(s).value;
    assert ParseDateFromApi(s, off) == LocalMidnight(c, off) by {
      assert ParseDateForm(s) == Some(c);
    }
    LocalMidnightEast(c, z, off);
    assert FormatIsoDate(c) == s by {
      FormatOfParse(s);
    }
    PreviousDayWrittenDifferently(c, z);
  }

  /** West of UTC a wire task survives `fromApiTask` then `toApiTask` unchanged. */
  lemma ApiTaskRoundTripWest(a: TaskApi, off: int)
    requires ParseIsoDate(a.dueDate).Some? && -1440 < off <= 0
    ensures ToApiTask(FromApiTask(a, off)) == Ok(a)
  {
    ApiDateRoundTripWest(a.dueDate, off);
  }

  /** East of UTC the round trip sends back a different due date. */
  lemma ApiTaskRoundTripEast(a: TaskApi, off: int)
    requires ParseIsoDate(a.dueDate).Some? && 0 < off < 1440
    ensures ToApiTask(FromApiTask(a, off)).Ok?
    ensures ToApiTask(FromApiTask(a, off)).value.dueDate != a.dueDate
  {
    ApiDateRoundTripEast(a.dueDate, DaysFromCivil(ParseIsoDate(a.dueDate).value), off);
  }

  // ---------------------------------------------------------------------------
  // Intended behaviour: write the local calendar day

  /** The local calendar day of the instant as `YYYY-MM-DD`. */
  function FormatLocalDateForApi(d: JsDate, off: int): (r: Result<string, RangeError>)
    ensures r.Ok? <==> d.Valid?
  {
    match d
    case Invalid => Err(InvalidTimeValue)
    case Valid(t) => Ok(FormatIsoDate(CivilFromDays(LocalDay(t, off))))
  }

  /** For every zone a `YYYY-MM-DD` day survives parse then local format. */
  lemma LocalDateRoundTrip(s: string, off: int)
    requires ParseIsoDate(s).Some? && PlausibleOffset(off)
    ensures FormatLocalDateForApi(ParseDateFromApi(s, off), off) == Ok(s)
  {
    var c := ParseIsoDate(s).value;
    var d := ParseDateFromApi(s, off);
    UtcDayOfInstant(DaysFromCivil(c), d.time + off * MsPerMinute);
    CivilRoundTrip(c);
    FormatOfParse(s);
  }

  /** `toApiTask` with the local formatter. */
  function ToApiTaskLocal(t: Task, off: int): (r: Result<TaskApi, RangeError>)
    ensures r.Ok? <==> t.dueDate.Valid?
    ensures r.Ok? ==> SameFields(t, r.value) && Ok(r.value.dueDate) == FormatLocalDateForApi(t.dueDate, off)
  {
    match FormatLocalDateForApi(t.dueDate, off)
    case Err(e) => Err(e)
    case Ok(s) => Ok(TaskApi(t.id, t.title, t.description, t.assignee, t.category, s, t.status))
  }

  /** With the local formatter a wire task survives the round trip in every zone. */
  lemma ApiTaskLocalRoundTrip(a: TaskApi, off: int)
    requires ParseIsoDate(a.dueDate).Some? && PlausibleOffset(off)
    ensures ToApiTaskLocal(FromApiTask(a, off), off) == Ok(a)
  {
    LocalDateRoundTrip(a.dueDate, off);
  }
}

=== FILE: user_colors.dfy ===
/**
 * Avatar colours: a user id is hashed with 32-bit integer arithmetic over its
 * UTF-16 code units, and the absolute hash picks one of sixteen colours.
 */
module UserColors {
  import opened Text
  import opened Calendar

  const UserColorClasses: seq<string> := [
    "bg-blue-500", "bg-purple-500", "bg-pink-500", "bg-rose-500",
    "bg-orange-500", "bg-amber-500", "bg-yellow-500", "bg-lime-500",
    "bg-green-500", "bg-emerald-500", "bg-teal-500", "bg-cyan-500",
    "bg-sky-500", "bg-indigo-500", "bg-violet-500", "bg-fuchsia-500"]

  /** ToInt32: the value modulo 2^32, read as a signed 32-bit integer. */
  function ToInt32(x: int): (r: int)
    ensures -0x8000_0000 <= r < 0x8000_0000
  {
    var m := x % 0x1_0000_0000;
    if m >= 0x8000_0000 then m - 0x1_0000_0000 else m
  }

  /** ToInt32 depends only on the value modulo 2^32. */
  lemma ToInt32Shift(x: int, k: int)
    ensures ToInt32(x + k * 0x1_0000_0000) == ToInt32(x)
  {
    DivMod(x + k * 0x1_0000_0000, 0x1_0000_0000, x / 0x1_0000_0000 + k, x % 0x1_0000_0000);
  }

  /** A signed 32-bit value is its own ToInt32. */
  lemma ToInt32OfInt32(x: int)
    requires -0x8000_0000 <= x < 0x8000_0000
    ensures ToInt32(x) == x
  {
    if x < 0 {
      DivMod(x, 0x1_0000_0000, -1, x + 0x1_0000_0000);
    } else {
      DivMod(x, 0x1_0000_0000, 0, x);
    }
  }

  /**
   * One loop step, as the source writes it: `hash << 5` shifts the 32-bit
   * value (ToInt32 of `hash * 32`), the sum is exact, and `hash & hash`
   * converts back to 32 bits.
   */
  function HashStep(hash: int, code: int): (r: int)
    ensures -0x8000_0000 <= r < 0x8000_0000
  {
    ToInt32(ToInt32(hash * 32) - hash + code)
  }

  /** ToInt32 moves its argument by a whole number of 2^32 steps. */
  lemma ToInt32Wrap(x: int) returns (k: int)
    ensures ToInt32(x) == x + k * 0x1_0000_0000
  {
    var m := x % 0x1_0000_0000;
    var q := x / 0x1_0000_0000;
    assert x == q * 0x1_0000_0000 + m;
    k := if m >= 0x8000_0000 then -q - 1 else -q;
  }

  /** The step is `31 * hash + code` taken to 32 bits. */
  lemma HashStepIsTimes31(hash: int, code: int)
    ensures HashStep(hash, code) == ToInt32(31 * hash + code)
  {
    var k := ToInt32Wrap(hash * 32);
    ToInt32Shift(31 * hash + code, k);
  }

  /** Stepping the 32-bit hash of a prefix gives the 32-bit hash of the longer prefix. */
  lemma HashStepTracksPolynomial(hash: int, p: int, code: int)
    requires hash == ToInt32(p)
    ensures HashStep(hash, code) == ToInt32(31 * p + code)
  {
    HashStepIsTimes31(hash, code);
    var k := ToInt32Wrap(p);
    assert 31 * hash + code == 31 * p + code + (31 * k) * 0x1_0000_0000;
    ToInt32Shift(31 * p + code, 31 * k);
  }

  /** The polynomial hash `sum code[i] * 31^(n-1-i)`, with no overflow. */
  function Polynomial(codes: seq<int>): int {
    if codes == [] then 0 else 31 * Polynomial(codes[..|codes| - 1]) + codes[|codes| - 1]
  }

  function Abs(x: int): nat {
    if x < 0 then -x else x
  }

  /**
   * `hashString`: the loop over the code units, then `Math.abs`. The result
   * is the polynomial hash taken to 32 bits, made non-negative.
   */
  method HashString(str: string) returns (h: int)
    ensures h == Abs(ToInt32(Polynomial(Utf16(str))))
    ensures 0 <= h <= 0x8000_0000
  {
    var codes := Utf16(str);
    var hash := 0;
    var i := 0;
    while i < |codes|
      invariant 0 <= i <= |codes|
      invariant hash == ToInt32(Polynomial(codes[..i]))
    {
      assert codes[..i + 1][..i] == codes[..i];
      HashStepTracksPolynomial(hash, Polynomial(codes[..i]), codes[i]);
      hash := HashStep(hash, codes[i]);
      i := i + 1;
    }
    assert codes[..i] == codes;
    h := Abs(hash);
  }

  /** The empty id hashes to 0. */
  lemma EmptyHashIsZero()
    ensures Abs(ToInt32(Polynomial(Utf16("")))) == 0
  {
    ToInt32OfInt32(0);
  }

  /** `getUserColor`: the hash modulo sixteen indexes the colour list. */
  method GetUserColor(userId: string) returns (color: string)
    ensures color in UserColorClasses
    ensures color == UserColorClasses[Abs(ToInt32(Polynomial(Utf16(userId)))) % 16]
  {
    var hash := HashString(userId);
    color := UserColorClasses[hash % |UserColorClasses|];
  }

  /** `getUserTextColor`: white for every user, since every background is dark. */
  function GetUserTextColor(userId: string): string {
    "text-white"
  }

  /** The text colour does not depend on the user. */
  lemma TextColorIgnoresUser(a: string, b: string)
    ensures GetUserTextColor(a) == GetUserTextColor(b) == "text-white"
  {
  }
}

=== FILE: user_store.dfy ===
/**
 * The backend's user table as the identity-provider sync sees it: rows with
 * the provider's user id (`clerk_id`), email, name, image, and flags. Lookups
 * by provider id take the first matching row, and the table refuses a commit
 * that would give two rows the same email.
 */
module UserStore {
  import opened Wrappers
  import opened Text

  datatype UserRow = UserRow(
    clerkId: string,
    email: string,
    fullName: Option<string>,
    imageUrl: Option<string>,
    isActive: bool,
    isSuperuser: bool)

  /** The table's rows in query order. */
  type Store = seq<UserRow>

  /** `select(User).where(User.clerk_id == id).first()`: the index of the first row with the id. */
  function FirstWith(db: Store, id: string): (r: Option<nat>)
    ensures r.Some? ==> r.value < |db| && db[r.value].clerkId == id
    ensures r.Some? ==> forall j :: 0 <= j < r.value ==> db[j].clerkId != id
    ensures r.None? <==> forall j :: 0 <= j < |db| ==> db[j].clerkId != id
    decreases |db|
  {
    if db == [] then None
    else if db[0].clerkId == id then Some(0)
    else
      match FirstWith(db[1..], id)
      case None => None
      case Some(i) => Some(i + 1)
  }

  /** The first row with the id is the one `FirstWith` finds. */
  lemma FirstWithIs(db: Store, id: string, i: nat)
    requires i < |db| && db[i].clerkId == id
    requires forall j :: 0 <= j < i ==> db[j].clerkId != id
    ensures FirstWith(db, id) == Some(i)
  {
  }

  /** Lookups depend on the ids only: changing other columns never moves them. */
  lemma FirstWithSameIds(db: Store, db': Store, id: string)
    requires |db| == |db'|
    requires forall i :: 0 <= i < |db| ==> db[i].clerkId == db'[i].clerkId
    ensures FirstWith(db', id) == FirstWith(db, id)
  {
    if FirstWith(db, id).Some? {
      FirstWithIs(db', id, FirstWith(db, id).value);
    }
  }

  /** An appended row never hides an earlier one with the same id. */
  lemma FirstWithAppend(db: Store, row: UserRow, id: string)
    ensures FirstWith(db, id).Some? ==> FirstWith(db + [row], id) == FirstWith(db, id)
    ensures FirstWith(db, id).None? && row.clerkId == id ==> FirstWith(db + [row], id) == Some(|db|)
  {
    if FirstWith(db, id).Some? {
      FirstWithIs(db + [row], id, FirstWith(db, id).value);
    } else if row.clerkId == id {
      FirstWithIs(db + [row], id, |db|);
    }
  }

  /** `email` is declared unique: no two rows share one. */
  predicate UniqueEmails(db: Store) {
    forall i, j :: 0 <= i < j < |db| ==> db[i].email != db[j].email
  }

  /** Python's truth value of an optional string: present and non-empty. */
  predicate Truthy(v: Option<string>) {
    v.Some? && v.value != ""
  }

  /** How `f"{v}"` renders an optional string: `None` is written out as the word. */
  function Render(v: Option<string>): string {
    match v
    case None => "None"
    case Some(s) => s
  }
}

=== FILE: user_sync.dfy ===
/**
 * The one-off script that brings the user table in line with the identity
 * provider's user list: it extracts each provider user's data, creates or
 * updates the matching row, optionally deactivates rows the provider no longer
 * knows, and commits once at the end unless it is a dry run.
 */
module UserSync {
  import opened Wrappers
  import opened Text
  import opened UserStore
  import opened Webhooks

  /** A user object of the provider's API. */
  datatype ClerkUser = ClerkUser(
    id: Json,
    primaryEmailAddressId: Json,
    emails: seq<EmailEntry>,
    firstName: Json,
    lastName: Json,
    imageUrl: Json)

  /** `extract_user_data`'s result. */
  datatype UserData = UserData(
    clerkId: Option<string>,
    email: Option<string>,
    fullName: Option<string>,
    imageUrl: Option<string>)

  // ---------------------------------------------------------------------------
  // Extracting a provider user

  /** The first email entry whose id equals the primary id (two missing ids are equal). */
  function FirstEmailWithId(emails: seq<EmailEntry>, pid: Option<string>): (r: Option<nat>)
    ensures r.Some? ==> r.value < |emails| && Get(emails[r.value].id) == pid
    ensures r.Some? ==> forall j :: 0 <= j < r.value ==> Get(emails[j].id) != pid
    ensures r.None? <==> forall j :: 0 <= j < |emails| ==> Get(emails[j].id) != pid
    decreases |emails|
  {
    if emails == [] then None
    else if Get(emails[0].id) == pid then Some(0)
    else
      match FirstEmailWithId(emails[1..], pid)
      case None => None
      case Some(i) => Some(i + 1)
  }

  /**
   * The primary email: the address of the entry the primary id names, or,
   * when that is missing or empty, the first entry's address.
   */
  function PrimaryEmail(emails: seq<EmailEntry>, pid: Option<string>): (r: Option<string>)
    ensures r.Some? ==> exists i :: 0 <= i < |emails| && Get(emails[i].emailAddress) == r
    ensures emails == [] ==> r.None?
    ensures (var k := FirstEmailWithId(emails, pid);
      k.Some? && Truthy(Get(emails[k.value].emailAddress)) ==> r == Get(emails[k.value].emailAddress))
    ensures (var k := FirstEmailWithId(emails, pid);
      !(k.Some? && Truthy(Get(emails[k.value].emailAddress))) && emails != [] ==> r == Get(emails[0].emailAddress))
  {
    var found := match FirstEmailWithId(emails, pid)
      case None => None
      case Some(k) => Get(emails[k].emailAddress);
    if !Truthy(found) && emails != [] then Get(emails[0].emailAddress) else found
  }

  /** `f"{first or ''} {last or ''}".strip() or None`. */
  function SyncFullName(first: Option<string>, last: Option<string>): (r: Option<string>)
    ensures r.None? <==> IsBlank(Py, NameText(first) + " " + NameText(last))
    ensures r.Some? ==> r.value != "" && r.value == Trim(Py, NameText(first) + " " + NameText(last))
  {
    var t := Trim(Py, NameText(first) + " " + NameText(last));
    if t == "" then None else Some(t)
  }

  /**
   * The script and the webhook handlers (with the corrected name rule) name a
   * user alike, except that the script turns a name of only whitespace into no
   * name where the handlers store the empty string.
   */
  lemma SyncNameAgreesWithHandlers(first: Option<string>, last: Option<string>)
    ensures SyncFullName(first, last) == if FullName(first, last) == Some("") then None else FullName(first, last)
  {
    if !Truthy(first) && !Truthy(last) {
      BlankNamesTrimAway(NameText(first), NameText(last));
    }
  }

  lemma BlankNamesTrimAway(a: string, b: string)
    requires a == "" && b == ""
    ensures Trim(Py, a + " " + b) == ""
  {
    var w := a + " " + b;
    assert w == [' '] && IsPySpace(w[0]);
    TrimStartOfSpaces(Py, w, "");
    assert w + "" == w;
  }

  /**
   * `extract_user_data`: the id and image as sent; the email is an address of
   * one of the user's entries, the entry the primary id names when its address
   * is non-empty; the name is the non-blank trimmed join of the two names.
   */
  function ExtractUserData(u: ClerkUser): (r: UserData)
    ensures r.clerkId == Get(u.id) && r.imageUrl == Get(u.imageUrl)
    ensures r.email.Some? ==> exists i :: 0 <= i < |u.emails| && Get(u.emails[i].emailAddress) == r.email
    ensures (var k := FirstEmailWithId(u.emails, Get(u.primaryEmailAddressId));
      k.Some? && Truthy(Get(u.emails[k.value].emailAddress)) ==> r.email == Get(u.emails[k.value].emailAddress))
    ensures r.fullName.Some? ==> (r.fullName.value != ""
      && r.fullName.value == Trim(Py, NameText(Get(u.firstName)) + " " + NameText(Get(u.lastName))))
    ensures r.fullName.None? <==> IsBlank(Py, NameText(Get(u.firstName)) + " " + NameText(Get(u.lastName)))
  {
    UserData(
      Get(u.id),
      PrimaryEmail(u.emails, Get(u.primaryEmailAddressId)),
      SyncFullName(Get(u.firstName), Get(u.lastName)),
      Get(u.imageUrl))
  }

  /** Data `sync_user` accepts: a non-empty id and a non-empty email. */
  predicate Complete(d: UserData) {
    Truthy(d.clerkId) && Truthy(d.email)
  }

  // ---------------------------------------------------------------------------
  // Syncing one user

  datatype Action = Created | Updated | Unchanged | Error

  /** The action taken and the session's view of the table afterwards. */
  datatype Synced = Synced(action: Action, db: Store)

  /** An existing row brought in line with the provider, and reactivated. */
  function SyncedRow(row: UserRow, d: UserData): (r: UserRow)
    requires Complete(d)
    ensures r.clerkId == row.clerkId && r.isSuperuser == row.isSuperuser && r.isActive
    ensures r.email == d.email.value && r.fullName == d.fullName && r.imageUrl == d.imageUrl
  {
    row.(email := d.email.value, fullName := d.fullName, imageUrl := d.imageUrl, isActive := true)
  }

  function NewRow(d: UserData): UserRow
    requires Complete(d)
  {
    UserRow(d.clerkId.value, d.email.value, d.fullName, d.imageUrl, true, false)
  }

  /**
   * `sync_user`: incomplete data is an error; an unknown id creates a row; a
   * known one is updated exactly when some synced column differs. A dry run
   * changes nothing.
   */
  function SyncUser(db: Store, d: UserData, dryRun: bool): (r: Synced)
    ensures r.action == Error <==> !Complete(d)
    ensures dryRun || r.action == Error || r.action == Unchanged ==> r.db == db
    ensures Complete(d) ==> (r.action == Created <==> FirstWith(db, d.clerkId.value).None?)
    ensures r.action == Created && !dryRun ==> r.db == db + [NewRow(d)]
    ensures r.action == Updated || r.action == Unchanged ==> (
      var i := FirstWith(db, d.clerkId.value).value;
      (r.action == Unchanged <==> SyncedRow(db[i], d) == db[i])
      && (!dryRun ==> r.db == db[i := SyncedRow(db[i], d)]))
  {
    if !Complete(d) then Synced(Error, db)
    else
      match FirstWith(db, d.clerkId.value)
      case None => Synced(Created, if dryRun then db else db + [NewRow(d)])
      case Some(i) =>
        var row := db[i];
        var needsUpdate := row.email != d.email.value || row.fullName != d.fullName
          || row.imageUrl != d.imageUrl || !row.isActive;
        if needsUpdate then Synced(Updated, if dryRun then db else db[i := SyncedRow(row, d)])
        else Synced(Unchanged, db)
  }

  /** Syncing the same data a second time finds nothing to change. */
  lemma SyncIsIdempotent(db: Store, d: UserData)
    requires Complete(d)
    ensures SyncUser(SyncUser(db, d, false).db, d, false) == Synced(Unchanged, SyncUser(db, d, false).db)
  {
    var id := d.clerkId.value;
    var first := SyncUser(db, d, false);
    match FirstWith(db, id)
    case None =>
      FirstWithAppend(db, NewRow(d), id);
    case Some(i) =>
      FirstWithIs(first.db, id, i);
  }

  // ---------------------------------------------------------------------------
  // The pass over all provider users

  /** `SyncStats`; `unchanged` is a keyword here, hence `unchangedCount`. */
  datatype Stats = Stats(created: nat, updated: nat, unchangedCount: nat, errors: nat, deactivated: nat)

  function Tally(s: Stats, a: Action): Stats {
    match a
    case Created => s.(created := s.created + 1)
    case Updated => s.(updated := s.updated + 1)
    case Unchanged => s.(unchangedCount := s.unchangedCount + 1)
    case Error => s.(errors := s.errors + 1)
  }

  /** The data the script reads off each provider user, in order. */
  function Extracted(users: seq<ClerkUser>): (r: seq<UserData>)
    ensures |r| == |users|
    ensures forall i :: 0 <= i < |users| ==> r[i] == ExtractUserData(users[i])
  {
    seq(|users|, i requires 0 <= i < |users| => ExtractUserData(users[i]))
  }

  /** How many of the extracted users carry incomplete data. */
  function Incomplete(data: seq<UserData>): nat {
    if data == [] then 0
    else Incomplete(data[..|data| - 1]) + (if Complete(data[|data| - 1]) then 0 else 1)
  }

  datatype Pass = Pass(db: Store, stats: Stats)

  /** The loop of `sync_clerk_users`: every provider user is synced in order and tallied once. */
  function SyncPass(db: Store, data: seq<UserData>, dryRun: bool): (r: Pass)
    ensures r.stats.created + r.stats.updated + r.stats.unchangedCount + r.stats.errors == |data|
    ensures r.stats.errors == Incomplete(data)
    ensures r.stats.deactivated == 0
    ensures dryRun ==> r.db == db
    decreases |data|
  {
    if data == [] then Pass(db, Stats(0, 0, 0, 0, 0))
    else
      var before := SyncPass(db, data[..|data| - 1], dryRun);
      var s := SyncUser(before.db, data[|data| - 1], dryRun);
      Pass(s.db, Tally(before.stats, s.action))
  }

  /** `clerk_user_ids`: the id of every provider user (a missing id never matches a row). */
  function ProviderIds(users: seq<ClerkUser>): set<string> {
    set i | 0 <= i < |users| && Get(users[i].id).Some? :: Get(users[i].id).value
  }

  // ---------------------------------------------------------------------------
  // Deactivating users the provider no longer knows

  /** An active row whose id the provider does not know is switched off. */
  function Retire(row: UserRow, ids: set<string>): UserRow {
    if row.isActive && row.clerkId !in ids then row.(isActive := false) else row
  }

  function RetireAll(db: Store, ids: set<string>): (r: Store)
    ensures |r| == |db|
    ensures forall i :: 0 <= i < |db| ==> r[i] == db[i].(isActive := db[i].isActive && db[i].clerkId in ids)
    decreases |db|
  {
    if db == [] then [] else [Retire(db[0], ids)] + RetireAll(db[1..], ids)
  }

  function ActiveCount(db: Store): nat
    decreases |db|
  {
    if db == [] then 0 else (if db[0].isActive then 1 else 0) + ActiveCount(db[1..])
  }

  /** How many active rows have an id outside `ids`. */
  function MissingCount(db: Store, ids: set<string>): nat
    decreases |db|
  {
    if db == [] then 0
    else (if db[0].isActive && db[0].clerkId !in ids then 1 else 0) + MissingCount(db[1..], ids)
  }

  /** The count of missing users is exactly how many rows lose their active flag. */
  lemma {:induction false} MissingCountIsActiveLoss(db: Store, ids: set<string>)
    ensures MissingCount(db, ids) + ActiveCount(RetireAll(db, ids)) == ActiveCount(db)
    decreases |db|
  {
    if db != [] {
      MissingCountIsActiveLoss(db[1..], ids);
      assert RetireAll(db, ids)[1..] == RetireAll(db[1..], ids);
    }
  }

  datatype Deactivated = Deactivated(db: Store, count: nat)

  /** `deactivate_missing_users`: the count is of active rows unknown to the provider. */
  function DeactivateMissing(db: Store, ids: set<string>, dryRun: bool): (r: Deactivated)
    ensures r.db == if dryRun then db else RetireAll(db, ids)
    ensures r.count + ActiveCount(RetireAll(db, ids)) == ActiveCount(db)
  {
    MissingCountIsActiveLoss(db, ids);
    Deactivated(if dryRun then db else RetireAll(db, ids), MissingCount(db, ids))
  }

  // ---------------------------------------------------------------------------
  // The whole run

  datatype SyncRun = SyncRun(db: Store, outcome: Result<Stats, HandlerError>)

  /**
   * `sync_clerk_users` once the provider's users are fetched: the pass, the
   * optional deactivation, then one commit unless it is a dry run. A refused
   * commit leaves the table as it was.
   */
  function SyncClerkUsers(db: Store, users: seq<ClerkUser>, dryRun: bool, deactivateMissing: bool): (r: SyncRun)
    ensures dryRun ==> r.db == db && r.outcome.Ok?
    ensures r.outcome.Err? ==> r.db == db
    ensures r.outcome.Ok? ==> (
      var s := r.outcome.value;
      s.created + s.updated + s.unchangedCount + s.errors == |users| && s.errors == Incomplete(Extracted(users))
      && (!deactivateMissing ==> s.deactivated == 0))
    ensures r.outcome.Ok? && !dryRun ==> UniqueEmails(r.db)
  {
    var pass := SyncPass(db, Extracted(users), dryRun);
    var off := if deactivateMissing then DeactivateMissing(pass.db, ProviderIds(users), dryRun)
      else Deactivated(pass.db, 0);
    var stats := pass.stats.(deactivated := off.count);
    if dryRun then SyncRun(db, Ok(stats))
    else
      var c := Commit(db, off.db);
      SyncRun(c.db, if c.outcome.Ok? then Ok(stats) else Err(c.outcome.error))
  }

  // ---------------------------------------------------------------------------
  // What a committed run leaves behind

  /** The row a lookup by `id` finds exists and is active. */
  predicate HasActiveRow(db: Store, id: string) {
    FirstWith(db, id).Some? && db[FirstWith(db, id).value].isActive
  }

  /** Syncing one user leaves that user, and every user already active, with an active row. */
  lemma SyncUserKeepsActive(db: Store, d: UserData, x: string)
    requires HasActiveRow(db, x) || (Complete(d) && x == d.clerkId.value)
    ensures HasActiveRow(SyncUser(db, d, false).db, x)
  {
    var r := SyncUser(db, d, false);
    if Complete(d) {
      var id := d.clerkId.value;
      match FirstWith(db, id)
      case None =>
        FirstWithAppend(db, NewRow(d), x);
      case Some(i) =>
        FirstWithSameIds(db, r.db, x);
    }
  }

  /** The id of a provider user with complete data. */
  predicate SyncedId(data: seq<UserData>, x: string) {
    exists i :: 0 <= i < |data| && Complete(data[i]) && data[i].clerkId == Some(x)
  }

  /** A synced id that the last user does not carry is carried by an earlier one. */
  lemma SyncedIdOfEarlier(data: seq<UserData>, x: string)
    requires SyncedId(data, x)
    requires !(Complete(data[|data| - 1]) && data[|data| - 1].clerkId == Some(x))
    ensures SyncedId(data[..|data| - 1], x)
  {
    var i :| 0 <= i < |data| && Complete(data[i]) && data[i].clerkId == Some(x);
    assert data[..|data| - 1][i] == data[i];
  }

  lemma {:induction false} SyncPassKeepsActive(db: Store, data: seq<UserData>, x: string)
    requires SyncedId(data, x)
    ensures HasActiveRow(SyncPass(db, data, false).db, x)
    decreases |data|
  {
    var init := data[..|data| - 1];
    var d := data[|data| - 1];
    var before := SyncPass(db, init, false);
    assert SyncPass(db, data, false).db == SyncUser(before.db, d, false).db;
    if !(Complete(d) && d.clerkId == Some(x)) {
      SyncedIdOfEarlier(data, x);
      SyncPassKeepsActive(db, init, x);
    }
    SyncUserKeepsActive(before.db, d, x);
  }

  /** Deactivation never touches a row whose id the provider knows. */
  lemma RetireKeepsKnownActive(db: Store, ids: set<string>, x: string)
    requires HasActiveRow(db, x) && x in ids
    ensures HasActiveRow(RetireAll(db, ids), x)
  {
    FirstWithSameIds(db, RetireAll(db, ids), x);
  }

  /**
   * After a committed run every provider user with complete data has an active
   * row, and with deactivation every active row belongs to a provider user.
   */
  lemma CommittedSyncMirrorsProvider(db: Store, users: seq<ClerkUser>, deactivateMissing: bool, x: string)
    requires SyncClerkUsers(db, users, false, deactivateMissing).outcome.Ok?
    ensures SyncedId(Extracted(users), x) ==> HasActiveRow(SyncClerkUsers(db, users, false, deactivateMissing).db, x)
    ensures deactivateMissing ==> (
      var after := SyncClerkUsers(db, users, false, deactivateMissing).db;
      forall j :: 0 <= j < |after| && after[j].isActive ==> after[j].clerkId in ProviderIds(users))
  {
    var data := Extracted(users);
    var pass := SyncPass(db, data, false);
    var ids := ProviderIds(users);
    var after := SyncClerkUsers(db, users, false, deactivateMissing).db;
    assert after == if deactivateMissing then RetireAll(pass.db, ids) else pass.db;
    if SyncedId(data, x) {
      SyncPassKeepsActive(db, data, x);
      if deactivateMissing {
        SyncedIdIsProviderId(users, x);
        RetireKeepsKnownActive(pass.db, ids, x);
      }
    }
  }

  /** A user whose extracted data is complete has its id among the provider's ids. */
  lemma SyncedIdIsProviderId(users: seq<ClerkUser>, x: string)
    requires SyncedId(Extracted(users), x)
    ensures x in ProviderIds(users)
  {
    var data := Extracted(users);
    var i :| 0 <= i < |data| && Complete(data[i]) && data[i].clerkId == Some(x);
    assert data[i].clerkId == Get(users[i].id);
    assert Get(users[i].id).Some?;
  }

  /** A dry run reports what it would do and changes nothing. */
  lemma DryRunChangesNothing(db: Store, users: seq<ClerkUser>, deactivateMissing: bool)
    ensures SyncClerkUsers(db, users, true, deactivateMissing).db == db
    ensures SyncClerkUsers(db, users, true, deactivateMissing).outcome.value.deactivated
      == (if deactivateMissing then MissingCount(db, ProviderIds(users)) else 0)
  {
  }
}

=== FILE: webhooks.dfy ===
/**
 * The identity provider's user webhooks: create, update and soft-delete a
 * user row from the event payload. Every handler either commits its change or
 * rolls back, leaving the table as it was.
 */
module Webhooks {
  import opened Wrappers
  import opened Text
  import opened UserStore

  /** A payload field: missing, JSON `null`, or a string. */
  datatype Json = Absent | Null | Str(s: string)

  /** `user_data.get(key)`: `None` for a missing key and for `null` alike. */
  function Get(v: Json): Option<string> {
    if v.Str? then Some(v.s) else None
  }

  /** `user_data.get(key, "")`: the default applies to a missing key only. */
  function GetOr(v: Json, default: string): Option<string> {
    match v
    case Absent => Some(default)
    case Null => None
    case Str(s) => Some(s)
  }

  datatype EmailEntry = EmailEntry(id: Json, emailAddress: Json)

  /** `email_addresses`: missing or `null`, some value that is not a list, or a list. */
  datatype EmailsField = NoEmails | NotAList | EmailList(entries: seq<EmailEntry>)

  datatype Payload = Payload(
    id: Json,
    emails: EmailsField,
    firstName: Json,
    lastName: Json,
    imageUrl: Json)

  /** `WebhookDataError` with its three messages, and the `RuntimeError` raised for a database error. */
  datatype HandlerError = MissingClerkId | MissingEmails | MissingEmailAddress | UserNotFound | DatabaseError

  /** The table after the handler, and whether it raised. */
  datatype Handled = Handled(db: Store, outcome: Result<(), HandlerError>)

  /** `db.commit()`: refused, and rolled back, when it would duplicate an email. */
  function Commit(db: Store, changed: Store): (h: Handled)
    ensures h.outcome.Ok? <==> UniqueEmails(changed)
    ensures h.db == if UniqueEmails(changed) then changed else db
  {
    if UniqueEmails(changed) then Handled(changed, Ok(())) else Handled(db, Err(DatabaseError))
  }

  // ---------------------------------------------------------------------------
  // The full name

  /**
   * `f"{first_name} {last_name}".strip() if first_name or last_name else None`
   * as written: a `None` name is rendered as the word `None`. There is a name
   * exactly when one part is non-empty, and where both parts are present it is
   * the two joined by a space and stripped.
   */
  function FullNameAsWritten(first: Option<string>, last: Option<string>): (r: Option<string>)
    ensures r.None? <==> !Truthy(first) && !Truthy(last)
    ensures first.Some? && last.Some? ==> r == FullName(first, last)
  {
    assert first.Some? ==> Render(first) == NameText(first);
    assert last.Some? ==> Render(last) == NameText(last);
    if Truthy(first) || Truthy(last) then Some(Trim(Py, Render(first) + " " + Render(last))) else None
  }

  /** A string that neither starts nor ends with whitespace is its own trim. */
  lemma TrimOfUnpadded(s: string)
    requires |s| > 0 && !IsPySpace(s[0]) && !IsPySpace(s[|s| - 1])
    ensures Trim(Py, s) == s
  {
  }

  /** A missing first name is written out before the last name. */
  lemma MissingFirstNameIsWrittenOut(last: string)
    requires last != "" && !IsPySpace(last[|last| - 1])
    ensures FullNameAsWritten(None, Some(last)) == Some("None " + last)
  {
    var a := Render(None) + " " + Render(Some(last));
    assert a == "None " + last;
    assert a[0] == 'N' && a[|a| - 1] == last[|last| - 1];
    TrimOfUnpadded(a);
  }

  /** A missing last name is written out after the first name. */
  lemma MissingLastNameIsWrittenOut(first: string)
    requires first != "" && !IsPySpace(first[0])
    ensures FullNameAsWritten(Some(first), None) == Some(first + " None")
  {
    var a := Render(Some(first)) + " " + Render(None);
    assert a == first + " None";
    assert a[0] == first[0] && a[|a| - 1] == 'e';
    TrimOfUnpadded(a);
  }

  /** A `null` first name next to `Doe` yields `None Doe`; `Jane` with no last name yields `Jane None`. */
  lemma NullFirstNameIsWrittenOut()
    ensures FullNameAsWritten(GetOr(Null, ""), GetOr(Str("Doe"), "")) == Some("None Doe")
    ensures FullNameAsWritten(Get(Str("Jane")), Get(Absent)) == Some("Jane None")
  {
    MissingFirstNameIsWrittenOut("Doe");
    assert "None " + "Doe" == "None Doe";
    MissingLastNameIsWrittenOut("Jane");
    assert "Jane" + " None" == "Jane None";
  }

  /** The text of a name: its string, or nothing when it is missing. */
  function NameText(v: Option<string>): string {
    v.GetOr("")
  }

  /** The full name as evidently intended: a missing name contributes nothing. */
  function FullName(first: Option<string>, last: Option<string>): (r: Option<string>)
    ensures r.None? <==> !Truthy(first) && !Truthy(last)
  {
    if Truthy(first) || Truthy(last) then Some(Trim(Py, NameText(first) + " " + NameText(last))) else None
  }

  /**
   * A missing name counts as an empty one; one name next to a missing one is
   * that name alone (stripped); and wherever neither name is missing the two
   * rules agree.
   */
  lemma FullNameIgnoresMissingName(first: Option<string>, last: Option<string>, s: string)
    ensures FullName(None, last) == FullName(Some(""), last)
    ensures FullName(first, None) == FullName(first, Some(""))
    ensures s != "" ==> FullName(None, Some(s)) == Some(Trim(Py, s))
    ensures first.Some? && last.Some? ==> FullName(first, last) == FullNameAsWritten(first, last)
  {
    assert NameText(None) == NameText(Some("")) && !Truthy(None) && !Truthy(Some(""));
    if s != "" {
      assert Truthy(Some(s));
      SpaceThenName(s);
    }
    if first.Some? && last.Some? {
      assert NameText(first) == Render(first) && NameText(last) == Render(last);
    }
  }

  lemma SpaceThenName(s: string)
    ensures Trim(Py, NameText(None) + " " + s) == Trim(Py, s)
  {
    assert IsPySpace(' ');
    assert AllSpace(Py, " ") && AllSpace(Py, "");
    TrimIgnoresSurroundingSpace(Py, " ", s, "");
    assert NameText(None) + " " + s == " " + s + "";
  }

  // ---------------------------------------------------------------------------
  // The handlers

  /** The payload names a first email address that is not empty. */
  predicate HasPrimaryEmail(p: Payload) {
    p.emails.EmailList? && |p.emails.entries| > 0 && Truthy(Get(p.emails.entries[0].emailAddress))
  }

  /** `email_addresses[0].get("email_address")`, where it is a non-empty string. */
  function PrimaryOf(p: Payload): (r: string)
    requires HasPrimaryEmail(p)
    ensures r != "" && Get(p.emails.entries[0].emailAddress) == Some(r)
  {
    Get(p.emails.entries[0].emailAddress).value
  }

  /**
   * The row `handle_user_created` adds: the provider id, the first email, the
   * name as written, the image, active and not a superuser.
   */
  function CreatedRow(p: Payload): (r: UserRow)
    requires Truthy(Get(p.id)) && HasPrimaryEmail(p)
    ensures Some(r.clerkId) == Get(p.id) && r.email == PrimaryOf(p)
    ensures r.fullName == FullNameAsWritten(GetOr(p.firstName, ""), GetOr(p.lastName, ""))
    ensures r.imageUrl == Get(p.imageUrl) && r.isActive && !r.isSuperuser
  {
    UserRow(p.id.s, PrimaryOf(p), FullNameAsWritten(GetOr(p.firstName, ""), GetOr(p.lastName, "")),
            Get(p.imageUrl), true, false)
  }

  /**
   * `handle_user_created`: the id is checked first, then the email list, then
   * its first address; a well-formed event appends its row, and the commit is
   * refused exactly when that row repeats an email already in the table.
   */
  function HandleUserCreated(db: Store, p: Payload): (h: Handled)
    ensures h.outcome.Err? ==> h.db == db
    ensures h.outcome == Err(MissingClerkId) <==> !Truthy(Get(p.id))
    ensures Truthy(Get(p.id)) ==>
      (h.outcome == Err(MissingEmails) <==> !(p.emails.EmailList? && |p.emails.entries| > 0))
    ensures Truthy(Get(p.id)) && p.emails.EmailList? && |p.emails.entries| > 0 ==>
      (h.outcome == Err(MissingEmailAddress) <==> !HasPrimaryEmail(p))
    ensures h.outcome.Ok? ==> Truthy(Get(p.id)) && HasPrimaryEmail(p)
    ensures Truthy(Get(p.id)) && HasPrimaryEmail(p) ==>
      (h.outcome.Ok? <==> UniqueEmails(db + [CreatedRow(p)]))
      && (h.outcome.Ok? ==> h.db == db + [CreatedRow(p)])
      && (h.outcome.Err? ==> h.outcome == Err(DatabaseError))
  {
    if !Truthy(Get(p.id)) then Handled(db, Err(MissingClerkId))
    else if !(p.emails.EmailList? && |p.emails.entries| > 0) then Handled(db, Err(MissingEmails))
    else if !HasPrimaryEmail(p) then Handled(db, Err(MissingEmailAddress))
    else Commit(db, db + [CreatedRow(p)])
  }

  /** A well-formed event whose email is new to a consistent table is stored. */
  lemma CreateWithNewEmailSucceeds(db: Store, p: Payload)
    requires UniqueEmails(db) && Truthy(Get(p.id)) && HasPrimaryEmail(p)
    requires forall i :: 0 <= i < |db| ==> db[i].email != PrimaryOf(p)
    ensures HandleUserCreated(db, p).outcome.Ok?
    ensures HandleUserCreated(db, p).db == db + [CreatedRow(p)]
  {
    var changed := db + [CreatedRow(p)];
    forall i, j | 0 <= i < j < |changed|
      ensures changed[i].email != changed[j].email
    {
      if j == |db| {
        assert changed[j].email == PrimaryOf(p);
      } else {
        assert changed[i] == db[i] && changed[j] == db[j];
      }
    }
  }

  /** A `null` first name next to `Doe` is stored as the name `None Doe`. */
  lemma CreateStoresNoneDoe(db: Store)
    requires forall i :: 0 <= i < |db| ==> db[i].email != "jd@example.com"
    requires UniqueEmails(db)
    ensures var p := Payload(Str("user_1"), EmailList([EmailEntry(Absent, Str("jd@example.com"))]),
                             Null, Str("Doe"), Absent);
      HandleUserCreated(db, p).db == db + [UserRow("user_1", "jd@example.com", Some("None Doe"), None, true, false)]
  {
    var p := Payload(Str("user_1"), EmailList([EmailEntry(Absent, Str("jd@example.com"))]),
                     Null, Str("Doe"), Absent);
    assert PrimaryOf(p) == "jd@example.com";
    CreateWithNewEmailSucceeds(db, p);
    NullFirstNameIsWrittenOut();
  }

  /**
   * The row after an update event: the email becomes the first address when
   * there is one, the name is rewritten (as written) when either part is a
   * string, and the image follows the payload whenever the key is present, a
   * `null` clearing it. Nothing else changes.
   */
  function UpdatedRow(row: UserRow, p: Payload): (r: UserRow)
    ensures r.clerkId == row.clerkId && r.isActive == row.isActive && r.isSuperuser == row.isSuperuser
    ensures r.email == if HasPrimaryEmail(p) then PrimaryOf(p) else row.email
    ensures Get(p.firstName).Some? || Get(p.lastName).Some? ==>
      r.fullName == FullNameAsWritten(Get(p.firstName), Get(p.lastName))
    ensures Get(p.firstName).None? && Get(p.lastName).None? ==> r.fullName == row.fullName
    ensures p.imageUrl.Absent? ==> r.imageUrl == row.imageUrl
    ensures p.imageUrl.Null? ==> r.imageUrl.None?
    ensures p.imageUrl.Str? ==> r.imageUrl == Some(p.imageUrl.s)
  {
    var email := if HasPrimaryEmail(p) then PrimaryOf(p) else row.email;
    var first, last := Get(p.firstName), Get(p.lastName);
    var fullName := if first.Some? || last.Some? then FullNameAsWritten(first, last) else row.fullName;
    var imageUrl := if p.imageUrl.Absent? then row.imageUrl else Get(p.imageUrl);
    row.(email := email, fullName := fullName, imageUrl := imageUrl)
  }

  /** A first name sent without a last name is stored as `Jane None`. */
  lemma UpdateStoresJaneNone(row: UserRow)
    ensures UpdatedRow(row, Payload(Str(row.clerkId), NoEmails, Str("Jane"), Absent, Absent)).fullName == Some("Jane None")
  {
    NullFirstNameIsWrittenOut();
  }

  /**
   * `handle_user_updated`: the first row with the id is updated; an unknown id
   * raises; the commit is refused exactly when the new email is another row's.
   */
  function HandleUserUpdated(db: Store, p: Payload): (h: Handled)
    ensures h.outcome.Err? ==> h.db == db
    ensures h.outcome == Err(MissingClerkId) <==> !Truthy(Get(p.id))
    ensures Truthy(Get(p.id)) ==> (h.outcome == Err(UserNotFound) <==> FirstWith(db, p.id.s).None?)
    ensures Truthy(Get(p.id)) && FirstWith(db, p.id.s).Some? ==> (
      var i := FirstWith(db, p.id.s).value;
      (h.outcome.Ok? <==> UniqueEmails(db[i := UpdatedRow(db[i], p)]))
      && (h.outcome.Err? ==> h.outcome == Err(DatabaseError)))
    ensures h.outcome.Ok? ==> (
      var i := FirstWith(db, p.id.s).value;
      |h.db| == |db| && h.db[i] == UpdatedRow(db[i], p)
      && forall j :: 0 <= j < |db| && j != i ==> h.db[j] == db[j])
  {
    if !Truthy(Get(p.id)) then Handled(db, Err(MissingClerkId))
    else
      match FirstWith(db, p.id.s)
      case None => Handled(db, Err(UserNotFound))
      case Some(i) => Commit(db, db[i := UpdatedRow(db[i], p)])
  }

  /**
   * An update of a known user on a consistent table is stored when it sends no
   * email or one no other row has.
   */
  lemma UpdateWithOwnEmailSucceeds(db: Store, p: Payload)
    requires UniqueEmails(db) && Truthy(Get(p.id)) && FirstWith(db, p.id.s).Some?
    requires HasPrimaryEmail(p) ==>
      forall j :: 0 <= j < |db| && j != FirstWith(db, p.id.s).value ==> db[j].email != PrimaryOf(p)
    ensures HandleUserUpdated(db, p).outcome.Ok?
  {
    var i := FirstWith(db, p.id.s).value;
    var changed := db[i := UpdatedRow(db[i], p)];
    forall a, b | 0 <= a < b < |changed|
      ensures changed[a].email != changed[b].email
    {
      if a == i || b == i {
        assert HasPrimaryEmail(p) ==> changed[i].email == PrimaryOf(p);
        assert !HasPrimaryEmail(p) ==> changed[i].email == db[i].email;
      } else {
        assert changed[a] == db[a] && changed[b] == db[b];
      }
    }
  }

  /** `handle_user_deleted`: a soft delete; only `is_active` of the first matching row changes. */
  function HandleUserDeleted(db: Store, p: Payload): (h: Handled)
    ensures h.outcome.Err? ==> h.db == db
    ensures h.outcome == Err(MissingClerkId) <==> !Truthy(Get(p.id))
    ensures Truthy(Get(p.id)) ==> (h.outcome == Err(UserNotFound) <==> FirstWith(db, p.id.s).None?)
    ensures h.outcome.Ok? ==> (
      var i := FirstWith(db, p.id.s).value;
      |h.db| == |db| && h.db[i] == db[i].(isActive := false)
      && forall j :: 0 <= j < |db| && j != i ==> h.db[j] == db[j])
  {
    if !Truthy(Get(p.id)) then Handled(db, Err(MissingClerkId))
    else
      match FirstWith(db, p.id.s)
      case None => Handled(db, Err(UserNotFound))
      case Some(i) => Commit(db, db[i := db[i].(isActive := false)])
  }

  /** A soft delete never changes emails, so its commit cannot be refused on a consistent table. */
  lemma DeleteOfKnownUserSucceeds(db: Store, p: Payload)
    requires UniqueEmails(db) && Truthy(Get(p.id)) && FirstWith(db, p.id.s).Some?
    ensures HandleUserDeleted(db, p).outcome.Ok?
    ensures !HandleUserDeleted(db, p).db[FirstWith(db, p.id.s).value].isActive
  {
    var i := FirstWith(db, p.id.s).value;
    var changed := db[i := db[i].(isActive := false)];
    assert forall j :: 0 <= j < |db| ==> changed[j].email == db[j].email;
  }

  /** Every handler keeps a table with unique emails so. */
  lemma HandlersKeepEmailsUnique(db: Store, p: Payload)
    requires UniqueEmails(db)
    ensures UniqueEmails(HandleUserCreated(db, p).db)
    ensures UniqueEmails(HandleUserUpdated(db, p).db)
    ensures UniqueEmails(HandleUserDeleted(db, p).db)
  {
  }
}

=== FILE: wrappers.dfy ===
/** Optional values and results shared by every module of the model. */
module Wrappers {

  /** A value that may be missing: JavaScript `undefined`/`null`, Python `None`. */
  datatype Option<+T> = None | Some(value: T) {

    /** The wrapped value, or `default` when it is missing. */
    function GetOr(default: T): T {
      match this
      case Some(v) => v
      case None => default
    }
  }

  /** The outcome of an operation that may raise. */
  datatype Result<+T, +E> = Ok(value: T) | Err(error: E)
}
